=== FILE: README.md ===
# predictive_punter in Dafny

A Dafny model of the core of predictive_punter, a horse-racing predictor. The program:

- extends the racing_data entities (races, runners, performances) with derived values;
- turns each runner into a sample row of query data with classification and regression labels;
- keeps, per group of similar races, a cache of scikit-learn predictors, which it generates, trains and prunes;
- turns each predictor's estimations for a race into four picks;
- values each pick against the race's winning combinations for the win, exacta, trifecta and first-four bets.

Around that core sit the date range walked by the commands and the command-line parsing shared by the commands.

One module per source file:

| module | file |
|---|---|
| `CombinationUtils` | `combination_utils.dfy` |
| `Races` | `race.dfy` |
| `Runners` | `runner.dfy` |
| `Samples` | `sample.dfy` |
| `Predictions` | `prediction.dfy` |
| `Predictors` | `predictor.dfy` |
| `DateUtils` | `date_utils.dfy` |
| `Commands` | `command.dfy` |

Shared definitions live in four further modules:

- `Wrappers`: `Option`, `Result` and the Python exceptions that surface as values.
- `Seqs`: `Filter`, `SubseqOf`, `Init` and `Last`.
- `RacingData`: the runner and performance records.
- `Versions`: the package version and its major part.

### How the model is written

- Code that builds lists in loops is a `method` with a `for` or `while` loop. Each such method is proved equal to a recursive specification function. This covers:
  - the combination recursion and its duplicate removal;
  - bucketing runners by result;
  - grouping estimations;
  - filling picks;
  - summing returns;
  - generating and refitting predictors;
  - collecting training rows;
  - walking dates;
  - applying options.

  The properties the source promises are then lemmas about those functions.
- Objects whose fields the source updates in place are classes:
  - The predictor cache and its lock table are `Predictors.PredictorCache`.
  - A stored sample, whose fixed query data is filled in and saved on first read, is `Samples.Sample`; `saves` counts its saves.
- Everything the core cannot see is a function-valued parameter:
  - the estimator's `predict` (`estimate`);
  - `generate_predictor` with its database save (`save`);
  - `partial_fit` (`fits`);
  - `strptime` (`parseDate`);
  - the clock.
- Days are whole day numbers.
- Python exceptions the code lets escape are `Failure` values carrying the exception's type.

### Combinations

`get_combinations` drops only the tuples that name an item twice. So `[[1, 2], [2, 3]]` gives `[[1, 2], [1, 3], [2, 3]]`: the tuple (2, 2) is dropped and (2, 3) is kept (`CombinationUtils.CombinationsExample`).

## Model

| member | source | states |
|---|---|---|
| CombinationUtils.Product | predictive_punter/combination_utils.py:4-14 | the full cartesian product of the picks, with no repeat removal; pinned by ProductMembership, ProductSize and ProductFromAt |
| CombinationUtils.RemoveRepeats | predictive_punter/combination_utils.py:16-23 | the combinations that name no item twice, in order; pinned by FindRepeats, DeleteIndices and NoRepeatsIffCountsAtMostOne |
| CombinationUtils.Combinations | predictive_punter/combination_utils.py:1-25 | `get_combinations` returns None exactly when there are no picks |
| CombinationUtils.CombinationsAreRepeatFreeProduct | predictive_punter/combination_utils.py:1-25 | removing repeats at every level of the recursion equals taking the full cartesian product of the picks and then dropping every combination that names an item twice |
| CombinationUtils.CombinationsMembership | predictive_punter/combination_utils.py:1-25 | a list is a combination iff it takes one item from each pick, in order, and names no item twice |
| CombinationUtils.CombinationsShape | predictive_punter/combination_utils.py:1-25 | every combination has one entry per pick, each taken from its pick, with no repeats |
| CombinationUtils.CombinationsKeepProductOrder | predictive_punter/combination_utils.py:4-14 | combinations come out in product order: they form a subsequence of the cartesian product |
| CombinationUtils.CombinationsOfOneList | predictive_punter/combination_utils.py:9-11 | a single pick yields one singleton per item |
| CombinationUtils.CombinationsWithEmptyPick | predictive_punter/combination_utils.py:4-14 | an empty pick anywhere yields no combination at all |
| CombinationUtils.CombinationsExample | predictive_punter/combination_utils.py:1-25 | `[[1,2],[2,3]]` gives `[[1,2],[1,3],[2,3]]`; only `[2,2]` is dropped |
| CombinationUtils.ExampleProduct | predictive_punter/combination_utils.py:4-14 | before removal `[[1,2],[2,3]]` builds all four pairs in order |
| CombinationUtils.ExampleFilter | predictive_punter/combination_utils.py:16-23 | duplicate removal on those four pairs drops only `[2,2]` |
| CombinationUtils.ProductSize | predictive_punter/combination_utils.py:4-14 | the number of combinations before removal is the product of the pick sizes |
| CombinationUtils.ProductFromAt | predictive_punter/combination_utils.py:7-14 | item `a` joined with continuation `b` sits at index `a * len(rest) + b` |
| CombinationUtils.ProductFromSize | predictive_punter/combination_utils.py:7-14 | one level builds `len(items) * len(rest)` combinations |
| CombinationUtils.ProductMembership | predictive_punter/combination_utils.py:4-14 | a list is in the product iff its length is the number of picks and its i-th entry is in the i-th pick |
| CombinationUtils.AppendProducts | predictive_punter/combination_utils.py:7-14 | the loop builds singletons when the recursion gave None, otherwise each item prepended to each continuation |
| CombinationUtils.FindRepeats | predictive_punter/combination_utils.py:16-21 | the indices collected are exactly those of the combinations that repeat an item, in increasing order |
| CombinationUtils.DeleteIndices | predictive_punter/combination_utils.py:22-23 | deleting those indices from the highest down leaves exactly the repeat-free combinations, in order |
| CombinationUtils.DeleteLastRepeat | predictive_punter/combination_utils.py:22-23 | deleting the highest remaining repeat index keeps the tuples before it and leaves the filtered list from it on |
| CombinationUtils.NothingLeftToDelete | predictive_punter/combination_utils.py:22-23 | with no repeat index left the list is the repeat-free filter of the product |
| CombinationUtils.GetCombinations | predictive_punter/combination_utils.py:1-25 | the recursive procedure returns `Combinations(picks)` |
| CombinationUtils.LastRepeat | predictive_punter/combination_utils.py:16-23 | the last collected index names a repeating combination, all after it are repeat-free, and the earlier indices are those of the prefix |
| CombinationUtils.NoRepeatIndices | predictive_punter/combination_utils.py:16-21 | no collected index means every combination is repeat-free |
| CombinationUtils.NoRepeatsIffCountsAtMostOne | predictive_punter/combination_utils.py:17-20 | the count-based test (some item counted more than once) flags a combination exactly when it repeats an item |
| Races.ActiveRunners | predictive_punter/race.py:4-13 | the active runners are exactly the non-scratched runners, in race order; each kept one occurs as often as in the input and every other occurs not at all |
| Races.WinningCombinations | predictive_punter/race.py:16-53 | zero places always raises (`len(None)`); membership, count and the missing-place case are the lemmas below |
| Races.ResultCombinations | predictive_punter/race.py:19-33 | the inner recursion gives None exactly when there are no places |
| Races.ResultCombinationsIsProduct | predictive_punter/race.py:19-33 | for at least one place, the inner recursion is the cartesian product of the place buckets |
| Races.BucketResults | predictive_punter/race.py:35-41 | one bucket per place; bucket `k` holds the active runners finishing `k+1`, in race order |
| Races.Finishers | predictive_punter/race.py:35-41 | the active runners whose result is the given place, in race order; pinned by FinishersMembership |
| Races.Buckets | predictive_punter/race.py:35-41 | one bucket per place, bucket `k` holding the finishers in place `k+1`; pinned by BucketResults and BucketProductMembership |
| Races.FinishersMembership | predictive_punter/race.py:39-41 | a runner is in a place's bucket iff it is active and has that result |
| Races.BucketProductMembership | predictive_punter/race.py:35-43 | a combination is in the product iff it has one runner per place, each of which finished in that place |
| Races.GetResultCombinations | predictive_punter/race.py:19-33 | the inner recursion returns `ResultCombinations` |
| Races.GetWinningCombinations | predictive_punter/race.py:16-53 | the method returns `WinningCombinations` |
| Races.RemoveAtUnreachable | predictive_punter/race.py:44-51 | no winning combination names a runner twice, so the `removeAt` call is never reached: the result is the plain product of the buckets |
| Races.NoPlacesRaises | predictive_punter/race.py:43-44 | zero places makes the recursion return None, and `len(None)` raises |
| Races.WinningCombinationsMembership | predictive_punter/race.py:16-53 | a tuple is winning iff it lists, place by place, an active runner that finished in that place |
| Races.WinningCombinationsCount | predictive_punter/race.py:16-53 | the number of winning combinations is the product of the bucket sizes, so dead heats multiply them |
| Races.WinningCombinationsMissingPlace | predictive_punter/race.py:16-53 | when nobody filled some place up to `places`, there is no winning combination |
| Races.WinningCombinationsWithoutDeadHeat | tests/race_test.py:22-37 | with exactly one finisher in each place, the only winning combination is the place-getters in order |
| Races.BucketsWithoutDeadHeat | predictive_punter/race.py:35-43 | with one finisher per place, the product of the buckets is that single list of place-getters |
| Races.ProductOfSingletons | predictive_punter/race.py:19-33 | a product of one-runner buckets is the single list of their heads |
| Races.ProductWithEmptyPick | predictive_punter/race.py:19-33 | an empty bucket empties the product |
| Runners.ExpectedTimes | predictive_punter/runner.py:7-14 | without an actual distance the result is three Nones; otherwise one entry per momentum, None exactly for a missing momentum, and each time times its momentum equals distance times weight |
| Runners.ExpectedTime | predictive_punter/runner.py:10-12 | the expected time exists iff the momentum does, and then time × momentum = distance × weight |
| Runners.RacesPerYear | predictive_punter/runner.py:19-24 | defined iff the age is known and positive, and then rate × age = career starts |
| Runners.JockeyCareer | predictive_punter/runner.py:62-69 | without a jockey, nothing; otherwise exactly the jockey's performances dated before the meet, in order; each kept one occurs as often as in the input and every other occurs not at all |
| Runners.JockeyLast12Months | predictive_punter/runner.py:74-81 | exactly the career performances no more than 365 days before the meet, in order; each kept one occurs as often as in the input and every other occurs not at all |
| Runners.JockeyAtDistance | predictive_punter/runner.py:38-45 | exactly the career performances with a known distance strictly within 100 m of a known race distance, in order; none when the race distance is unknown; each kept one occurs as often as in the input and every other occurs not at all |
| Runners.TrackNames | predictive_punter/runner.py:135-139 | the first alternative-name list containing the track, or the track alone if none does; the track is always among its names |
| Runners.JockeyOnTrack | predictive_punter/runner.py:131-144 | exactly the career performances at the track under any of its names, in order; each kept one occurs as often as in the input and every other occurs not at all |
| Runners.JockeyAtDistanceOnTrack | predictive_punter/runner.py:50-57 | exactly the at-distance performances that are also on-track, in at-distance order; each kept one occurs as often as in the input and every other occurs not at all |
| Runners.AtDistanceOnTrackIsOneFilter | predictive_punter/runner.py:43-55 | at-distance-on-track is the career filtered once by both conditions together |
| Runners.Upper | predictive_punter/runner.py:164 | upper-casing keeps the length |
| Runners.JockeyOnTrackCondition | predictive_punter/runner.py:161-164 | exactly the career performances whose known track condition contains the condition, ignoring case, in order; each kept one occurs as often as in the input and every other occurs not at all |
| Runners.JockeyOnFirm | predictive_punter/runner.py:87-90 | exactly the career performances whose condition mentions FIRM, each as often as in the career |
| Runners.JockeyOnGood | predictive_punter/runner.py:96-99 | exactly the career performances whose condition mentions GOOD, each as often as in the career |
| Runners.JockeyOnHeavy | predictive_punter/runner.py:105-108 | exactly the career performances whose condition mentions HEAVY, each as often as in the career |
| Runners.JockeyOnSoft | predictive_punter/runner.py:114-117 | exactly the career performances whose condition mentions SOFT, each as often as in the career |
| Runners.JockeyOnSynthetic | predictive_punter/runner.py:123-126 | exactly the career performances whose condition mentions SYNTHETIC, each as often as in the career |
| Runners.JockeyOnTurf | predictive_punter/runner.py:149-156 | exactly the career performances with a known track condition that does not mention SYNTHETIC in any case, in order; each kept one occurs as often as in the input and every other occurs not at all |
| Runners.UpperOfUpperCase | predictive_punter/runner.py:164 | upper-casing an upper-case condition name leaves it unchanged, so FIRM ... SYNTHETIC are matched as written |
| Runners.TurfAndSyntheticPartition | predictive_punter/runner.py:122-156 | a performance with a known condition is on turf iff it is not synthetic; one without a condition is in neither list |
| Runners.ConditionIgnoresCase | predictive_punter/runner.py:164 | the GOOD list takes a performance whose condition reads "good 3" |
| Samples.FieldsRow | predictive_punter/sample.py:15-19 | one feature per record or attribute key |
| Samples.StatsRow | predictive_punter/sample.py:23-24 | one feature per statistic key (nine of them) |
| Samples.ClassificationLabel | predictive_punter/sample.py:39 | the label is 1-5; below 5 exactly when the result is a place 1-4, and then it is that result |
| Samples.AllResults | predictive_punter/sample.py:29 | the list starts with the runner's own result |
| Samples.SumOfSquares | predictive_punter/sample.py:30-31 | a sum of squares is non-negative |
| Samples.RegressionLabel | predictive_punter/sample.py:27-33 | the label exists exactly when the runner has a result |
| Samples.RegressionLabelSquared | predictive_punter/sample.py:27-33 | the label is the runner's result over the L2 norm of all the race's results: label² × Σ results² = result² |
| Samples.RegressionLabelBounds | predictive_punter/sample.py:27-33 | for a placed runner, 0 < label ≤ 1 |
| Samples.RegressionLabelAlone | predictive_punter/sample.py:27-33 | a runner whose result is the only one gets the label 1 |
| Samples.GenerateSample | predictive_punter/sample.py:11-42 | the record holds the raw row, no fixed row, the regression and classification labels, the race's total value as weight, and the package version |
| Samples.FieldColumns | predictive_punter/sample.py:15-19 | the first eight columns are the three record fields and the five attributes, in key order |
| Samples.ListColumns | predictive_punter/sample.py:20-25 | after the fields come the blocks of the fifteen performance lists, in key order |
| Samples.BlockColumns | predictive_punter/sample.py:21-25 | one performance-list block is its expected times, then its nine statistics, then its starting prices |
| Samples.RawQueryDataHead | predictive_punter/sample.py:15-19 | the row opens with barrier, number, weight, age, carrying, races per year, spell and up, in that order |
| Samples.BlockSize | predictive_punter/sample.py:21-25 | a block is 3 or one-per-momentum expected times, plus 9, plus one per starting price |
| Samples.BlocksPrefix | predictive_punter/sample.py:20-25 | block `k` sits in the concatenation right after the blocks before it |
| Samples.RawQueryDataBlock | predictive_punter/sample.py:15-25 | each list's block sits at its offset in the raw row, and statistic `j` of list `k` is at the offset plus the expected-time count plus `j` |
| Samples.BlockInRow | predictive_punter/sample.py:20-25 | the block of the k-th performance list sits in the row where the earlier blocks end |
| Samples.StatInBlock | predictive_punter/sample.py:22-24 | within a block, the nine statistics follow the expected times, in key order |
| Samples.Sample.constructor | predictive_punter/sample.py:44-48 | a loaded sample keeps its raw row, its stored fixed row (if any) and its version, and has not been saved yet |
| Samples.Sample.FixedQueryData | predictive_punter/sample.py:44-59 | a first read stores the fixed row computed from this row followed by the other runners' rows, and saves exactly once; a later read returns the stored row and saves nothing; the raw row and version never change |
| Samples.ReadFixedQueryDataTwice | predictive_punter/sample.py:44-59 | two reads return the same row, even when the second sees other rows or another imputer; the sample is saved at most once and its raw row is unchanged |
| Samples.Sample.HasExpired | predictive_punter/sample.py:61-65 | a sample has expired exactly when the major part of its version is not 1 |
| Versions.Major | predictive_punter/sample.py:65 | the major part has no dot and is the whole version or the text before its first dot |
| Versions.MajorOfDotted | predictive_punter/sample.py:65 | the major part of `m.rest` is `m` for a dot-free `m` |
| Versions.MajorOfVersion | predictive_punter/__init__.py:1 | the package's major version is "1" |
| Versions.SameMajor | predictive_punter/prediction.py:101 | versions that differ only after the first dot share a major part |
| Versions.Incompatible | predictive_punter/sample.py:62-65 | data is stale iff its version is neither "1" nor starts with "1." |
| Predictions.Places | predictive_punter/prediction.py:11-16 | each bet type covers 1 to 4 places |
| Predictions.EstimationsAreGroups | predictive_punter/prediction.py:40-49 | an estimate is a key iff some active runner got it, and its list is the numbers of those runners in race order |
| Predictions.GroupMembership | predictive_punter/prediction.py:40-49 | a number is in an estimate's group iff some active runner with that number got that estimate |
| Predictions.BuildEstimations | predictive_punter/prediction.py:40-49 | the loop builds `Estimations`; runners whose prediction fails are skipped |
| Predictions.ClassifierPicks | predictive_punter/prediction.py:51-56 | a classifier always gives four picks |
| Predictions.FillClassifierPicks | predictive_punter/prediction.py:51-56 | the loops build `ClassifierPicks` |
| Predictions.ClassifierPicksAreGroups | predictive_punter/prediction.py:51-56 | pick `p` is the group of runners whose estimate is the class `p+1` |
| Predictions.MinOf | predictive_punter/prediction.py:59 | the minimum of a non-empty key set is in it and below all its keys |
| Predictions.SortedKeys | predictive_punter/prediction.py:59 | the keys in strictly increasing order, each once |
| Predictions.Repeat | predictive_punter/prediction.py:60-63 | a group of size k is entered k times |
| Predictions.Take4 | predictive_punter/prediction.py:62 | at most four picks are kept |
| Predictions.PadTo4 | predictive_punter/prediction.py:64-66 | short pick lists are padded to four |
| Predictions.RegressorPicks | predictive_punter/prediction.py:57-67 | a regressor always gives four picks |
| Predictions.Take4Snoc | predictive_punter/prediction.py:62-63 | one more pick is kept iff fewer than four are held |
| Predictions.FillRegressorPicks | predictive_punter/prediction.py:57-67 | the loops build `RegressorPicks` |
| Predictions.TakeGroups | predictive_punter/prediction.py:59-63 | the groups in key order, one place per runner, cut at four places |
| Predictions.PadPicks | predictive_punter/prediction.py:64-66 | the taken picks are kept and followed by empty lists up to four places |
| Predictions.AppendGroup | predictive_punter/prediction.py:60-63 | the inner loop adds the group once per member, up to four picks |
| Predictions.ExpandSize | predictive_punter/prediction.py:59-63 | the expanded list has the summed group sizes as length |
| Predictions.ExpandAt | predictive_punter/prediction.py:59-63 | positions within the span of key `t` hold key `t`'s group |
| Predictions.SizesPrefix | predictive_punter/prediction.py:59-63 | the span of key `t` lies within the whole expansion |
| Predictions.RegressorPicksRank | predictive_punter/prediction.py:57-67 | pick `i` is the group of the `t`-th smallest estimate when `i` falls in that group's span (runners tied on an estimate share its pick) |
| Predictions.RegressorPicksPadding | predictive_punter/prediction.py:64-66 | picks past all the groups are empty |
| Predictions.Picks | predictive_punter/prediction.py:51-67 | either kind of predictor gives four picks |
| Predictions.PicksComeFromEstimates | predictive_punter/prediction.py:40-67 | every picked number belongs to an active runner that the predictor could estimate |
| Predictions.RegressorPickKey | predictive_punter/prediction.py:57-67 | each regressor pick is empty or the whole group of some estimate |
| Predictions.ExpandedFromKeys | predictive_punter/prediction.py:59-63 | every expanded entry is the group of one of the keys |
| Predictions.Factor | predictive_punter/prediction.py:82-84 | each runner's multiplier is at least 1 |
| Predictions.ProductAtLeastOne | predictive_punter/prediction.py:81-84 | a product of factors ≥ 1 is ≥ 1 |
| Predictions.CombinationValue | predictive_punter/prediction.py:81-84 | a winning combination's value is at least 1 |
| Predictions.Numbers | predictive_punter/prediction.py:79 | a numeric combination has one number per runner |
| Predictions.Returns | predictive_punter/prediction.py:78-85 | the summed value of the winning combinations that are among the candidates; pinned by SumReturns and ReturnsAtLeastHits |
| Predictions.ReturnsAtLeastHits | predictive_punter/prediction.py:78-85 | the returns are at least the number of winning combinations that were picked, and zero when none was |
| Predictions.BetTypeValue | predictive_punter/prediction.py:69-93 | the loop computes `BetValue`: TypeError when the slice is empty, 0 without candidates, else the settled returns |
| Predictions.SumReturns | predictive_punter/prediction.py:78-85 | the loop sums the value of every picked winning combination |
| Predictions.GetCombinationValue | predictive_punter/prediction.py:81-84 | the loop multiplies the runners' factors |
| Predictions.ApplyFactor | predictive_punter/prediction.py:82-83 | a runner with a starting price scales the value by its factor; without one the value stays |
| Predictions.CombinationValueSnoc | predictive_punter/prediction.py:81-84 | each runner in turn multiplies the value of the runners before it |
| Predictions.Settle | predictive_punter/prediction.py:87-91 | the average return less one stake for several places, the return less the stakes for a win; pinned by SettleReturns and BetValueLowerBound |
| Predictions.SettleReturns | predictive_punter/prediction.py:87-91 | returns are averaged per combination less one for several places and less the stakes for a win |
| Predictions.BetValueWithEmptyPick | predictive_punter/prediction.py:73-74 | an empty pick among the first `n` gives no candidate and a value of 0 |
| Predictions.BetValueWithoutHit | predictive_punter/prediction.py:87-91 | without a hit the stake is lost: -1 for multi-place bets, minus the number of candidates for a win bet |
| Predictions.BetValueLowerBound | predictive_punter/prediction.py:73-91 | the value is at least hits/candidates − 1 (multi-place) or hits − candidates (win) |
| Predictions.DivideMonotone | predictive_punter/prediction.py:88 | dividing by a positive count keeps the order |
| Predictions.BetValueSucceeds | predictive_punter/prediction.py:69-93 | with at least as many picks as places the bet is valued without an exception |
| Predictions.BetValue | predictive_punter/prediction.py:69-93 | valuing a bet raises exactly when there are no picks at all (the combinations of an empty slice are None); otherwise it yields a value |
| Predictions.NoEstimations | predictive_punter/prediction.py:40-49 | when every estimate raises, the estimations dictionary is empty |
| Predictions.NoEstimationsNoPicks | predictive_punter/prediction.py:51-67 | an empty dictionary gives four empty picks for either kind of predictor |
| Predictions.ValuesWithoutPicks | predictive_punter/prediction.py:69-93 | with an empty first pick every bet type is valued at 0 |
| Predictions.PredictionWithoutEstimates | predictive_punter/prediction.py:29-95 | as written, every estimate raises, so each prediction has four empty picks and a value of 0 for every bet type |
| Predictions.GeneratePrediction | predictive_punter/prediction.py:29-95 | the method computes `PredictionOf` |
| Predictions.BetValues | predictive_punter/prediction.py:69-93 | the loop over the four bet types computes `Values` without any failure |
| Predictions.PredictionOf | predictive_punter/prediction.py:29-95 | a prediction has four pick lists, the predictor's id and a value for each of the four bet types |
| Predictions.PredictionSucceeds | predictive_punter/prediction.py:29-95 | a prediction always succeeds, has four picks and a value for each of the four bet types |
| Predictions.Values | predictive_punter/prediction.py:69-93 | the value of each bet type asked for, or the first failure; pinned by BetValues and ValuesSucceed |
| Predictions.ValuesSucceed | predictive_punter/prediction.py:69-93 | the values map has exactly the bet types asked for |
| Predictions.PredictionsOf | predictive_punter/prediction.py:18-27 | each given predictor's prediction, in order, or the first failure; pinned by GeneratePredictions and PredictionsOfEach |
| Predictions.GeneratePredictions | predictive_punter/prediction.py:18-27 | the predictions are those of the predictors, in order, with no predictor failing |
| Predictions.MapResultsEach | predictive_punter/prediction.py:18-27 | a step that succeeds on every element yields one result per element, element by element |
| Predictions.PredictionsOfEach | predictive_punter/prediction.py:18-27 | there is one prediction per predictor, and the i-th is the i-th predictor's prediction |
| Predictions.HasExpiredCases | predictive_punter/prediction.py:97-101 | a prediction has expired iff it was updated before the race or its version is neither "1" nor "1.<anything>"; so one from this version updated since the race stands |
| Predictions.HasExpired | predictive_punter/prediction.py:97-101 | expired iff updated before the race or the major part of its version is not 1 |
| Predictions.IsEquivalentTo | predictive_punter/prediction.py:109-112 | every prediction is equivalent to itself; the equivalence laws are the next row |
| Predictions.EquivalenceIsEquivalence | predictive_punter/prediction.py:109-112 | same predictor and race is reflexive, symmetric and transitive |
| Predictors.ClassificationGrid | predictive_punter/predictor.py:13-18 | the classification grid has 2 × 5 × 4 = 40 settings |
| Predictors.RegressionGrid | predictive_punter/predictor.py:20-24 | the regression grid has 4 × 4 = 16 settings |
| Predictors.DistinctConstants | predictive_punter/predictor.py:13-24 | the parameter values listed for each key are distinct |
| Predictors.ClassificationGridIsProduct | predictive_punter/predictor.py:13-18 | every (class weight, loss, penalty) setting appears in the grid exactly once, at its sorted-key position |
| Predictors.RegressionGridIsProduct | predictive_punter/predictor.py:20-24 | every (loss, penalty) setting appears in the grid exactly once, at its sorted-key position |
| Predictors.AttemptsOf | predictive_punter/predictor.py:101-111 | one attempt per grid setting |
| Predictors.ClassifierAttempts | predictive_punter/predictor.py:101-105 | 40 classifier attempts per weighting choice |
| Predictors.RegressorAttempts | predictive_punter/predictor.py:107-111 | 16 regressor attempts per weighting choice |
| Predictors.AttemptsFor | predictive_punter/predictor.py:99-111 | 56 attempts per weighting choice |
| Predictors.Attempts | predictive_punter/predictor.py:94-113 | 112 attempts in all |
| Predictors.AttemptsOrder | predictive_punter/predictor.py:99-111 | the first 56 attempts use sample weights and the rest do not; within each half, 40 classifiers in grid order come before 16 regressors |
| Predictors.AttemptsHalves | predictive_punter/predictor.py:99-111 | the weighted half of the attempts comes first, then the unweighted half |
| Predictors.NewPredictor | predictive_punter/predictor.py:116-123 | a new predictor is saved (has an id), untrained, and is a classifier iff built from classification settings |
| Predictors.Generate | predictive_punter/predictor.py:94-113 | failed attempts are skipped, so there are at most as many predictors as attempts |
| Predictors.GenerateConcat | predictive_punter/predictor.py:99-111 | generating from two runs of attempts is generating from each in turn |
| Predictors.GeneratedPredictors | predictive_punter/predictor.py:94-123 | every generated predictor is stored, untrained and consistent in kind, and comes from one attempt saved under its id |
| Predictors.GenerateWithoutFailures | predictive_punter/predictor.py:94-113 | when every save succeeds there is one predictor per attempt, in attempt order |
| Predictors.GeneratePredictors | predictive_punter/predictor.py:94-113 | the loops generate `Generate(Attempts(), save)` |
| Predictors.GenerateGrid | predictive_punter/predictor.py:101-111 | one grid loop appends that grid's predictors |
| Predictors.TryGenerate | predictive_punter/predictor.py:102-105 | one try/except appends the predictor or nothing |
| Predictors.OldestTrainingDate | predictive_punter/predictor.py:49-52 | None iff no predictor was trained; otherwise some predictor's date and no later than any other |
| Predictors.FindOldestTrainingDate | predictive_punter/predictor.py:49-52 | the loop finds `OldestTrainingDate` |
| Predictors.NeedsTraining | predictive_punter/predictor.py:54 | training is due when no predictor has a training date or the oldest one is before the meet; used by RefreshOutcome, RefreshTrains and InWindow |
| Predictors.Trains | predictive_punter/predictor.py:66-67 | an active runner with a result trains; pinned by TrainingEntrantsMembership |
| Predictors.TrainingEntrants | predictive_punter/predictor.py:65-67 | the training runners of the similar races, race by race; pinned by TrainingEntrantsMembership and TrainingEntrantsConcat |
| Predictors.Rows | predictive_punter/predictor.py:65-71 | the training rows in entrant order, or AttributeError for the first sample without data; pinned by RowsCases, RowsFailureCause and CollectTrainingData |
| Predictors.TrainingEntrantsMembership | predictive_punter/predictor.py:65-67 | an entrant trains iff it is active with a result in one of the similar races |
| Predictors.RowsCases | predictive_punter/predictor.py:65-71 | rows exist iff every training sample has normalised query data, and then each row copies its sample |
| Predictors.RowsFailureStays | predictive_punter/predictor.py:65-71 | a failure stops the collection |
| Predictors.CollectTrainingData | predictive_punter/predictor.py:56-70 | the loop fails exactly when some sample lacks normalised data, with that error; otherwise the four columns hold the rows |
| Predictors.CollectRace | predictive_punter/predictor.py:65-70 | one race adds the rows of its active finishers in order, or fails when one of them lacks data |
| Predictors.AppendRow | predictive_punter/predictor.py:67-70 | a sample with data adds the same row to all four lists |
| Predictors.RowsMissingData | predictive_punter/predictor.py:67 | a training entrant without data raises AttributeError whatever follows it |
| Predictors.MissingDataEndsRace | predictive_punter/predictor.py:65-67 | such an entrant ends the collection of its race with AttributeError |
| Predictors.LaterRacesKeepFailure | predictive_punter/predictor.py:64-70 | once a race fails, the later races change nothing |
| Predictors.FilterAround | predictive_punter/predictor.py:66 | a filter splits around any position |
| Predictors.TrainingEntrantsConcat | predictive_punter/predictor.py:65-66 | training entrants of two race lists are those of each in turn |
| Predictors.Fitted | predictive_punter/predictor.py:80-87 | a successful fit sets the meet as training date; a failed one deletes the predictor; pinned by RefitMembership |
| Predictors.RefitMembership | predictive_punter/predictor.py:80-89 | a predictor survives refitting iff it was stored and its fit succeeded, and it then carries the meet date as last training date |
| Predictors.FitAll | predictive_punter/predictor.py:80-89 | the loop computes `Refit` |
| Predictors.Refit | predictive_punter/predictor.py:80-89 | the fit pass never adds predictors, and every survivor is stored and trained up to the meet date |
| Predictors.RefreshOutcome | predictive_punter/predictor.py:54-89 | a successful refresh yields the list as loaded or, when training was due, the refit list; when no training is due it yields the list as loaded |
| Predictors.RefreshTrains | predictive_punter/predictor.py:54-89 | when training is due and the window yields training rows, the refresh is exactly the refit list, the other half of RefreshOutcome |
| Predictors.RefreshWhenTrained | predictive_punter/predictor.py:54 | a non-empty list whose predictors were all trained on or after the meet date is not retrained |
| Predictors.RefreshWithoutRows | predictive_punter/predictor.py:73 | when no entrant of the similar races trains, the list is kept as loaded |
| Predictors.RefreshWithoutData | predictive_punter/predictor.py:65-68 | as written, with no sample carrying normalised data, a due refresh whose window holds an active finisher raises AttributeError, so the refit never runs |
| Predictors.RowsFailureCause | predictive_punter/predictor.py:68 | the only error the collection raises is the missing `normalized_query_data` |
| Predictors.NoTrainingEntrants | predictive_punter/predictor.py:65-67 | races without placed active runners give no training entrant |
| Predictors.PredictorCache.constructor | predictive_punter/predictor.py:26-27 | the cache and the lock table start empty |
| Predictors.PredictorCache.GetPredictorLock | predictive_punter/predictor.py:29-35 | an existing lock for the hash is reused; otherwise a new lock, distinct from all others, is added; the cache is untouched |
| Predictors.PredictorCache.GetPredictors | predictive_punter/predictor.py:37-91 | a cached hash returns the cached list unchanged; otherwise the loaded-or-generated list is refreshed and cached; an existing lock is reused, otherwise exactly one new lock, distinct from all others, is added for the hash |
| Predictors.PredictorCache.Load | predictive_punter/predictor.py:45-89 | a cache miss stores the refreshed list under the hash |
| Predictors.InitialPredictors | predictive_punter/predictor.py:45-47 | the stored predictors are kept; when none are stored the full grid is generated |
| Predictors.RefreshPredictors | predictive_punter/predictor.py:49-89 | the stale check, window, row collection and refit compute `Refresh` |
| Predictors.Initial | predictive_punter/predictor.py:45-47 | stored predictors are kept as they are; a generated list holds only saved, untrained predictors |
| Predictors.Refresh | predictive_punter/predictor.py:49-89 | a refresh yields the list as it was or its refit, and the list as it was when no training is due; with RefreshTrains, a due refresh with training rows yields exactly the refit |
| Predictors.InWindow | predictive_punter/predictor.py:61-64 | a race in the training window exists only when training is due: it started before the meet and not before the oldest training date |
| DateUtils.DateRange | predictive_punter/date_utils.py:4-10 | the range has `dateTo − dateFrom + 1` days when ordered, none otherwise |
| DateUtils.DateRangeAt | predictive_punter/date_utils.py:7-10 | the i-th day yielded is `dateFrom + i` |
| DateUtils.DateRangeProperties | predictive_punter/date_utils.py:4-10 | a day is yielded iff it lies between the bounds inclusive, and consecutive days differ by one |
| DateUtils.Dates | predictive_punter/date_utils.py:4-10 | the generator yields `DateRange` |
| DateUtils.ReversedRangeIsEmpty | predictive_punter/date_utils.py:8 | as written, day 3 to day 1 yields nothing |
| DateUtils.DateRangeEitherWay | tests/date_utils/dates_test.py:20-31 | the walk either way has the distance between the two days plus one days |
| DateUtils.DateRangeEitherWayProperties | tests/date_utils/dates_test.py:6-31 | the walk starts at `dateFrom`, ends at `dateTo`, moves one day per step towards it, and equals `DateRange` when going forwards |
| DateUtils.ReversedRangeEitherWay | tests/date_utils/dates_test.py:20-31 | day 3 to day 1 walks 3, 2, 1 |
| Commands.Defaults | predictive_punter/command.py:31-37 | no backup, the default URIs, both dates from the clock |
| Commands.ApplyOptions | predictive_punter/command.py:41-50 | each option applied in order to the configuration; pinned by ApplyOptionsFields |
| Commands.LastArg | predictive_punter/command.py:41-50 | the argument of the last matching option, or the value kept; pinned by LastArgIsLastOccurrence and LastArgWithoutOccurrence |
| Commands.ApplyOptionsFields | predictive_punter/command.py:41-50 | backup is set iff some option asks for it; each URI is its last option's argument, or unchanged; dates untouched |
| Commands.LastArgIsLastOccurrence | predictive_punter/command.py:41-50 | a later option overrides an earlier one |
| Commands.LastArgWithoutOccurrence | predictive_punter/command.py:41-50 | without a matching option the value is kept |
| Commands.ParseArguments | predictive_punter/command.py:28-57 | the method computes `ParseArgs`: options first, then the last positional sets both dates and a first one of several sets the start; a bad date raises ValueError |
| Commands.ParseArgs | predictive_punter/command.py:28-57 | parsing fails iff the last positional, or the first of several, is not a date; without positionals the dates are the clock's; otherwise the first positional is the start date and the last the end date |
| Commands.OptionsOnly | predictive_punter/command.py:31-50 | with no positional the dates are the clock's and the options decide the flag and URIs |
| Commands.OnePositional | predictive_punter/command.py:52-53 | one date sets both dates |
| Commands.ManyPositionals | predictive_punter/command.py:52-55 | with several dates, the first is the start, the last the end, and the middle ones are ignored |
| Commands.BadDateFails | predictive_punter/command.py:52-55 | a first or last positional that is not a date makes parsing fail |

## Left out

- Results of zero or below: `Races` and `Predictions` require every active runner's result to be None or a place of at least 1. In Python a result of 0 or below indexes the buckets from the end (`results[runner.result - 1]`), which the model does not follow.
- The scikit-learn estimators:
  - `predict`, `partial_fit`, pickling, `Imputer` and `normalize` are parameters (`estimate`, `fits`, the imputed row, and a norm with `norm × norm` = sum of squares).
  - Their numerics are not part of this model.
  - Floats are Dafny reals, and every division states its non-zero divisor as a requirement.
- Predictors.RowsCases, Predictors.Refresh and Predictions.PredictionOf: whether a sample has `normalized_query_data` is an input (an Option per sample, and `estimate` per runner). The `Sample` class of sample.py defines only `fixed_query_data`, so in the code as written the attribute is always absent. Training then raises AttributeError (`Predictors.RefreshWithoutData`), and the bare `except` in `generate_prediction` makes every estimate fail, giving empty picks and zero values (`Predictions.PredictionWithoutEstimates`).
- Samples.Sample.FixedQueryData: `Imputer` and `normalize` are the parameter `fix`, applied to this row followed by the other active runners' rows; which runners those are is an input.
- Samples.RegressionLabel: the `try`/`except` around `normalize` is not modelled. Its only failure would be a zero norm, which the source's normaliser takes as 1, as the model does.
- Persistence and I/O are not modelled:
  - `provider.find`, `save` and `delete`, MongoDB, Redis, and `updated_at` timestamps.
  - `delete()` is taken to clear the predictor's `_id`. The racing_data `Entity` class is not part of this model.
  - The similar-races query becomes a list of races, filtered by the training window (`InWindow`).
- Aliasing: predictors are values. The in-place slice assignment of line 89 replaces the cached list, with no other reference to it observable.
- `threading.RLock` and concurrency: locks are distinct integers, and the `with` block runs as one step.
- Runners.Upper: upper-casing covers ASCII letters only. Python's full Unicode case mapping is not modelled.
- `getopt` is not modelled:
  - Its splitting of the command line into options and positionals is an input.
  - `GetoptError` for unknown options is left out.
  - `strptime` and `datetime.now()` are parameters.
- Dates are whole day numbers, with no time of day.
- Dictionary order: `Estimations` is a map. Its keys are used only through `1..4` lookups and through sorting, so their order does not show.
- `get_cached_property` caching on races and runners: the derived values are pure functions of their inputs.
- The remaining commands and the provider are not part of this model: `predict.py`, `scrape.py`, `seed.py`, `simulate.py`, `delete.py`, `provider.py` and `profiling_utils.py`.

## Findings

| source | as written | input that shows it | evidently intended | confidence | as-written member | corrected member |
|---|---|---|---|---|---|---|
| predictive_punter/date_utils.py:8 | `while next_date <= date_to` stops at once when the start is after the end | `dates(3, 1)` yields nothing, while tests/date_utils/dates_test.py:20-31 expects days 3, 2, 1 | walk from the start to the end in either direction | not executed | DateUtils.ReversedRangeIsEmpty | DateUtils.DateRangeEitherWayProperties |

=== FILE: combination_utils.dfy ===
/**
 * `get_combinations`: the Cartesian product of a sequence of pick lists, position 0 first,
 * with every tuple that uses the same element twice removed.
 *
 * `Product` is the reference definition; `Combinations` follows the recursion of the code
 * (None for no picks, duplicates removed at every level), and `GetCombinations` is the
 * imperative version with its append loops and its reverse-index deletion loop.
 */
module CombinationUtils {
  import opened Wrappers
  import opened Seqs

  /** No element occurs twice in `c`. */
  predicate NoRepeats<T(==)>(c: seq<T>) {
    forall i, j :: 0 <= i < j < |c| ==> c[i] != c[j]
  }

  /** `[x] + t` for every `t` of `ts`, in order. */
  function Prepend<T>(x: T, ts: seq<seq<T>>): seq<seq<T>> {
    seq(|ts|, k requires 0 <= k < |ts| => [x] + ts[k])
  }

  /** Each item of `items` in turn, followed by each tuple of `rest`: `items` varies slowest. */
  function ProductFrom<T>(items: seq<T>, rest: seq<seq<T>>): seq<seq<T>> {
    if items == [] then [] else ProductFrom(Init(items), rest) + Prepend(Last(items), rest)
  }

  /** The Cartesian product of `picks`, the first list varying slowest. */
  function Product<T>(picks: seq<seq<T>>): seq<seq<T>> {
    if picks == [] then [[]] else ProductFrom(picks[0], Product(picks[1..]))
  }

  /** `[[x] for x in items]`. */
  function Singletons<T>(items: seq<T>): seq<seq<T>> {
    seq(|items|, k requires 0 <= k < |items| => [items[k]])
  }

  /** The tuples of `cs` that repeat no element, in their original order. */
  function RemoveRepeats<T(==)>(cs: seq<seq<T>>): seq<seq<T>> {
    Filter(cs, NoRepeats)
  }

  /** `len([y for y in c if y == x])`. */
  function Count<T(==)>(c: seq<T>, x: T): nat {
    if c == [] then 0 else (if c[0] == x then 1 else 0) + Count(c[1..], x)
  }

  /** The positions of the tuples of `cs` that repeat an element, in increasing order. */
  function RepeatIndices<T(==)>(cs: seq<seq<T>>): seq<nat> {
    if cs == [] then [] else RepeatIndices(Init(cs)) + (if NoRepeats(Last(cs)) then [] else [|cs| - 1])
  }

  /**
   * The code as written: None for an empty `picks`; otherwise one tuple per item of
   * `picks[0]` and combination of `picks[1..]` (a one-element tuple when that is None),
   * less the tuples that repeat an element.
   */
  function Combinations<T(==)>(picks: seq<seq<T>>): (r: Option<seq<seq<T>>>)
    ensures r.None? <==> picks == []
  {
    if picks == [] then None
    else
      var next := Combinations(picks[1..]);
      var combinations := if next.None? then Singletons(picks[0]) else ProductFrom(picks[0], next.value);
      Some(RemoveRepeats(combinations))
  }

  // ---------------------------------------------------------------------------
  // What get_combinations returns

  /** The recursion of the code computes the reference product less its repeating tuples. */
  lemma {:induction false} CombinationsAreRepeatFreeProduct<T>(picks: seq<seq<T>>)
    requires picks != []
    ensures Combinations(picks) == Some(RemoveRepeats(Product(picks)))
  {
    if |picks| == 1 {
      SingletonsAsProduct(picks[0]);
      assert picks[1..] == [];
    } else {
      CombinationsAreRepeatFreeProduct(picks[1..]);
      RemoveRepeatsInside(picks[0], Product(picks[1..]));
    }
  }

  /**
   * Soundness and completeness: a tuple is returned exactly when it takes its i-th element
   * from `picks[i]` for every position and repeats no element.
   */
  lemma CombinationsMembership<T>(picks: seq<seq<T>>, c: seq<T>)
    requires picks != []
    ensures c in Combinations(picks).value
        <==> |c| == |picks| && (forall i :: 0 <= i < |picks| ==> c[i] in picks[i]) && NoRepeats(c)
  {
    CombinationsAreRepeatFreeProduct(picks);
    ProductMembership(picks, c);
    FilterMembership(Product(picks), NoRepeats);
  }

  /** Every returned tuple has one element per pick list, taken from that list, and no repeats. */
  lemma CombinationsShape<T>(picks: seq<seq<T>>)
    requires picks != []
    ensures forall c :: c in Combinations(picks).value ==>
      |c| == |picks| && (forall i :: 0 <= i < |picks| ==> c[i] in picks[i]) && NoRepeats(c)
  {
    forall c | c in Combinations(picks).value
      ensures |c| == |picks| && (forall i :: 0 <= i < |picks| ==> c[i] in picks[i]) && NoRepeats(c)
    {
      CombinationsMembership(picks, c);
    }
  }

  /** Removing the repeating tuples keeps the order of the product. */
  lemma CombinationsKeepProductOrder<T>(picks: seq<seq<T>>)
    requires picks != []
    ensures SubseqOf(Combinations(picks).value, Product(picks))
  {
    CombinationsAreRepeatFreeProduct(picks);
    FilterIsSubseq(Product(picks), NoRepeats);
  }

  /** A single pick list gives one single-element tuple per item, in order. */
  lemma CombinationsOfOneList<T>(items: seq<T>)
    ensures Combinations([items]) == Some(Singletons(items))
  {
    assert [items][1..] == [];
    FilterKeepsAll(Singletons(items), NoRepeats);
  }

  /** An empty pick list anywhere leaves no combination at all. */
  lemma CombinationsWithEmptyPick<T>(picks: seq<seq<T>>, i: nat)
    requires i < |picks| && picks[i] == []
    ensures Combinations(picks) == Some([])
  {
    var r := Combinations(picks).value;
    if r != [] {
      CombinationsMembership(picks, r[0]);
    }
  }

  /** The product has as many tuples as the product of the list lengths. */
  lemma {:induction false} ProductSize<T>(picks: seq<seq<T>>)
    ensures |Product(picks)| == SizesProduct(picks)
  {
    if picks != [] {
      ProductSize(picks[1..]);
      ProductFromSize(picks[0], Product(picks[1..]));
    }
  }

  /** `|picks[0]| * |picks[1]| * ...`. */
  function SizesProduct<T>(picks: seq<seq<T>>): nat {
    if picks == [] then 1 else |picks[0]| * SizesProduct(picks[1..])
  }

  /** Lexicographic order: the item at index `a` with the tuple at index `b` sits at `a * |rest| + b`. */
  lemma {:induction false} ProductFromAt<T>(items: seq<T>, rest: seq<seq<T>>, a: nat, b: nat)
    requires a < |items| && b < |rest|
    ensures a * |rest| + b < |ProductFrom(items, rest)|
    ensures ProductFrom(items, rest)[a * |rest| + b] == [items[a]] + rest[b]
    decreases |items|
  {
    ProductFromSize(items, rest);
    ProductFromSize(Init(items), rest);
    var n := |items| - 1;
    if a < n {
      MulStrictBound(a, n, b, |rest|);
      ProductFromAt(Init(items), rest, a, b);
    } else {
      assert a * |rest| == |ProductFrom(Init(items), rest)|;
    }
  }

  lemma {:induction false} ProductFromSize<T>(items: seq<T>, rest: seq<seq<T>>)
    ensures |ProductFrom(items, rest)| == |items| * |rest|
  {
    if items != [] {
      ProductFromSize(Init(items), rest);
      assert |items| * |rest| == (|items| - 1) * |rest| + |rest|;
    }
  }

  lemma MulStrictBound(a: nat, n: nat, b: nat, m: nat)
    requires a < n && b < m
    ensures a * m + b < n * m
  {
    assert (a + 1) * m <= n * m;
  }

  lemma PrependMembership<T>(x: T, ts: seq<seq<T>>, c: seq<T>)
    ensures c in Prepend(x, ts) <==> |c| > 0 && c[0] == x && c[1..] in ts
  {
    if |c| > 0 && c[0] == x && c[1..] in ts {
      var k :| 0 <= k < |ts| && ts[k] == c[1..];
      assert Prepend(x, ts)[k] == c;
    }
    if c in Prepend(x, ts) {
      var k :| 0 <= k < |ts| && Prepend(x, ts)[k] == c;
      assert c[1..] == ts[k];
    }
  }

  lemma {:induction false} ProductFromMembership<T>(items: seq<T>, rest: seq<seq<T>>, c: seq<T>)
    ensures c in ProductFrom(items, rest) <==> |c| > 0 && c[0] in items && c[1..] in rest
  {
    if items != [] {
      ProductFromMembership(Init(items), rest, c);
      PrependMembership(Last(items), rest, c);
      assert items == Init(items) + [Last(items)];
    }
  }

  lemma {:induction false} ProductMembership<T>(picks: seq<seq<T>>, c: seq<T>)
    ensures c in Product(picks) <==> |c| == |picks| && forall i :: 0 <= i < |picks| ==> c[i] in picks[i]
  {
    if picks == [] {
      assert c in [[]] <==> c == [];
    } else {
      ProductFromMembership(picks[0], Product(picks[1..]), c);
      if |c| > 0 {
        ProductMembership(picks[1..], c[1..]);
        if |c| == |picks| && forall i :: 0 <= i < |picks| ==> c[i] in picks[i] {
          assert forall i :: 0 <= i < |picks[1..]| ==> c[1..][i] in picks[1..][i] by {
            forall i | 0 <= i < |picks[1..]| ensures c[1..][i] in picks[1..][i] {
              assert c[1..][i] == c[i + 1] && picks[1..][i] == picks[i + 1];
            }
          }
        }
        if c[0] in picks[0] && c[1..] in Product(picks[1..]) {
          forall i | 0 <= i < |picks| ensures c[i] in picks[i] {
            if i > 0 {
              assert c[1..][i - 1] == c[i] && picks[1..][i - 1] == picks[i];
            }
          }
        }
      }
    }
  }

  lemma {:induction false} SingletonsAsProduct<T>(items: seq<T>)
    ensures ProductFrom(items, [[]]) == Singletons(items)
  {
    if items != [] {
      SingletonsAsProduct(Init(items));
      assert [Last(items)] + [] == [Last(items)];
      assert Prepend(Last(items), [[]]) == [[Last(items)]];
      assert Singletons(items) == Singletons(Init(items)) + [[Last(items)]];
    }
  }

  /** Prefixing an element cannot remove a repeat, so filtering the tail first changes nothing. */
  lemma {:induction false} RemoveRepeatsPrepend<T>(x: T, ts: seq<seq<T>>)
    ensures RemoveRepeats(Prepend(x, RemoveRepeats(ts))) == RemoveRepeats(Prepend(x, ts))
  {
    if ts != [] {
      var init, last := Init(ts), Last(ts);
      RemoveRepeatsPrepend(x, init);
      var tail := if NoRepeats(last) then [last] else [];
      assert RemoveRepeats(ts) == RemoveRepeats(init) + tail;
      assert ts == init + [last];
      PrependConcat(x, RemoveRepeats(init), tail);
      PrependConcat(x, init, [last]);
      FilterConcat(Prepend(x, RemoveRepeats(init)), Prepend(x, tail), NoRepeats);
      FilterConcat(Prepend(x, init), Prepend(x, [last]), NoRepeats);
      RemoveRepeatsPrependOne(x, last);
    }
  }

  /** A repeating tuple stays repeating with an item in front, so dropping it first changes nothing. */
  lemma RemoveRepeatsPrependOne<T>(x: T, t: seq<T>)
    ensures RemoveRepeats(Prepend(x, if NoRepeats(t) then [t] else [])) == RemoveRepeats(Prepend(x, [t]))
  {
    var c := [x] + t;
    assert Prepend(x, [t]) == [c];
    if !NoRepeats(t) {
      var i, j :| 0 <= i < j < |t| && t[i] == t[j];
      assert c[i + 1] == c[j + 1];
      assert Prepend(x, []) == [];
      FilterSnoc([], c, NoRepeats);
    }
  }

  lemma PrependConcat<T>(x: T, a: seq<seq<T>>, b: seq<seq<T>>)
    ensures Prepend(x, a + b) == Prepend(x, a) + Prepend(x, b)
  {
  }

  lemma {:induction false} RemoveRepeatsInside<T>(items: seq<T>, ts: seq<seq<T>>)
    ensures RemoveRepeats(ProductFrom(items, RemoveRepeats(ts))) == RemoveRepeats(ProductFrom(items, ts))
  {
    if items != [] {
      RemoveRepeatsInside(Init(items), ts);
      RemoveRepeatsPrepend(Last(items), ts);
      FilterConcat(ProductFrom(Init(items), RemoveRepeats(ts)), Prepend(Last(items), RemoveRepeats(ts)), NoRepeats);
      FilterConcat(ProductFrom(Init(items), ts), Prepend(Last(items), ts), NoRepeats);
    }
  }

  /** `[[1, 2], [2, 3]]`: the tuple (2, 2) is lost and (2, 3) is kept. */
  lemma CombinationsExample()
    ensures Combinations([[1, 2], [2, 3]]) == Some([[1, 2], [1, 3], [2, 3]])
  {
    var picks: seq<seq<int>> := [[1, 2], [2, 3]];
    CombinationsAreRepeatFreeProduct(picks);
    ExampleProduct();
    ExampleFilter();
  }

  lemma ExampleProduct()
    ensures Product([[1, 2], [2, 3]]) == [[1, 2], [1, 3], [2, 2], [2, 3]]
  {
    var picks: seq<seq<int>> := [[1, 2], [2, 3]];
    assert Product(picks[1..]) == [[2], [3]] by {
      SingletonsAsProduct([2, 3]);
      assert picks[1..][1..] == [];
    }
    assert Init([1, 2]) == [1] && Last([1, 2]) == 2 && Init([1]) == [];
    assert [1] + [2] == [1, 2] && [1] + [3] == [1, 3] && [2] + [2] == [2, 2] && [2] + [3] == [2, 3];
    assert Prepend(1, [[2], [3]]) == [[1, 2], [1, 3]];
    assert Prepend(2, [[2], [3]]) == [[2, 2], [2, 3]];
  }

  lemma ExampleFilter()
    ensures RemoveRepeats([[1, 2], [1, 3], [2, 2], [2, 3]]) == [[1, 2], [1, 3], [2, 3]]
  {
    var a, b, c, d := [1, 2], [1, 3], [2, 2], [2, 3];
    PairRepeats(a[0], a[1]);
    PairRepeats(b[0], b[1]);
    PairRepeats(c[0], c[1]);
    PairRepeats(d[0], d[1]);
    var none: seq<seq<int>> := [];
    FilterSnoc(none, a, NoRepeats);
    FilterSnoc([a], b, NoRepeats);
    FilterSnoc([a, b], c, NoRepeats);
    FilterSnoc([a, b, c], d, NoRepeats);
    assert none + [a] == [a] && [a] + [b] == [a, b] && [a, b] + [c] == [a, b, c] && [a, b, c] + [d] == [a, b, c, d];
  }

  /** A pair repeats exactly when its two items are equal. */
  lemma PairRepeats<T>(x: T, y: T)
    ensures NoRepeats([x, y]) <==> x != y
  {
    if x == y {
      assert [x, y][0] == [x, y][1];
    }
  }

  // ---------------------------------------------------------------------------
  // The imperative version

  /** The append loops: one tuple per item of `items` and tuple of `next`. */
  method AppendProducts<T>(items: seq<T>, next: Option<seq<seq<T>>>) returns (combinations: seq<seq<T>>)
    ensures combinations == if next.None? then Singletons(items) else ProductFrom(items, next.value)
  {
    combinations := [];
    for k := 0 to |items|
      invariant combinations == if next.None? then Singletons(items[..k]) else ProductFrom(items[..k], next.value)
    {
      var item := items[k];
      assert Init(items[..k + 1]) == items[..k] && Last(items[..k + 1]) == item;
      if next.None? {
        combinations := combinations + [[item]];
      } else {
        var rest := next.value;
        ghost var before := combinations;
        for m := 0 to |rest|
          invariant combinations == before + Prepend(item, rest[..m])
        {
          assert Prepend(item, rest[..m + 1]) == Prepend(item, rest[..m]) + [[item] + rest[m]];
          combinations := combinations + [[item] + rest[m]];
        }
        assert rest[..|rest|] == rest;
      }
    }
    assert items[..|items|] == items;
  }

  /** The `dupes` loop: the index of every tuple in which some element occurs more than once. */
  method FindRepeats<T(==)>(combinations: seq<seq<T>>) returns (dupes: seq<nat>)
    ensures dupes == RepeatIndices(combinations)
  {
    dupes := [];
    for index := 0 to |combinations|
      invariant dupes == RepeatIndices(combinations[..index])
    {
      var combination := combinations[index];
      ghost var before := dupes;
      for k := 0 to |combination|
        invariant dupes == before
        invariant forall u :: 0 <= u < k ==> Count(combination, combination[u]) <= 1
      {
        if Count(combination, combination[k]) > 1 {
          dupes := dupes + [index];
          break;
        }
      }
      NoRepeatsIffCountsAtMostOne(combination);
      assert Init(combinations[..index + 1]) == combinations[..index];
      assert Last(combinations[..index + 1]) == combination;
    }
    assert combinations[..|combinations|] == combinations;
  }

  /** `for index in sorted(dupes, reverse=True): del combinations[index]`. */
  method DeleteIndices<T(==)>(combinations: seq<seq<T>>, dupes: seq<nat>) returns (r: seq<seq<T>>)
    requires dupes == RepeatIndices(combinations)
    ensures r == RemoveRepeats(combinations)
  {
    r := combinations;
    var j := |dupes|;
    ghost var b := |combinations|;
    assert combinations[..b] == combinations && combinations[b..] == [];
    while j > 0
      invariant 0 <= j <= |dupes| && b <= |combinations|
      invariant dupes[..j] == RepeatIndices(combinations[..b])
      invariant r == combinations[..b] + RemoveRepeats(combinations[b..])
    {
      var index := dupes[j - 1];
      assert index == Last(RepeatIndices(combinations[..b]));
      DeleteLastRepeat(combinations, b, index, r);
      r := r[..index] + r[index + 1..];
      assert dupes[..j - 1] == Init(dupes[..j]);
      j := j - 1;
      b := index;
    }
    NothingLeftToDelete(combinations, b);
  }

  /** Once no repeat index is left below `b`, the state of the deletion loop is the filtered list. */
  lemma NothingLeftToDelete<T>(cs: seq<seq<T>>, b: nat)
    requires b <= |cs| && RepeatIndices(cs[..b]) == []
    ensures cs[..b] + RemoveRepeats(cs[b..]) == RemoveRepeats(cs)
  {
    NoRepeatIndices(cs[..b]);
    FilterKeepsAll(cs[..b], NoRepeats);
    FilterConcat(cs[..b], cs[b..], NoRepeats);
    assert cs[..b] + cs[b..] == cs;
  }

  /** `get_combinations`. */
  method GetCombinations<T(==)>(picks: seq<seq<T>>) returns (r: Option<seq<seq<T>>>)
    ensures r == Combinations(picks)
    decreases |picks|
  {
    if |picks| > 0 {
      var next := GetCombinations(picks[1..]);
      var combinations := AppendProducts(picks[0], next);
      var dupes := FindRepeats(combinations);
      combinations := DeleteIndices(combinations, dupes);
      return Some(combinations);
    }
    return None;
  }

  // ---------------------------------------------------------------------------
  // Helpers for the deletion loop

  /** The last repeat index of `p` is followed only by repeat-free tuples. */
  lemma {:induction false} LastRepeat<T>(p: seq<seq<T>>)
    requires RepeatIndices(p) != []
    ensures Last(RepeatIndices(p)) < |p| && !NoRepeats(p[Last(RepeatIndices(p))])
    ensures forall i :: Last(RepeatIndices(p)) < i < |p| ==> NoRepeats(p[i])
    ensures RepeatIndices(p[..Last(RepeatIndices(p))]) == Init(RepeatIndices(p))
  {
    if NoRepeats(Last(p)) {
      LastRepeat(Init(p));
      var d := Last(RepeatIndices(p));
      assert Init(p)[..d] == p[..d];
    } else {
      assert p[..|p| - 1] == Init(p);
    }
  }

  lemma {:induction false} NoRepeatIndices<T>(p: seq<seq<T>>)
    requires RepeatIndices(p) == []
    ensures forall i :: 0 <= i < |p| ==> NoRepeats(p[i])
  {
    if p != [] {
      NoRepeatIndices(Init(p));
    }
  }

  /**
   * Deleting the last remaining repeat index keeps the shape of the loop's state: the tuples
   * before it unchanged, those from it on filtered.
   */
  lemma DeleteLastRepeat<T>(cs: seq<seq<T>>, b: nat, index: nat, r: seq<seq<T>>)
    requires b <= |cs| && RepeatIndices(cs[..b]) != [] && index == Last(RepeatIndices(cs[..b]))
    requires r == cs[..b] + RemoveRepeats(cs[b..])
    ensures index < b && RepeatIndices(cs[..index]) == Init(RepeatIndices(cs[..b]))
    ensures r[..index] + r[index + 1..] == cs[..index] + RemoveRepeats(cs[index..])
  {
    LastRepeat(cs[..b]);
    forall i | index < i < b
      ensures NoRepeats(cs[i])
    {
      assert cs[..b][i] == cs[i];
    }
    assert cs[..b][..index] == cs[..index];
    DeleteStep(cs, b, index, r);
  }

  lemma DeleteStep<T>(cs: seq<seq<T>>, b: nat, d: nat, r: seq<seq<T>>)
    requires d < b <= |cs| && !NoRepeats(cs[d])
    requires forall i :: d < i < b ==> NoRepeats(cs[i])
    requires r == cs[..b] + RemoveRepeats(cs[b..])
    ensures r[..d] + r[d + 1..] == cs[..d] + RemoveRepeats(cs[d..])
  {
    SuffixFromRepeat(cs, b, d);
    assert r[..d] == cs[..d];
    assert r[d + 1..] == cs[d + 1..b] + RemoveRepeats(cs[b..]);
  }

  lemma SuffixFromRepeat<T>(cs: seq<seq<T>>, b: nat, d: nat)
    requires d < b <= |cs| && !NoRepeats(cs[d])
    requires forall i :: d < i < b ==> NoRepeats(cs[i])
    ensures RemoveRepeats(cs[d..]) == cs[d + 1..b] + RemoveRepeats(cs[b..])
  {
    var middle := cs[d + 1..b];
    FilterKeepsAll(middle, NoRepeats);
    assert cs[d..] == ([cs[d]] + middle) + cs[b..];
    FilterConcat([cs[d]] + middle, cs[b..], NoRepeats);
    FilterConcat([cs[d]], middle, NoRepeats);
    assert Filter([cs[d]], NoRepeats) == [];
  }

  // ---------------------------------------------------------------------------
  // Counting occurrences

  lemma {:induction false} CountOfRepeated<T>(c: seq<T>, i: nat, j: nat)
    requires i < j < |c| && c[i] == c[j]
    ensures Count(c, c[i]) > 1
  {
    if i > 0 {
      CountOfRepeated(c[1..], i - 1, j - 1);
    } else {
      CountOfPresent(c[1..], j - 1, c[0]);
    }
  }

  lemma {:induction false} CountOfPresent<T>(c: seq<T>, j: nat, x: T)
    requires j < |c| && c[j] == x
    ensures Count(c, x) > 0
  {
    if j > 0 {
      CountOfPresent(c[1..], j - 1, x);
    }
  }

  lemma {:induction false} CountWithoutRepeats<T>(c: seq<T>, x: T)
    requires NoRepeats(c)
    ensures Count(c, x) <= 1
  {
    if c != [] {
      CountWithoutRepeats(c[1..], x);
      if c[0] == x && Count(c[1..], x) > 0 {
        var j := CountWitness(c[1..], x);
      }
    }
  }

  lemma {:induction false} CountWitness<T>(c: seq<T>, x: T) returns (j: nat)
    requires Count(c, x) > 0
    ensures j < |c| && c[j] == x
  {
    if c[0] != x {
      j := CountWitness(c[1..], x);
      j := j + 1;
    } else {
      j := 0;
    }
  }

  /** The per-tuple test of the `dupes` loop decides exactly whether the tuple repeats an element. */
  lemma NoRepeatsIffCountsAtMostOne<T>(c: seq<T>)
    ensures NoRepeats(c) <==> forall u :: 0 <= u < |c| ==> Count(c, c[u]) <= 1
  {
    if NoRepeats(c) {
      forall u | 0 <= u < |c| ensures Count(c, c[u]) <= 1 {
        CountWithoutRepeats(c, c[u]);
      }
    } else {
      var i, j :| 0 <= i < j < |c| && c[i] == c[j];
      CountOfRepeated(c, i, j);
    }
  }
}

=== FILE: command.dfy ===
/**
 * The command-line configuration shared by the commands: defaults, then the options in the order
 * given, then the positional dates. Splitting the command line into options and positionals,
 * parsing a date and reading the clock are inputs here.
 */
module Commands {
  import opened Wrappers
  import opened Seqs

  datatype Config = Config(backupDatabase: bool, databaseUri: string, dateFrom: int, dateTo: int, redisUri: string)

  /** One `(opt, arg)` pair as the option parser yields it. */
  datatype Opt = Opt(name: string, arg: string)

  const DEFAULT_DATABASE_URI: string := "mongodb://localhost:27017/predictive_punter"
  const DEFAULT_REDIS_URI: string := "redis://localhost:6379/predictive_punter"

  /** Lines 31-37; the clock is read once for each date. */
  function Defaults(nowFrom: int, nowTo: int): (config: Config)
    ensures !config.backupDatabase && config.dateFrom == nowFrom && config.dateTo == nowTo
    ensures config.databaseUri == DEFAULT_DATABASE_URI && config.redisUri == DEFAULT_REDIS_URI
  {
    Config(false, DEFAULT_DATABASE_URI, nowFrom, nowTo, DEFAULT_REDIS_URI)
  }

  predicate IsBackupDatabase(name: string) {
    name == "-b" || name == "--backup-database"
  }

  predicate IsDatabaseUri(name: string) {
    name == "-d" || name == "--database-uri"
  }

  predicate IsRedisUri(name: string) {
    name == "-r" || name == "--redis-uri"
  }

  /** Lines 43-50 for one option; any other option changes nothing. */
  function ApplyOption(config: Config, opt: Opt): Config {
    if IsBackupDatabase(opt.name) then config.(backupDatabase := true)
    else if IsDatabaseUri(opt.name) then config.(databaseUri := opt.arg)
    else if IsRedisUri(opt.name) then config.(redisUri := opt.arg)
    else config
  }

  /** The loop of lines 41-50. */
  function ApplyOptions(config: Config, opts: seq<Opt>): Config {
    if opts == [] then config else ApplyOption(ApplyOptions(config, Init(opts)), Last(opts))
  }

  /** The argument of the last option named by `isName`, or `otherwise` when there is none. */
  function LastArg(opts: seq<Opt>, isName: string -> bool, otherwise: string): string {
    if opts == [] then otherwise
    else if isName(Last(opts).name) then Last(opts).arg
    else LastArg(Init(opts), isName, otherwise)
  }

  /** Whether some option is named by `isName`. */
  predicate Mentions(opts: seq<Opt>, isName: string -> bool) {
    exists i :: 0 <= i < |opts| && isName(opts[i].name)
  }

  /**
   * After the options: the backup flag is set exactly when some option asks for it, each URI is
   * the argument of its last option, and the dates are untouched.
   */
  lemma {:induction false} ApplyOptionsFields(config: Config, opts: seq<Opt>)
    ensures ApplyOptions(config, opts).backupDatabase <==> config.backupDatabase || Mentions(opts, IsBackupDatabase)
    ensures ApplyOptions(config, opts).databaseUri == LastArg(opts, IsDatabaseUri, config.databaseUri)
    ensures ApplyOptions(config, opts).redisUri == LastArg(opts, IsRedisUri, config.redisUri)
    ensures ApplyOptions(config, opts).dateFrom == config.dateFrom && ApplyOptions(config, opts).dateTo == config.dateTo
  {
    if opts != [] {
      ApplyOptionsFields(config, Init(opts));
      assert Mentions(opts, IsBackupDatabase) <==> Mentions(Init(opts), IsBackupDatabase) || IsBackupDatabase(Last(opts).name) by {
        if Mentions(opts, IsBackupDatabase) {
          var i :| 0 <= i < |opts| && IsBackupDatabase(opts[i].name);
          if i < |opts| - 1 {
            assert Init(opts)[i] == opts[i];
          }
        }
        if Mentions(Init(opts), IsBackupDatabase) {
          var i :| 0 <= i < |Init(opts)| && IsBackupDatabase(Init(opts)[i].name);
          assert opts[i] == Init(opts)[i];
        }
      }
    }
  }

  /** A later option overrides an earlier one: the last option named by `isName` decides. */
  lemma {:induction false} LastArgIsLastOccurrence(opts: seq<Opt>, isName: string -> bool, otherwise: string, i: nat)
    requires i < |opts| && isName(opts[i].name)
    requires forall j :: i < j < |opts| ==> !isName(opts[j].name)
    ensures LastArg(opts, isName, otherwise) == opts[i].arg
  {
    if i < |opts| - 1 {
      LastArgIsLastOccurrence(Init(opts), isName, otherwise, i);
    }
  }

  /** Without any option named by `isName`, the value stays as it was. */
  lemma {:induction false} LastArgWithoutOccurrence(opts: seq<Opt>, isName: string -> bool, otherwise: string)
    requires !Mentions(opts, isName)
    ensures LastArg(opts, isName, otherwise) == otherwise
  {
    if opts != [] {
      forall i | 0 <= i < |Init(opts)|
        ensures !isName(Init(opts)[i].name)
      {
        assert Init(opts)[i] == opts[i];
      }
      LastArgWithoutOccurrence(Init(opts), isName, otherwise);
    }
  }

  /**
   * `parse_args` (lines 28-57), with the command line already split into options and
   * positionals. `parseDate` stands for `strptime` with the format '%Y-%m-%d'; None is the
   * ValueError it raises. The last positional is parsed first.
   */
  function ParseArgs(opts: seq<Opt>, args: seq<string>, nowFrom: int, nowTo: int, parseDate: string -> Option<int>)
    : (r: Result<Config>)
    ensures r.Failure? <==> |args| > 0 && (parseDate(Last(args)).None? || (|args| > 1 && parseDate(args[0]).None?))
    ensures r.Success? && |args| == 0 ==> r.value.dateFrom == nowFrom && r.value.dateTo == nowTo
    ensures r.Success? && |args| > 0 ==> parseDate(args[0]) == Some(r.value.dateFrom) && parseDate(Last(args)) == Some(r.value.dateTo)
  {
    ApplyOptionsFields(Defaults(nowFrom, nowTo), opts);
    var config := ApplyOptions(Defaults(nowFrom, nowTo), opts);
    if |args| == 0 then Success(config)
    else if parseDate(Last(args)).None? then Failure(ValueError("time data does not match format '%Y-%m-%d'"))
    else
      var dateTo := parseDate(Last(args)).value;
      if |args| == 1 then Success(config.(dateFrom := dateTo, dateTo := dateTo))
      else if parseDate(args[0]).None? then Failure(ValueError("time data does not match format '%Y-%m-%d'"))
      else Success(config.(dateFrom := parseDate(args[0]).value, dateTo := dateTo))
  }

  /** Lines 28-57. */
  method ParseArguments(opts: seq<Opt>, args: seq<string>, nowFrom: int, nowTo: int, parseDate: string -> Option<int>)
    returns (r: Result<Config>)
    ensures r == ParseArgs(opts, args, nowFrom, nowTo, parseDate)
  {
    var config := Defaults(nowFrom, nowTo);
    for i := 0 to |opts|
      invariant config == ApplyOptions(Defaults(nowFrom, nowTo), opts[..i])
    {
      var opt := opts[i];
      assert Init(opts[..i + 1]) == opts[..i] && Last(opts[..i + 1]) == opt;
      if opt.name == "-b" || opt.name == "--backup-database" {
        config := config.(backupDatabase := true);
      } else if opt.name == "-d" || opt.name == "--database-uri" {
        config := config.(databaseUri := opt.arg);
      } else if opt.name == "-r" || opt.name == "--redis-uri" {
        config := config.(redisUri := opt.arg);
      }
    }
    assert opts[..|opts|] == opts;
    if |args| > 0 {
      var date := parseDate(args[|args| - 1]);
      if date.None? {
        return Failure(ValueError("time data does not match format '%Y-%m-%d'"));
      }
      config := config.(dateFrom := date.value, dateTo := date.value);
      if |args| > 1 {
        date := parseDate(args[0]);
        if date.None? {
          return Failure(ValueError("time data does not match format '%Y-%m-%d'"));
        }
        config := config.(dateFrom := date.value);
      }
    }
    return Success(config);
  }

  /** With no options and no positionals the configuration is the defaults. */
  lemma NoArgumentsGiveDefaults(nowFrom: int, nowTo: int, parseDate: string -> Option<int>)
    ensures ParseArgs([], [], nowFrom, nowTo, parseDate) == Success(Defaults(nowFrom, nowTo))
  {
  }

  /**
   * With no positional the dates are the clock readings; the options decide the flag and the
   * URIs, each URI falling back to its default.
   */
  lemma OptionsOnly(opts: seq<Opt>, nowFrom: int, nowTo: int, parseDate: string -> Option<int>)
    ensures ParseArgs(opts, [], nowFrom, nowTo, parseDate).Success?
    ensures var config := ParseArgs(opts, [], nowFrom, nowTo, parseDate).value;
      && config.dateFrom == nowFrom && config.dateTo == nowTo
      && (config.backupDatabase <==> Mentions(opts, IsBackupDatabase))
      && config.databaseUri == LastArg(opts, IsDatabaseUri, DEFAULT_DATABASE_URI)
      && config.redisUri == LastArg(opts, IsRedisUri, DEFAULT_REDIS_URI)
  {
    ApplyOptionsFields(Defaults(nowFrom, nowTo), opts);
  }

  /** One positional date sets both dates to it. */
  lemma OnePositional(opts: seq<Opt>, arg: string, nowFrom: int, nowTo: int, parseDate: string -> Option<int>)
    requires parseDate(arg).Some?
    ensures ParseArgs(opts, [arg], nowFrom, nowTo, parseDate).Success?
    ensures ParseArgs(opts, [arg], nowFrom, nowTo, parseDate).value.dateFrom == parseDate(arg).value
    ensures ParseArgs(opts, [arg], nowFrom, nowTo, parseDate).value.dateTo == parseDate(arg).value
  {
  }

  /** Two or more positionals: the first is the start date, the last the end date, any others are ignored. */
  lemma ManyPositionals(opts: seq<Opt>, args: seq<string>, nowFrom: int, nowTo: int, parseDate: string -> Option<int>)
    requires |args| >= 2 && parseDate(args[0]).Some? && parseDate(args[|args| - 1]).Some?
    ensures ParseArgs(opts, args, nowFrom, nowTo, parseDate).Success?
    ensures ParseArgs(opts, args, nowFrom, nowTo, parseDate).value.dateFrom == parseDate(args[0]).value
    ensures ParseArgs(opts, args, nowFrom, nowTo, parseDate).value.dateTo == parseDate(args[|args| - 1]).value
    ensures ParseArgs(opts, args, nowFrom, nowTo, parseDate).value
         == ParseArgs(opts, [args[0], args[|args| - 1]], nowFrom, nowTo, parseDate).value
  {
  }

  /** A positional that is not a date raises ValueError, whatever the options. */
  lemma BadDateFails(opts: seq<Opt>, args: seq<string>, nowFrom: int, nowTo: int, parseDate: string -> Option<int>)
    requires |args| > 0 && (parseDate(args[0]).None? || parseDate(args[|args| - 1]).None?)
    ensures ParseArgs(opts, args, nowFrom, nowTo, parseDate).Failure?
  {
  }
}

=== FILE: date_utils.dfy ===
/** The inclusive range of days walked by `dates`; days are whole day numbers. */
module DateUtils {

  /** What `dates(dateFrom, dateTo)` yields: each day from `dateFrom` up to and including `dateTo`. */
  function DateRange(dateFrom: int, dateTo: int): (r: seq<int>)
    ensures |r| == (if dateFrom <= dateTo then dateTo - dateFrom + 1 else 0)
    decreases dateTo - dateFrom
  {
    if dateFrom > dateTo then [] else [dateFrom] + DateRange(dateFrom + 1, dateTo)
  }

  /** The i-th day yielded is `dateFrom + i`. */
  lemma {:induction false} DateRangeAt(dateFrom: int, dateTo: int, i: nat)
    requires i < |DateRange(dateFrom, dateTo)|
    ensures DateRange(dateFrom, dateTo)[i] == dateFrom + i
    decreases dateTo - dateFrom
  {
    if i > 0 {
      DateRangeAt(dateFrom + 1, dateTo, i - 1);
    }
  }

  /** Exactly the days between the bounds are yielded, and consecutive days differ by one. */
  lemma DateRangeProperties(dateFrom: int, dateTo: int)
    ensures forall d :: d in DateRange(dateFrom, dateTo) <==> dateFrom <= d <= dateTo
    ensures forall i :: 0 < i < |DateRange(dateFrom, dateTo)| ==> DateRange(dateFrom, dateTo)[i] == DateRange(dateFrom, dateTo)[i - 1] + 1
  {
    var r := DateRange(dateFrom, dateTo);
    forall i | 0 <= i < |r|
      ensures r[i] == dateFrom + i
    {
      DateRangeAt(dateFrom, dateTo, i);
    }
    forall d | dateFrom <= d <= dateTo
      ensures d in r
    {
      assert r[d - dateFrom] == d;
    }
  }

  /** `dates` (lines 4-10): the generator's values, collected in order. */
  method Dates(dateFrom: int, dateTo: int) returns (r: seq<int>)
    ensures r == DateRange(dateFrom, dateTo)
  {
    r := [];
    var nextDate := dateFrom;
    while nextDate <= dateTo
      invariant dateFrom <= nextDate && (dateFrom <= dateTo ==> nextDate <= dateTo + 1)
      invariant r + DateRange(nextDate, dateTo) == DateRange(dateFrom, dateTo)
      decreases dateTo - nextDate
    {
      r := r + [nextDate];
      nextDate := nextDate + 1;
    }
  }

  /** As written, a range whose start is after its end yields nothing at all. */
  lemma ReversedRangeIsEmpty()
    ensures DateRange(3, 1) == []
  {
  }

  /** The range read in either direction: forwards when `dateFrom <= dateTo`, otherwise backwards. */
  function DateRangeEitherWay(dateFrom: int, dateTo: int): (r: seq<int>)
    ensures |r| == (if dateFrom <= dateTo then dateTo - dateFrom + 1 else dateFrom - dateTo + 1)
    decreases if dateFrom <= dateTo then dateTo - dateFrom else dateFrom - dateTo
  {
    if dateFrom == dateTo then [dateFrom]
    else if dateFrom < dateTo then [dateFrom] + DateRangeEitherWay(dateFrom + 1, dateTo)
    else [dateFrom] + DateRangeEitherWay(dateFrom - 1, dateTo)
  }

  /**
   * Walking either way starts at `dateFrom`, ends at `dateTo` and moves one day per step towards `dateTo`;
   * forwards it agrees with `dates`.
   */
  lemma {:induction false} DateRangeEitherWayProperties(dateFrom: int, dateTo: int)
    ensures DateRangeEitherWay(dateFrom, dateTo)[0] == dateFrom
    ensures DateRangeEitherWay(dateFrom, dateTo)[|DateRangeEitherWay(dateFrom, dateTo)| - 1] == dateTo
    ensures forall i :: 0 <= i < |DateRangeEitherWay(dateFrom, dateTo)| ==>
      DateRangeEitherWay(dateFrom, dateTo)[i] == (if dateFrom <= dateTo then dateFrom + i else dateFrom - i)
    ensures dateFrom <= dateTo ==> DateRangeEitherWay(dateFrom, dateTo) == DateRange(dateFrom, dateTo)
    decreases if dateFrom <= dateTo then dateTo - dateFrom else dateFrom - dateTo
  {
    if dateFrom < dateTo {
      DateRangeEitherWayProperties(dateFrom + 1, dateTo);
    } else if dateFrom > dateTo {
      DateRangeEitherWayProperties(dateFrom - 1, dateTo);
    }
  }

  /** The backward walk from day 3 to day 1. */
  lemma ReversedRangeEitherWay()
    ensures DateRangeEitherWay(3, 1) == [3, 2, 1]
  {
    DateRangeEitherWayProperties(3, 1);
  }
}

=== FILE: prediction.dfy ===
/**
 * Predictions: one predictor's four pick lists for a race, and the value each bet type would
 * have returned against the race's actual result. Picks are runner numbers; pick list p holds
 * the runners predicted to finish in place p + 1.
 */
module Predictions {
  import opened Wrappers
  import opened Seqs
  import opened RacingData
  import CU = CombinationUtils
  import Races
  import Versions
  import Predictors

  /** `BET_TYPES`: win, exacta, trifecta and first four, on the first 1, 2, 3 and 4 places. */
  datatype BetType = Win | Exacta | Trifecta | FirstFour

  const BET_TYPES: seq<BetType> := [Win, Exacta, Trifecta, FirstFour]

  function Places(bet: BetType): (n: nat)
    ensures 1 <= n <= 4
  {
    match bet
    case Win => 1
    case Exacta => 2
    case Trifecta => 3
    case FirstFour => 4
  }

  // ---------------------------------------------------------------------------
  // Estimations

  /** The numbers of the runners the predictor estimates at `key`, in race order. */
  function Group(active: seq<Runner>, estimate: Runner -> Option<real>, key: real): seq<int> {
    if active == [] then []
    else Group(Init(active), estimate, key) + (if estimate(Last(active)) == Some(key) then [Last(active).number] else [])
  }

  /**
   * The `estimations` dictionary: each estimate made maps to the numbers of the runners given
   * it, in race order; a runner whose estimation raises (None) is left out.
   */
  function Estimations(active: seq<Runner>, estimate: Runner -> Option<real>): map<real, seq<int>> {
    if active == [] then map[]
    else
      var m := Estimations(Init(active), estimate);
      var runner := Last(active);
      match estimate(runner)
      case None => m
      case Some(e) => m[e := (if e in m then m[e] else []) + [runner.number]]
  }

  /** The dictionary holds exactly the non-empty groups. */
  lemma {:induction false} EstimationsAreGroups(active: seq<Runner>, estimate: Runner -> Option<real>, key: real)
    ensures key in Estimations(active, estimate) <==> Group(active, estimate, key) != []
    ensures key in Estimations(active, estimate) ==> Estimations(active, estimate)[key] == Group(active, estimate, key)
  {
    if active != [] {
      EstimationsAreGroups(Init(active), estimate, key);
    }
  }

  /** A number is in a group exactly when some runner with that number got that estimate. */
  lemma {:induction false} GroupMembership(active: seq<Runner>, estimate: Runner -> Option<real>, key: real, n: int)
    ensures n in Group(active, estimate, key)
        <==> exists i :: 0 <= i < |active| && active[i].number == n && estimate(active[i]) == Some(key)
  {
    if active != [] {
      GroupMembership(Init(active), estimate, key, n);
      if exists i :: 0 <= i < |active| && active[i].number == n && estimate(active[i]) == Some(key) {
        var i :| 0 <= i < |active| && active[i].number == n && estimate(active[i]) == Some(key);
        if i < |active| - 1 {
          assert Init(active)[i] == active[i];
        }
      }
      if n in Group(Init(active), estimate, key) {
        var i :| 0 <= i < |Init(active)| && Init(active)[i].number == n && estimate(Init(active)[i]) == Some(key);
        assert active[i] == Init(active)[i];
      }
    }
  }

  /** The loop of lines 41-49. */
  method BuildEstimations(active: seq<Runner>, estimate: Runner -> Option<real>) returns (estimations: map<real, seq<int>>)
    ensures estimations == Estimations(active, estimate)
  {
    estimations := map[];
    for i := 0 to |active|
      invariant estimations == Estimations(active[..i], estimate)
    {
      assert Init(active[..i + 1]) == active[..i] && Last(active[..i + 1]) == active[i];
      var estimation := estimate(active[i]);
      if estimation.Some? {
        if estimation.value !in estimations {
          estimations := estimations[estimation.value := []];
        }
        estimations := estimations[estimation.value := estimations[estimation.value] + [active[i].number]];
      }
    }
    assert active[..|active|] == active;
  }

  // ---------------------------------------------------------------------------
  // Classifier picks

  /** Pick list p holds the runners estimated in class p + 1. */
  function ClassifierPicks(estimations: map<real, seq<int>>): (picks: seq<seq<int>>)
    ensures |picks| == 4
  {
    seq(4, p requires 0 <= p < 4 => if (p + 1) as real in estimations then estimations[(p + 1) as real] else [])
  }

  /** Lines 52-56: four empty lists, then each estimated place's runners. */
  method FillClassifierPicks(estimations: map<real, seq<int>>) returns (picks: seq<seq<int>>)
    ensures picks == ClassifierPicks(estimations)
  {
    picks := [];
    for place := 0 to 4
      invariant |picks| == place && forall p :: 0 <= p < place ==> picks[p] == []
    {
      picks := picks + [[]];
    }
    for place := 1 to 5
      invariant |picks| == 4
      invariant forall p :: 0 <= p < 4 ==>
        picks[p] == (if p + 1 < place && (p + 1) as real in estimations then estimations[(p + 1) as real] else [])
    {
      if place as real in estimations {
        picks := picks[place - 1 := picks[place - 1] + estimations[place as real]];
      }
    }
  }

  /**
   * With a classifier, pick list p holds exactly the runners estimated in class p + 1, in race
   * order; runners estimated outside classes 1 to 4 are in no list.
   */
  lemma ClassifierPicksAreGroups(active: seq<Runner>, estimate: Runner -> Option<real>, p: nat)
    requires p < 4
    ensures ClassifierPicks(Estimations(active, estimate))[p] == Group(active, estimate, (p + 1) as real)
  {
    EstimationsAreGroups(active, estimate, (p + 1) as real);
  }

  // ---------------------------------------------------------------------------
  // Regressor picks

  predicate StrictlyIncreasing(keys: seq<real>) {
    forall i, j :: 0 <= i < j < |keys| ==> keys[i] < keys[j]
  }

  lemma NonEmptyHasElement(s: set<real>)
    requires s != {}
    ensures exists x :: x in s
  {
    if forall x :: x !in s {
      assert false;
    }
  }

  lemma {:induction false} MinExists(s: set<real>)
    requires s != {}
    ensures exists m :: m in s && forall x :: x in s ==> m <= x
    decreases s
  {
    NonEmptyHasElement(s);
    var y :| y in s;
    if s != {y} {
      MinExists(s - {y});
      var m :| m in s - {y} && forall x :: x in s - {y} ==> m <= x;
      if y < m {
        forall x | x in s ensures y <= x {
          if x != y {
            assert x in s - {y};
          }
        }
      } else {
        forall x | x in s ensures m <= x {
          if x != y {
            assert x in s - {y};
          }
        }
      }
    }
  }

  function MinOf(s: set<real>): (m: real)
    requires s != {}
    ensures m in s && forall x :: x in s ==> m <= x
  {
    MinExists(s);
    var m :| m in s && forall x :: x in s ==> m <= x;
    m
  }

  /** `sorted(keys)`: the keys in increasing order. */
  function SortedKeys(s: set<real>): (r: seq<real>)
    ensures StrictlyIncreasing(r)
    ensures forall x :: x in r <==> x in s
    decreases s
  {
    if s == {} then []
    else
      var m := MinOf(s);
      var rest := SortedKeys(s - {m});
      assert forall i :: 0 <= i < |rest| ==> rest[i] in s - {m};
      [m] + rest
  }

  function Repeat(pick: seq<int>, count: nat): (r: seq<seq<int>>)
    ensures |r| == count && forall i :: 0 <= i < count ==> r[i] == pick
  {
    seq(count, _ => pick)
  }

  /** Each group, in the order of `keys`, repeated once per runner in it. */
  function Expand(keys: seq<real>, estimations: map<real, seq<int>>): seq<seq<int>>
    requires forall i :: 0 <= i < |keys| ==> keys[i] in estimations
  {
    if keys == [] then []
    else
      var group := estimations[Last(keys)];
      Expand(Init(keys), estimations) + Repeat(group, |group|)
  }

  function Take4(picks: seq<seq<int>>): (r: seq<seq<int>>)
    ensures |r| <= 4
  {
    if |picks| <= 4 then picks else picks[..4]
  }

  function PadTo4(picks: seq<seq<int>>): (r: seq<seq<int>>)
    requires |picks| <= 4
    ensures |r| == 4
  {
    picks + seq(4 - |picks|, _ => [])
  }

  /**
   * With a regressor: the groups in increasing order of estimate, each filling as many places
   * as it has runners, cut at four places and padded with empty lists.
   */
  function RegressorPicks(estimations: map<real, seq<int>>): (picks: seq<seq<int>>)
    ensures |picks| == 4
  {
    PadTo4(Take4(Expand(SortedKeys(estimations.Keys), estimations)))
  }

  lemma Take4Snoc(picks: seq<seq<int>>, pick: seq<int>)
    ensures Take4(picks + [pick]) == if |picks| < 4 then Take4(picks) + [pick] else Take4(picks)
  {
    if |picks| >= 4 {
      assert (picks + [pick])[..4] == picks[..4];
    }
  }

  /** Lines 58-67. */
  method FillRegressorPicks(estimations: map<real, seq<int>>) returns (picks: seq<seq<int>>)
    ensures picks == RegressorPicks(estimations)
  {
    var newPicks := TakeGroups(estimations, SortedKeys(estimations.Keys));
    picks := PadPicks(newPicks);
  }

  /** Lines 59-63: the groups of `keys` in turn, while fewer than four places are filled. */
  method TakeGroups(estimations: map<real, seq<int>>, keys: seq<real>) returns (newPicks: seq<seq<int>>)
    requires forall i :: 0 <= i < |keys| ==> keys[i] in estimations
    ensures newPicks == Take4(Expand(keys, estimations))
  {
    newPicks := [];
    for i := 0 to |keys|
      invariant newPicks == Take4(Expand(keys[..i], estimations))
    {
      newPicks := AppendGroup(newPicks, Expand(keys[..i], estimations), estimations[keys[i]]);
      assert Init(keys[..i + 1]) == keys[..i] && Last(keys[..i + 1]) == keys[i];
    }
    assert keys[..|keys|] == keys;
  }

  /** Lines 64-66: empty picks up to four places. */
  method PadPicks(taken: seq<seq<int>>) returns (picks: seq<seq<int>>)
    requires |taken| <= 4
    ensures picks == PadTo4(taken)
  {
    picks := taken;
    if |picks| < 4 {
      var missing := 4 - |picks|;
      for place := 0 to missing
        invariant picks == taken + seq(place, _ => [])
      {
        picks := picks + [[]];
      }
    }
  }

  /** Lines 60-63: one copy of the group per runner in it, while fewer than four places are filled. */
  method AppendGroup(newPicks: seq<seq<int>>, ghost before: seq<seq<int>>, nextPick: seq<int>) returns (r: seq<seq<int>>)
    requires newPicks == Take4(before)
    ensures r == Take4(before + Repeat(nextPick, |nextPick|))
  {
    r := newPicks;
    assert before + Repeat(nextPick, 0) == before;
    for count := 0 to |nextPick|
      invariant r == Take4(before + Repeat(nextPick, count))
    {
      Take4Snoc(before + Repeat(nextPick, count), nextPick);
      assert before + Repeat(nextPick, count + 1) == (before + Repeat(nextPick, count)) + [nextPick];
      if |r| < 4 {
        r := r + [nextPick];
      }
    }
  }

  /** The total number of runners in the groups of `keys`. */
  function Sizes(keys: seq<real>, estimations: map<real, seq<int>>): nat
    requires forall i :: 0 <= i < |keys| ==> keys[i] in estimations
  {
    if keys == [] then 0 else Sizes(Init(keys), estimations) + |estimations[Last(keys)]|
  }

  lemma {:induction false} ExpandSize(keys: seq<real>, estimations: map<real, seq<int>>)
    requires forall i :: 0 <= i < |keys| ==> keys[i] in estimations
    ensures |Expand(keys, estimations)| == Sizes(keys, estimations)
  {
    if keys != [] {
      ExpandSize(Init(keys), estimations);
    }
  }

  /** The t-th group occupies the places from the size of the groups before it. */
  lemma {:induction false} ExpandAt(keys: seq<real>, estimations: map<real, seq<int>>, t: nat, i: nat)
    requires forall j :: 0 <= j < |keys| ==> keys[j] in estimations
    requires t < |keys| && Sizes(keys[..t], estimations) <= i < Sizes(keys[..t], estimations) + |estimations[keys[t]]|
    ensures i < |Expand(keys, estimations)| && Expand(keys, estimations)[i] == estimations[keys[t]]
  {
    var init := Init(keys);
    ExpandSize(init, estimations);
    if t == |keys| - 1 {
      assert keys[..t] == init;
    } else {
      assert init[..t] == keys[..t];
      ExpandAt(init, estimations, t, i);
      SizesPrefix(init, estimations, t);
    }
  }

  lemma {:induction false} SizesPrefix(keys: seq<real>, estimations: map<real, seq<int>>, t: nat)
    requires forall j :: 0 <= j < |keys| ==> keys[j] in estimations
    requires t < |keys|
    ensures Sizes(keys[..t], estimations) + |estimations[keys[t]]| <= Sizes(keys, estimations)
  {
    if t < |keys| - 1 {
      assert Init(keys)[..t] == keys[..t];
      SizesPrefix(Init(keys), estimations, t);
    } else {
      assert keys[..t] == Init(keys);
    }
  }

  /**
   * Ranking with ties: the t-th smallest estimate's group fills the places starting after all
   * the runners with smaller estimates, one place per runner in it, as far as place 4.
   */
  lemma RegressorPicksRank(estimations: map<real, seq<int>>, t: nat, i: nat)
    requires t < |SortedKeys(estimations.Keys)| && i < 4
    requires var keys := SortedKeys(estimations.Keys);
      Sizes(keys[..t], estimations) <= i < Sizes(keys[..t], estimations) + |estimations[keys[t]]|
    ensures RegressorPicks(estimations)[i] == estimations[SortedKeys(estimations.Keys)[t]]
  {
    var keys := SortedKeys(estimations.Keys);
    ExpandAt(keys, estimations, t, i);
    PaddedAt(Expand(keys, estimations), i);
  }

  /** The first four places of a pick list survive cutting and padding. */
  lemma PaddedAt(picks: seq<seq<int>>, i: nat)
    requires i < 4 && i < |picks|
    ensures PadTo4(Take4(picks))[i] == picks[i]
  {
  }

  /** Places beyond all the estimated runners are empty lists. */
  lemma RegressorPicksPadding(estimations: map<real, seq<int>>, i: nat)
    requires i < 4 && i >= Sizes(SortedKeys(estimations.Keys), estimations)
    ensures RegressorPicks(estimations)[i] == []
  {
    ExpandSize(SortedKeys(estimations.Keys), estimations);
  }

  // ---------------------------------------------------------------------------
  // Picks

  function Picks(isClassifier: bool, estimations: map<real, seq<int>>): (picks: seq<seq<int>>)
    ensures |picks| == 4
  {
    if isClassifier then ClassifierPicks(estimations) else RegressorPicks(estimations)
  }

  /**
   * Every number in a pick list belongs to an active runner whose estimation succeeded: runners
   * whose estimation raised are in no pick list.
   */
  lemma PicksComeFromEstimates(isClassifier: bool, active: seq<Runner>, estimate: Runner -> Option<real>, p: nat, n: int)
    requires p < 4 && n in Picks(isClassifier, Estimations(active, estimate))[p]
    ensures exists i :: 0 <= i < |active| && active[i].number == n && estimate(active[i]).Some?
  {
    var key;
    if isClassifier {
      ClassifierPicksAreGroups(active, estimate, p);
      key := (p + 1) as real;
    } else {
      key := RegressorPickKey(Estimations(active, estimate), p);
      EstimationsAreGroups(active, estimate, key);
    }
    GroupMembership(active, estimate, key, n);
  }

  /** Every regressor pick list is padding or one of the groups. */
  lemma RegressorPickKey(estimations: map<real, seq<int>>, p: nat) returns (key: real)
    requires p < 4
    ensures RegressorPicks(estimations)[p] == [] || (key in estimations && RegressorPicks(estimations)[p] == estimations[key])
  {
    var keys := SortedKeys(estimations.Keys);
    ExpandSize(keys, estimations);
    if p >= Sizes(keys, estimations) {
      RegressorPicksPadding(estimations, p);
      key := 0.0;
    } else {
      key := ExpandedFromKeys(keys, estimations, p);
    }
  }

  lemma {:induction false} ExpandedFromKeys(keys: seq<real>, estimations: map<real, seq<int>>, i: nat) returns (key: real)
    requires forall j :: 0 <= j < |keys| ==> keys[j] in estimations
    requires i < |Expand(keys, estimations)|
    ensures key in estimations && Expand(keys, estimations)[i] == estimations[key]
  {
    var init := Init(keys);
    if i < |Expand(init, estimations)| {
      key := ExpandedFromKeys(init, estimations, i);
    } else {
      key := Last(keys);
    }
  }

  // ---------------------------------------------------------------------------
  // Bet values

  function Max(a: real, b: real): real {
    if a >= b then a else b
  }

  /** The dividend factor of the runner in place `index + 1` of an `n`-place bet. */
  function Factor(runner: Runner, index: int, n: nat): (f: real)
    requires n > 0
    ensures f >= 1.0
  {
    if runner.startingPrice.Some? then Max(runner.startingPrice.value * (n - index) as real / n as real, 2.0) else 1.0
  }

  lemma ProductAtLeastOne(a: real, b: real)
    requires a >= 1.0 && b >= 1.0
    ensures a * b >= 1.0
  {
    assert a * b >= a * 1.0;
  }

  /** The value of one winning combination: the product of its runners' factors, at least 1. */
  function CombinationValue(combination: seq<Runner>, n: nat): (v: real)
    requires n > 0
    ensures v >= 1.0
  {
    if combination == [] then 1.0
    else
      var v := CombinationValue(Init(combination), n);
      var f := Factor(Last(combination), |combination| - 1, n);
      ProductAtLeastOne(v, f);
      v * f
  }

  function Numbers(combination: seq<Runner>): (r: seq<int>)
    ensures |r| == |combination|
  {
    seq(|combination|, i requires 0 <= i < |combination| => combination[i].number)
  }

  /** What the candidates return: the values of the winning combinations among them. */
  function Returns(winning: seq<seq<Runner>>, candidates: seq<seq<int>>, n: nat): real
    requires n > 0
  {
    if winning == [] then 0.0
    else
      Returns(Init(winning), candidates, n)
      + (if Numbers(Last(winning)) in candidates then CombinationValue(Last(winning), n) else 0.0)
  }

  /** How many winning combinations are among the candidates. */
  function Hits(winning: seq<seq<Runner>>, candidates: seq<seq<int>>): nat {
    if winning == [] then 0 else Hits(Init(winning), candidates) + (if Numbers(Last(winning)) in candidates then 1 else 0)
  }

  /** Each winning combination among the candidates returns at least 1; with none, nothing is returned. */
  lemma {:induction false} ReturnsAtLeastHits(winning: seq<seq<Runner>>, candidates: seq<seq<int>>, n: nat)
    requires n > 0
    ensures Returns(winning, candidates, n) >= Hits(winning, candidates) as real
    ensures Hits(winning, candidates) == 0 ==> Returns(winning, candidates, n) == 0.0
  {
    if winning != [] {
      ReturnsAtLeastHits(Init(winning), candidates, n);
    }
  }

  /** The value per unit staked on each candidate, less the stake: per combination for a win, averaged otherwise. */
  function Settle(n: nat, count: nat, total: real): real
    requires count > 0
  {
    if n > 1 then total / count as real - 1.0 else total - count as real
  }

  function Take(picks: seq<seq<int>>, n: nat): seq<seq<int>> {
    if n <= |picks| then picks[..n] else picks
  }

  /**
   * The value of an `n`-place bet on the combinations of the first `n` pick lists: 0 without
   * candidates, otherwise the settled returns of the winning combinations among them. The
   * exceptions of the helpers propagate.
   */
  function BetValue(runners: seq<Runner>, picks: seq<seq<int>>, n: nat): (r: Result<real>)
    requires Races.ResultsArePlaces(Races.ActiveRunners(runners)) && n > 0
    ensures r.Failure? <==> picks == []
  {
    Races.RemoveAtUnreachable(runners, n);
    var candidates := CU.Combinations(Take(picks, n));
    if candidates.None? then Failure(TypeError("'NoneType' object is not iterable"))
    else if |candidates.value| == 0 then Success(0.0)
    else
      match Races.WinningCombinations(runners, n)
      case Failure(e) => Failure(e)
      case Success(winning) => Success(Settle(n, |candidates.value|, Returns(winning, candidates.value, n)))
  }

  /** Lines 69-93 for one bet type. */
  method BetTypeValue(runners: seq<Runner>, picks: seq<seq<int>>, n: nat) returns (r: Result<real>)
    requires Races.ResultsArePlaces(Races.ActiveRunners(runners)) && n > 0
    ensures r == BetValue(runners, picks, n)
  {
    var value := 0.0;
    var candidates := CU.GetCombinations(Take(picks, n));
    if candidates.None? {
      return Failure(TypeError("'NoneType' object is not iterable"));
    }
    if |candidates.value| > 0 {
      var winning := Races.GetWinningCombinations(runners, n);
      if winning.Failure? {
        return Failure(winning.error);
      }
      var total := SumReturns(winning.value, candidates.value, n);
      value := SettleReturns(n, |candidates.value|, total);
    }
    return Success(value);
  }

  /** Lines 86-90: per combination for a bet on several places, per unit staked for a win. */
  method SettleReturns(n: nat, count: nat, total: real) returns (value: real)
    requires count > 0
    ensures value == Settle(n, count, total)
  {
    value := total;
    if n > 1 {
      value := value / count as real;
      value := value - 1.0;
    } else {
      value := value - count as real;
    }
  }

  /** Lines 78-85: the values of the winning combinations among the candidates, added up. */
  method SumReturns(winning: seq<seq<Runner>>, candidates: seq<seq<int>>, n: nat) returns (value: real)
    requires n > 0
    ensures value == Returns(winning, candidates, n)
  {
    value := 0.0;
    for k := 0 to |winning|
      invariant value == Returns(winning[..k], candidates, n)
    {
      var combination := winning[k];
      assert Init(winning[..k + 1]) == winning[..k] && Last(winning[..k + 1]) == combination;
      var numbers := Numbers(combination);
      if numbers in candidates {
        var combinationValue := GetCombinationValue(combination, n);
        value := value + combinationValue;
      }
    }
    assert winning[..|winning|] == winning;
  }

  /** Lines 81-84: the product of the factors of the runners in a winning combination. */
  method GetCombinationValue(combination: seq<Runner>, n: nat) returns (combinationValue: real)
    requires n > 0
    ensures combinationValue == CombinationValue(combination, n)
  {
    combinationValue := 1.0;
    for index := 0 to |combination|
      invariant combinationValue == CombinationValue(combination[..index], n)
    {
      ghost var before := combinationValue;
      combinationValue := ApplyFactor(combinationValue, combination[index], index, n);
      CombinationValueSnoc(combination, index, n, before, combinationValue);
    }
    assert combination[..|combination|] == combination;
  }

  /** Lines 82-83: a runner with a starting price scales the value by its factor (line 83); one without leaves it. */
  method ApplyFactor(combinationValue: real, runner: Runner, index: int, n: nat) returns (r: real)
    requires n > 0
    ensures r == combinationValue * Factor(runner, index, n)
  {
    r := combinationValue;
    if runner.startingPrice.Some? {
      r := r * Factor(runner, index, n);
    }
  }

  lemma CombinationValueSnoc(combination: seq<Runner>, index: nat, n: nat, before: real, after: real)
    requires index < |combination| && n > 0
    requires before == CombinationValue(combination[..index], n) && after == before * Factor(combination[index], index, n)
    ensures after == CombinationValue(combination[..index + 1], n)
  {
    var prefix := combination[..index + 1];
    assert Init(prefix) == combination[..index] && Last(prefix) == combination[index];
  }

  /** A bet type whose pick lists include an empty one has no candidates and is valued 0. */
  lemma BetValueWithEmptyPick(runners: seq<Runner>, picks: seq<seq<int>>, n: nat, i: nat)
    requires Races.ResultsArePlaces(Races.ActiveRunners(runners)) && n > 0
    requires i < n <= |picks| && picks[i] == []
    ensures BetValue(runners, picks, n) == Success(0.0)
  {
    CU.CombinationsWithEmptyPick(picks[..n], i);
  }

  /** When no winning combination is a candidate the whole stake is lost. */
  lemma BetValueWithoutHit(runners: seq<Runner>, picks: seq<seq<int>>, n: nat)
    requires Races.ResultsArePlaces(Races.ActiveRunners(runners)) && 0 < n <= |picks|
    requires var candidates := CU.Combinations(picks[..n]).value;
      candidates != [] && Hits(CU.Product(Races.Buckets(Races.ActiveRunners(runners), n)), candidates) == 0
    ensures BetValue(runners, picks, n)
         == Success(if n > 1 then -1.0 else -(|CU.Combinations(picks[..n]).value| as real))
  {
    Races.RemoveAtUnreachable(runners, n);
    ReturnsAtLeastHits(Races.WinningCombinations(runners, n).value, CU.Combinations(picks[..n]).value, n);
  }

  /** Every winning combination among the candidates returns at least 1. */
  lemma BetValueLowerBound(runners: seq<Runner>, picks: seq<seq<int>>, n: nat)
    requires Races.ResultsArePlaces(Races.ActiveRunners(runners)) && 0 < n <= |picks|
    requires CU.Combinations(picks[..n]).value != []
    ensures var count := |CU.Combinations(picks[..n]).value| as real;
      var hits := Hits(CU.Product(Races.Buckets(Races.ActiveRunners(runners), n)), CU.Combinations(picks[..n]).value) as real;
      BetValue(runners, picks, n).Success?
      && BetValue(runners, picks, n).value >= if n > 1 then hits / count - 1.0 else hits - count
  {
    Races.RemoveAtUnreachable(runners, n);
    var candidates := CU.Combinations(picks[..n]).value;
    var winning := Races.WinningCombinations(runners, n).value;
    ReturnsAtLeastHits(winning, candidates, n);
    var count := |candidates| as real;
    DivideMonotone(Hits(winning, candidates) as real, Returns(winning, candidates, n), count);
  }

  lemma DivideMonotone(a: real, b: real, c: real)
    requires a <= b && c > 0.0
    ensures a / c <= b / c
  {
    assert b / c - a / c == (b - a) / c;
  }

  /** For one to four places and four pick lists, valuing a bet type never raises. */
  lemma BetValueSucceeds(runners: seq<Runner>, picks: seq<seq<int>>, n: nat)
    requires Races.ResultsArePlaces(Races.ActiveRunners(runners)) && 0 < n <= |picks|
    ensures BetValue(runners, picks, n).Success?
  {
    Races.RemoveAtUnreachable(runners, n);
  }

  // ---------------------------------------------------------------------------
  // generate_prediction

  /** The prediction dictionary: picks, predictor, version, start time and one value per bet type. */
  datatype PredictionRecord = PredictionRecord(
    picks: seq<seq<int>>,
    predictorId: Option<int>,
    predictorVersion: string,
    startTime: int,
    values: map<BetType, real>)

  /** The values of `bets`, or the first exception met. */
  function Values(runners: seq<Runner>, picks: seq<seq<int>>, bets: seq<BetType>): Result<map<BetType, real>>
    requires Races.ResultsArePlaces(Races.ActiveRunners(runners))
  {
    if bets == [] then Success(map[])
    else
      match Values(runners, picks, Init(bets))
      case Failure(e) => Failure(e)
      case Success(values) =>
        match BetValue(runners, picks, Places(Last(bets)))
        case Failure(e) => Failure(e)
        case Success(v) => Success(values[Last(bets) := v])
  }

  /**
   * Every estimate raising, as `sample.normalized_query_data` does for the `Sample` class of
   * sample.py, which defines no such attribute: the bare `except` leaves the dictionary empty.
   */
  lemma {:induction false} NoEstimations(active: seq<Runner>, estimate: Runner -> Option<real>)
    requires forall i :: 0 <= i < |active| ==> estimate(active[i]).None?
    ensures Estimations(active, estimate) == map[]
  {
    if active != [] {
      NoEstimations(Init(active), estimate);
      assert Last(active) == active[|active| - 1];
    }
  }

  /** Without any estimate both kinds of predictor pick four empty lists. */
  lemma NoEstimationsNoPicks(isClassifier: bool)
    ensures Picks(isClassifier, map[]) == [[], [], [], []]
  {
    var none: map<real, seq<int>> := map[];
    if isClassifier {
      assert ClassifierPicks(none) == [[], [], [], []];
    } else {
      assert SortedKeys(none.Keys) == [];
      var empty: seq<seq<int>> := [];
      assert Expand([], none) == empty;
      assert PadTo4(empty) == [[], [], [], []];
    }
  }

  /** With an empty first pick every bet type is worth 0. */
  lemma {:induction false} ValuesWithoutPicks(runners: seq<Runner>, picks: seq<seq<int>>, bets: seq<BetType>)
    requires Races.ResultsArePlaces(Races.ActiveRunners(runners)) && |picks| == 4 && picks[0] == []
    ensures Values(runners, picks, bets).Success?
    ensures forall b :: b in Values(runners, picks, bets).value ==> Values(runners, picks, bets).value[b] == 0.0
  {
    if bets != [] {
      ValuesWithoutPicks(runners, picks, Init(bets));
      BetValueWithEmptyPick(runners, picks, Places(Last(bets)), 0);
    }
  }

  /**
   * As written, a predictor's estimates all raise (see `NoEstimations`), so every prediction has
   * four empty picks and a value of 0 for each bet type.
   */
  lemma PredictionWithoutEstimates(runners: seq<Runner>, predictor: Predictors.Predictor, startTime: int,
                                   estimate: Runner -> Option<real>)
    requires Races.ResultsArePlaces(Races.ActiveRunners(runners))
    requires forall r :: estimate(r).None?
    ensures PredictionOf(runners, predictor, startTime, estimate).Success?
    ensures PredictionOf(runners, predictor, startTime, estimate).value.picks == [[], [], [], []]
    ensures var values := PredictionOf(runners, predictor, startTime, estimate).value.values;
      forall b :: b in values ==> values[b] == 0.0
  {
    var active := Races.ActiveRunners(runners);
    NoEstimations(active, estimate);
    NoEstimationsNoPicks(predictor.isClassifier);
    var picks: seq<seq<int>> := [[], [], [], []];
    assert Picks(predictor.isClassifier, Estimations(active, estimate)) == picks;
    ValuesWithoutPicks(runners, picks, BET_TYPES);
  }

  /** `generate_prediction` for a predictor whose estimates are `estimate`. */
  function PredictionOf(runners: seq<Runner>, predictor: Predictors.Predictor, startTime: int, estimate: Runner -> Option<real>)
    : (r: Result<PredictionRecord>)
    requires Races.ResultsArePlaces(Races.ActiveRunners(runners))
    ensures r.Success? ==> |r.value.picks| == 4 && r.value.predictorId == predictor.id
    ensures r.Success? ==> r.value.values.Keys == {Win, Exacta, Trifecta, FirstFour}
  {
    var picks := Picks(predictor.isClassifier, Estimations(Races.ActiveRunners(runners), estimate));
    ValuesSucceed(runners, picks, BET_TYPES);
    AllBetTypes(Values(runners, picks, BET_TYPES).value);
    match Values(runners, picks, BET_TYPES)
    case Failure(e) => Failure(e)
    case Success(values) => Success(PredictionRecord(picks, predictor.id, Versions.VERSION, startTime, values))
  }

  method GeneratePrediction(runners: seq<Runner>, predictor: Predictors.Predictor, startTime: int, estimate: Runner -> Option<real>)
    returns (r: Result<PredictionRecord>)
    requires Races.ResultsArePlaces(Races.ActiveRunners(runners))
    ensures r == PredictionOf(runners, predictor, startTime, estimate)
  {
    var estimations := BuildEstimations(Races.ActiveRunners(runners), estimate);
    var picks;
    if predictor.isClassifier {
      picks := FillClassifierPicks(estimations);
    } else {
      picks := FillRegressorPicks(estimations);
    }
    var values := BetValues(runners, picks);
    return Success(PredictionRecord(picks, predictor.id, Versions.VERSION, startTime, values));
  }

  /** Lines 69-93 for each bet type in turn: the value of every bet type, none of them failing. */
  method BetValues(runners: seq<Runner>, picks: seq<seq<int>>) returns (values: map<BetType, real>)
    requires Races.ResultsArePlaces(Races.ActiveRunners(runners)) && |picks| == 4
    ensures Values(runners, picks, BET_TYPES) == Success(values)
  {
    values := map[];
    for i := 0 to |BET_TYPES|
      invariant Values(runners, picks, BET_TYPES[..i]) == Success(values)
    {
      var bet := BET_TYPES[i];
      assert Init(BET_TYPES[..i + 1]) == BET_TYPES[..i] && Last(BET_TYPES[..i + 1]) == bet;
      BetValueSucceeds(runners, picks, Places(bet));
      var value := BetTypeValue(runners, picks, Places(bet));
      assert Values(runners, picks, BET_TYPES[..i + 1]) == Success(values[bet := value.value]);
      values := values[bet := value.value];
    }
    assert BET_TYPES[..|BET_TYPES|] == BET_TYPES;
  }

  /** A prediction always has four pick lists and a value for each of the four bet types. */
  lemma PredictionSucceeds(runners: seq<Runner>, predictor: Predictors.Predictor, startTime: int, estimate: Runner -> Option<real>)
    requires Races.ResultsArePlaces(Races.ActiveRunners(runners))
    ensures PredictionOf(runners, predictor, startTime, estimate).Success?
    ensures |PredictionOf(runners, predictor, startTime, estimate).value.picks| == 4
    ensures PredictionOf(runners, predictor, startTime, estimate).value.values.Keys == {Win, Exacta, Trifecta, FirstFour}
  {
    var picks := Picks(predictor.isClassifier, Estimations(Races.ActiveRunners(runners), estimate));
    ValuesSucceed(runners, picks, BET_TYPES);
    AllBetTypes(Values(runners, picks, BET_TYPES).value);
  }

  lemma AllBetTypes(values: map<BetType, real>)
    requires forall b :: b in values <==> b in BET_TYPES
    ensures values.Keys == {Win, Exacta, Trifecta, FirstFour}
  {
  }

  lemma {:induction false} ValuesSucceed(runners: seq<Runner>, picks: seq<seq<int>>, bets: seq<BetType>)
    requires Races.ResultsArePlaces(Races.ActiveRunners(runners)) && |picks| == 4
    ensures Values(runners, picks, bets).Success?
    ensures forall b :: b in Values(runners, picks, bets).value <==> b in bets
  {
    if bets != [] {
      ValuesSucceed(runners, picks, Init(bets));
      BetValueSucceeds(runners, picks, Places(Last(bets)));
      var m := Values(runners, picks, Init(bets)).value;
      var v := BetValue(runners, picks, Places(Last(bets))).value;
      assert Values(runners, picks, bets) == Success(m[Last(bets) := v]);
      KeysSnoc(m, v, bets);
    }
  }

  /** Adding the last bet type's value to the map of the earlier ones covers all of them. */
  lemma KeysSnoc(m: map<BetType, real>, v: real, bets: seq<BetType>)
    requires bets != [] && forall b :: b in m <==> b in Init(bets)
    ensures forall b :: b in m[Last(bets) := v] <==> b in bets
  {
    assert bets == Init(bets) + [Last(bets)];
  }

  /** `f` applied to each element in turn, or the first failure. */
  function MapResults<A, B>(xs: seq<A>, f: A -> Result<B>): Result<seq<B>> {
    if xs == [] then Success([])
    else
      match MapResults(Init(xs), f)
      case Failure(e) => Failure(e)
      case Success(ys) =>
        match f(Last(xs))
        case Failure(e) => Failure(e)
        case Success(y) => Success(ys + [y])
  }

  /** When `f` succeeds on every element, the results line up one for one with the elements. */
  lemma {:induction false} MapResultsEach<A, B>(xs: seq<A>, f: A -> Result<B>, i: nat)
    requires i < |xs| && forall j :: 0 <= j < |xs| ==> f(xs[j]).Success?
    ensures MapResults(xs, f).Success? && |MapResults(xs, f).value| == |xs|
    ensures f(xs[i]) == Success(MapResults(xs, f).value[i])
  {
    var init := Init(xs);
    assert Last(xs) == xs[|xs| - 1];
    if init == [] {
      var none: seq<B> := [];
      assert MapResults(init, f) == Success(none);
      assert none + [f(Last(xs)).value] == [f(Last(xs)).value];
    } else {
      forall j | 0 <= j < |init|
        ensures f(init[j]).Success?
      {
        assert init[j] == xs[j];
      }
      MapResultsEach(init, f, if i < |init| then i else 0);
      var ys := MapResults(init, f).value;
      assert MapResults(xs, f) == Success(ys + [f(Last(xs)).value]);
      if i < |init| {
        assert xs[i] == init[i];
      }
    }
  }

  /**
   * `generate_predictions` for predictors whose estimates are `estimate`: each predictor's
   * prediction in turn, or the first exception raised.
   */
  function PredictionsOf(runners: seq<Runner>, predictors: seq<Predictors.Predictor>, startTime: int,
                         estimate: Predictors.Predictor -> Runner -> Option<real>): Result<seq<PredictionRecord>>
    requires Races.ResultsArePlaces(Races.ActiveRunners(runners))
  {
    MapResults(predictors, (p: Predictors.Predictor) => PredictionOf(runners, p, startTime, estimate(p)))
  }

  /** Given the predictors, making their predictions never raises: the i-th prediction made is the i-th predictor's. */
  lemma PredictionsOfEach(runners: seq<Runner>, predictors: seq<Predictors.Predictor>, startTime: int,
                          estimate: Predictors.Predictor -> Runner -> Option<real>, i: nat)
    requires Races.ResultsArePlaces(Races.ActiveRunners(runners)) && i < |predictors|
    ensures PredictionsOf(runners, predictors, startTime, estimate).Success?
    ensures |PredictionsOf(runners, predictors, startTime, estimate).value| == |predictors|
    ensures PredictionOf(runners, predictors[i], startTime, estimate(predictors[i]))
         == Success(PredictionsOf(runners, predictors, startTime, estimate).value[i])
  {
    var f := (p: Predictors.Predictor) => PredictionOf(runners, p, startTime, estimate(p));
    forall j | 0 <= j < |predictors|
      ensures f(predictors[j]).Success?
    {
      PredictionSucceeds(runners, predictors[j], startTime, estimate(predictors[j]));
    }
    MapResultsEach(predictors, f, i);
  }

  method GeneratePredictions(runners: seq<Runner>, predictors: seq<Predictors.Predictor>, startTime: int,
                             estimate: Predictors.Predictor -> Runner -> Option<real>)
    returns (predictions: seq<PredictionRecord>)
    requires Races.ResultsArePlaces(Races.ActiveRunners(runners))
    ensures PredictionsOf(runners, predictors, startTime, estimate) == Success(predictions)
  {
    predictions := [];
    for i := 0 to |predictors|
      invariant PredictionsOf(runners, predictors[..i], startTime, estimate) == Success(predictions)
    {
      assert Init(predictors[..i + 1]) == predictors[..i] && Last(predictors[..i + 1]) == predictors[i];
      PredictionSucceeds(runners, predictors[i], startTime, estimate(predictors[i]));
      var prediction := GeneratePrediction(runners, predictors[i], startTime, estimate(predictors[i]));
      predictions := predictions + [prediction.value];
    }
    assert predictors[..|predictors|] == predictors;
  }

  // ---------------------------------------------------------------------------
  // Stored predictions

  /** A prediction as stored, with the race it is for and when it was last updated. */
  datatype StoredPrediction = StoredPrediction(record: PredictionRecord, raceId: int, updatedAt: int)

  /** `has_expired`: updated before the race last was, or made by an incompatible version. */
  predicate HasExpired(prediction: StoredPrediction, raceUpdatedAt: int)
    ensures HasExpired(prediction, raceUpdatedAt)
        <==> prediction.updatedAt < raceUpdatedAt || Versions.Major(prediction.record.predictorVersion) != "1"
  {
    Versions.MajorOfVersion();
    prediction.updatedAt < raceUpdatedAt || Versions.Incompatible(prediction.record.predictorVersion)
  }

  /**
   * A prediction has expired exactly when it was updated before the race was, or its version is
   * neither "1" nor "1.<anything>"; so one from this version made since the race's last update stands.
   */
  lemma HasExpiredCases(prediction: StoredPrediction, raceUpdatedAt: int)
    ensures HasExpired(prediction, raceUpdatedAt)
        <==> || prediction.updatedAt < raceUpdatedAt
             || var v := prediction.record.predictorVersion; !(v == "1" || (|v| >= 2 && v[..2] == "1."))
    ensures prediction.updatedAt >= raceUpdatedAt && prediction.record.predictorVersion == Versions.VERSION
        ==> !HasExpired(prediction, raceUpdatedAt)
  {
  }

  /** `is_equivalent_to`: the same predictor for the same race. */
  predicate IsEquivalentTo(a: StoredPrediction, b: StoredPrediction)
    ensures a == b ==> IsEquivalentTo(a, b)
  {
    a.record.predictorId == b.record.predictorId && a.raceId == b.raceId
  }

  /** Equivalence is reflexive, symmetric and transitive. */
  lemma EquivalenceIsEquivalence(a: StoredPrediction, b: StoredPrediction, c: StoredPrediction)
    ensures IsEquivalentTo(a, a)
    ensures IsEquivalentTo(a, b) ==> IsEquivalentTo(b, a)
    ensures IsEquivalentTo(a, b) && IsEquivalentTo(b, c) ==> IsEquivalentTo(a, c)
  {
  }
}

=== FILE: predictor.dfy ===
/**
 * Predictors: a wrapped estimator with its configuration and the date it was last trained on.
 * The class-level cache keeps one list of predictors per similar-races hash and refreshes it on
 * a miss: load it from the store, generate a fresh grid when the store has none, and train
 * incrementally on the races since the oldest training date.
 */
module Predictors {
  import opened Wrappers
  import opened Seqs
  import opened RacingData

  /** The estimator parameters of one grid entry. */
  datatype EstimatorParams =
    | ClassifierParams(classWeight: Option<string>, loss: string, penalty: string)
    | RegressorParams(loss: string, penalty: string)

  /** A stored predictor; `id` is None once the predictor has been deleted from the store. */
  datatype Predictor = Predictor(
    id: Option<int>,
    isClassifier: bool,
    usesSampleWeights: bool,
    lastTrainingDate: Option<int>,
    params: EstimatorParams)

  // ---------------------------------------------------------------------------
  // The parameter grids

  const CLASS_WEIGHTS: seq<Option<string>> := [Some("balanced"), None]
  const CLASSIFIER_LOSSES: seq<string> := ["hinge", "log", "modified_huber", "perceptron", "squared_hinge"]
  const REGRESSOR_LOSSES: seq<string> := ["epsilon_insensitive", "huber", "squared_epsilon_insensitive", "squared_loss"]
  const PENALTIES: seq<string> := ["elasticnet", "l1", "l2", "none"]

  /**
   * `CLASSIFICATION_PARAM_GRID`: the product of the value lists with the keys in alphabetical
   * order, the last key varying fastest.
   */
  function ClassificationGrid(): (grid: seq<EstimatorParams>)
    ensures |grid| == 40
  {
    seq(40, i requires 0 <= i < 40 => ClassifierParams(CLASS_WEIGHTS[i / 20], CLASSIFIER_LOSSES[i / 4 % 5], PENALTIES[i % 4]))
  }

  /** `REGRESSION_PARAM_GRID`, in the same order. */
  function RegressionGrid(): (grid: seq<EstimatorParams>)
    ensures |grid| == 16
  {
    seq(16, i requires 0 <= i < 16 => RegressorParams(REGRESSOR_LOSSES[i / 4], PENALTIES[i % 4]))
  }

  lemma DistinctConstants()
    ensures forall i, j :: 0 <= i < j < |CLASS_WEIGHTS| ==> CLASS_WEIGHTS[i] != CLASS_WEIGHTS[j]
    ensures forall i, j :: 0 <= i < j < |CLASSIFIER_LOSSES| ==> CLASSIFIER_LOSSES[i] != CLASSIFIER_LOSSES[j]
    ensures forall i, j :: 0 <= i < j < |REGRESSOR_LOSSES| ==> REGRESSOR_LOSSES[i] != REGRESSOR_LOSSES[j]
    ensures forall i, j :: 0 <= i < j < |PENALTIES| ==> PENALTIES[i] != PENALTIES[j]
  {
    assert CLASSIFIER_LOSSES[0][0] != CLASSIFIER_LOSSES[1][0] && CLASSIFIER_LOSSES[3][0] != CLASSIFIER_LOSSES[4][0];
    assert CLASSIFIER_LOSSES[0][0] != CLASSIFIER_LOSSES[2][0] && CLASSIFIER_LOSSES[0][0] != CLASSIFIER_LOSSES[3][0];
    assert CLASSIFIER_LOSSES[0][1] != CLASSIFIER_LOSSES[4][1];
    assert REGRESSOR_LOSSES[0][0] != REGRESSOR_LOSSES[1][0] && REGRESSOR_LOSSES[0][0] != REGRESSOR_LOSSES[2][0];
    assert REGRESSOR_LOSSES[1][0] != REGRESSOR_LOSSES[3][0] && REGRESSOR_LOSSES[2][8] != REGRESSOR_LOSSES[3][8];
    assert PENALTIES[0][0] != PENALTIES[1][0] && PENALTIES[1][1] != PENALTIES[2][1];
  }

  /** Every combination of the classifier values is in the grid, exactly once. */
  lemma ClassificationGridIsProduct(a: nat, b: nat, c: nat)
    requires a < 2 && b < 5 && c < 4
    ensures var i := a * 20 + b * 4 + c;
      i < 40 && ClassificationGrid()[i] == ClassifierParams(CLASS_WEIGHTS[a], CLASSIFIER_LOSSES[b], PENALTIES[c])
    ensures forall j :: (0 <= j < 40 && ClassificationGrid()[j] == ClassifierParams(CLASS_WEIGHTS[a], CLASSIFIER_LOSSES[b], PENALTIES[c])
      ==> j == a * 20 + b * 4 + c)
  {
    var i := a * 20 + b * 4 + c;
    ClassificationDigits(a, b, c);
    DistinctConstants();
    forall j | 0 <= j < 40 && ClassificationGrid()[j] == ClassifierParams(CLASS_WEIGHTS[a], CLASSIFIER_LOSSES[b], PENALTIES[c])
      ensures j == i
    {
      ClassificationDigits(j / 20, j / 4 % 5, j % 4);
      assert j / 20 == a && j / 4 % 5 == b && j % 4 == c;
    }
  }

  /** Grid position `a * 20 + b * 4 + c` has the digits `a`, `b` and `c`, and every position is such a sum. */
  lemma ClassificationDigits(a: int, b: int, c: int)
    requires 0 <= a < 2 && 0 <= b < 5 && 0 <= c < 4
    ensures var i := a * 20 + b * 4 + c; 0 <= i < 40 && i / 20 == a && i / 4 % 5 == b && i % 4 == c
    ensures forall j :: 0 <= j < 40 ==> j == j / 20 * 20 + j / 4 % 5 * 4 + j % 4
  {
  }

  /** Every combination of the regressor values is in the grid, exactly once. */
  lemma RegressionGridIsProduct(b: nat, c: nat)
    requires b < 4 && c < 4
    ensures var i := b * 4 + c;
      i < 16 && RegressionGrid()[i] == RegressorParams(REGRESSOR_LOSSES[b], PENALTIES[c])
    ensures forall j :: (0 <= j < 16 && RegressionGrid()[j] == RegressorParams(REGRESSOR_LOSSES[b], PENALTIES[c])
      ==> j == b * 4 + c)
  {
    var i := b * 4 + c;
    assert i / 4 == b && i % 4 == c;
    DistinctConstants();
    forall j | 0 <= j < 16 && RegressionGrid()[j] == RegressorParams(REGRESSOR_LOSSES[b], PENALTIES[c])
      ensures j == i
    {
      assert j / 4 == b && j % 4 == c;
    }
  }

  // ---------------------------------------------------------------------------
  // generate_predictors

  /** One call of `generate_predictor`. */
  datatype Attempt = Attempt(usesSampleWeights: bool, params: EstimatorParams)

  /** One attempt per grid entry, all with the same sample-weight choice. */
  function AttemptsOf(usesSampleWeights: bool, grid: seq<EstimatorParams>): (r: seq<Attempt>)
    ensures |r| == |grid|
  {
    seq(|grid|, i requires 0 <= i < |grid| => Attempt(usesSampleWeights, grid[i]))
  }

  function ClassifierAttempts(usesSampleWeights: bool): (r: seq<Attempt>)
    ensures |r| == 40
  {
    AttemptsOf(usesSampleWeights, ClassificationGrid())
  }

  function RegressorAttempts(usesSampleWeights: bool): (r: seq<Attempt>)
    ensures |r| == 16
  {
    AttemptsOf(usesSampleWeights, RegressionGrid())
  }

  /** The attempts for each sample-weight choice in turn: classifiers first, then regressors. */
  function AttemptsFor(choices: seq<bool>): (r: seq<Attempt>)
    ensures |r| == 56 * |choices|
  {
    if choices == [] then []
    else AttemptsFor(Init(choices)) + ClassifierAttempts(Last(choices)) + RegressorAttempts(Last(choices))
  }

  /** The 112 attempts of `generate_predictors`, in order. */
  function Attempts(): (r: seq<Attempt>)
    ensures |r| == 112
  {
    AttemptsFor([true, false])
  }

  /** Weighted attempts come first; within each half the 40 classifiers come before the 16 regressors. */
  lemma AttemptsOrder(i: nat)
    requires i < 112
    ensures Attempts()[i].usesSampleWeights <==> i < 56
    ensures Attempts()[i].params == if i % 56 < 40 then ClassificationGrid()[i % 56] else RegressionGrid()[i % 56 - 40]
    ensures Attempts()[i].params.ClassifierParams? <==> i % 56 < 40
  {
    var k := if i < 56 then i else i - 56;
    assert i % 56 == k;
    AttemptsHalves();
    HalfAt(i < 56, k);
    var half := ClassifierAttempts(i < 56) + RegressorAttempts(i < 56);
    assert Attempts()[i] == half[k];
  }

  /** The weighted half of the attempts, then the unweighted half. */
  lemma AttemptsHalves()
    ensures Attempts() == ClassifierAttempts(true) + RegressorAttempts(true) + (ClassifierAttempts(false) + RegressorAttempts(false))
  {
    assert Init([true, false]) == [true] && Init([true]) == [];
    assert AttemptsFor([true]) == ClassifierAttempts(true) + RegressorAttempts(true);
  }

  /** Within a half, the 40 classifier settings come first, then the 16 regressor settings. */
  lemma HalfAt(usesSampleWeights: bool, k: nat)
    requires k < 56
    ensures (ClassifierAttempts(usesSampleWeights) + RegressorAttempts(usesSampleWeights))[k]
         == Attempt(usesSampleWeights, if k < 40 then ClassificationGrid()[k] else RegressionGrid()[k - 40])
  {
  }

  /** The predictor made by a successful attempt, saved under `id`. */
  function NewPredictor(attempt: Attempt, id: int): (p: Predictor)
    ensures p.id == Some(id) && p.lastTrainingDate.None?
    ensures p.isClassifier <==> attempt.params.ClassifierParams?
  {
    Predictor(Some(id), attempt.params.ClassifierParams?, attempt.usesSampleWeights, None, attempt.params)
  }

  /**
   * The predictors of the attempts that succeed, in order; `save` gives the id the store assigns,
   * or None when making or saving the predictor raises.
   */
  function Generate(attempts: seq<Attempt>, save: Attempt -> Option<int>): (r: seq<Predictor>)
    ensures |r| <= |attempts|
  {
    if attempts == [] then []
    else
      var a := Last(attempts);
      Generate(Init(attempts), save) + (if save(a).Some? then [NewPredictor(a, save(a).value)] else [])
  }

  lemma {:induction false} GenerateConcat(a: seq<Attempt>, b: seq<Attempt>, save: Attempt -> Option<int>)
    ensures Generate(a + b, save) == Generate(a, save) + Generate(b, save)
    decreases |b|
  {
    if b == [] {
      assert a + b == a;
    } else {
      assert Init(a + b) == a + Init(b) && Last(a + b) == Last(b);
      GenerateConcat(a, Init(b), save);
    }
  }

  /** Every generated predictor is stored, untrained, and made by one of the attempts. */
  lemma {:induction false} GeneratedPredictors(attempts: seq<Attempt>, save: Attempt -> Option<int>, p: Predictor)
    requires p in Generate(attempts, save)
    ensures p.id.Some? && p.lastTrainingDate.None? && p.isClassifier == p.params.ClassifierParams?
    ensures exists i :: (0 <= i < |attempts| && save(attempts[i]) == p.id
      && attempts[i] == Attempt(p.usesSampleWeights, p.params))
  {
    if p in Generate(Init(attempts), save) {
      GeneratedPredictors(Init(attempts), save, p);
      var i :| 0 <= i < |Init(attempts)| && save(Init(attempts)[i]) == p.id
        && Init(attempts)[i] == Attempt(p.usesSampleWeights, p.params);
      assert attempts[i] == Init(attempts)[i];
    } else {
      assert attempts[|attempts| - 1] == Last(attempts);
    }
  }

  /** When no attempt fails there is one predictor per attempt, in attempt order. */
  lemma {:induction false} GenerateWithoutFailures(attempts: seq<Attempt>, save: Attempt -> Option<int>)
    requires forall i :: 0 <= i < |attempts| ==> save(attempts[i]).Some?
    ensures |Generate(attempts, save)| == |attempts|
    ensures forall i :: 0 <= i < |attempts| ==> Generate(attempts, save)[i] == NewPredictor(attempts[i], save(attempts[i]).value)
  {
    if attempts != [] {
      GenerateWithoutFailures(Init(attempts), save);
    }
  }

  /** `generate_predictors` (lines 97-113). */
  method GeneratePredictors(save: Attempt -> Option<int>) returns (predictors: seq<Predictor>)
    ensures predictors == Generate(Attempts(), save)
  {
    var choices := [true, false];
    predictors := [];
    for k := 0 to |choices|
      invariant predictors == Generate(AttemptsFor(choices[..k]), save)
    {
      var usesSampleWeights := choices[k];
      ghost var before := AttemptsFor(choices[..k]);
      predictors := GenerateGrid(predictors, before, usesSampleWeights, ClassificationGrid(), save);
      predictors := GenerateGrid(predictors, before + ClassifierAttempts(usesSampleWeights), usesSampleWeights, RegressionGrid(), save);
      AttemptsForSnoc(choices, k);
    }
    assert choices[..|choices|] == choices;
  }

  lemma AttemptsForSnoc(choices: seq<bool>, k: nat)
    requires k < |choices|
    ensures AttemptsFor(choices[..k + 1]) == AttemptsFor(choices[..k]) + ClassifierAttempts(choices[k]) + RegressorAttempts(choices[k])
  {
    assert Init(choices[..k + 1]) == choices[..k] && Last(choices[..k + 1]) == choices[k];
  }

  /** One of the inner loops of lines 101-111: an attempt per grid entry, in grid order. */
  method GenerateGrid(predictors: seq<Predictor>, ghost before: seq<Attempt>, usesSampleWeights: bool,
                      grid: seq<EstimatorParams>, save: Attempt -> Option<int>)
    returns (r: seq<Predictor>)
    requires predictors == Generate(before, save)
    ensures r == Generate(before + AttemptsOf(usesSampleWeights, grid), save)
  {
    r := predictors;
    assert before + AttemptsOf(usesSampleWeights, grid)[..0] == before;
    for i := 0 to |grid|
      invariant r == Generate(before + AttemptsOf(usesSampleWeights, grid)[..i], save)
    {
      r := TryGenerate(r, before + AttemptsOf(usesSampleWeights, grid)[..i], Attempt(usesSampleWeights, grid[i]), save);
      assert before + AttemptsOf(usesSampleWeights, grid)[..i + 1]
        == before + AttemptsOf(usesSampleWeights, grid)[..i] + [Attempt(usesSampleWeights, grid[i])];
    }
    assert AttemptsOf(usesSampleWeights, grid)[..|grid|] == AttemptsOf(usesSampleWeights, grid);
  }

  /** One `try: predictors.append(generate_predictor(...)) except: pass`. */
  method TryGenerate(predictors: seq<Predictor>, ghost done: seq<Attempt>, attempt: Attempt, save: Attempt -> Option<int>)
    returns (r: seq<Predictor>)
    requires predictors == Generate(done, save)
    ensures r == Generate(done + [attempt], save)
  {
    assert Init(done + [attempt]) == done && Last(done + [attempt]) == attempt;
    var id := save(attempt);
    r := predictors;
    if id.Some? {
      r := r + [NewPredictor(attempt, id.value)];
    }
  }

  // ---------------------------------------------------------------------------
  // The oldest training date

  /** The earliest known training date among the predictors, None when no date is known. */
  function OldestTrainingDate(predictors: seq<Predictor>): (r: Option<int>)
    ensures r.None? <==> forall i :: 0 <= i < |predictors| ==> predictors[i].lastTrainingDate.None?
    ensures r.Some? ==> exists i :: 0 <= i < |predictors| && predictors[i].lastTrainingDate == r
    ensures r.Some? ==> forall i :: (0 <= i < |predictors| && predictors[i].lastTrainingDate.Some?
      ==> r.value <= predictors[i].lastTrainingDate.value)
  {
    if predictors == [] then None
    else
      var before := OldestTrainingDate(Init(predictors));
      var date := Last(predictors).lastTrainingDate;
      assert forall i :: 0 <= i < |predictors| - 1 ==> predictors[i] == Init(predictors)[i];
      if date.Some? && (before.None? || date.value < before.value) then date else before
  }

  /** Lines 49-52. */
  method FindOldestTrainingDate(predictors: seq<Predictor>) returns (lastTrainingDate: Option<int>)
    ensures lastTrainingDate == OldestTrainingDate(predictors)
  {
    lastTrainingDate := None;
    for i := 0 to |predictors|
      invariant lastTrainingDate == OldestTrainingDate(predictors[..i])
    {
      var predictor := predictors[i];
      assert Init(predictors[..i + 1]) == predictors[..i] && Last(predictors[..i + 1]) == predictor;
      if predictor.lastTrainingDate.Some? && (lastTrainingDate.None? || predictor.lastTrainingDate.value < lastTrainingDate.value) {
        lastTrainingDate := predictor.lastTrainingDate;
      }
    }
    assert predictors[..|predictors|] == predictors;
  }

  /** Retraining is due when no predictor has a training date, or the oldest training date is before the meet. */
  predicate NeedsTraining(lastTrainingDate: Option<int>, meetDate: int) {
    lastTrainingDate.None? || lastTrainingDate.value < meetDate
  }

  /** The `start_time` query of lines 61-63: before the meet, and not before the last training date. */
  predicate InWindow(startTime: int, lastTrainingDate: Option<int>, meetDate: int)
    ensures InWindow(startTime, lastTrainingDate, meetDate) ==> NeedsTraining(lastTrainingDate, meetDate)
  {
    startTime < meetDate && (lastTrainingDate.Some? ==> lastTrainingDate.value <= startTime)
  }

  // ---------------------------------------------------------------------------
  // Training data

  /**
   * The stored sample of a runner, as training reads it. Whether it has normalised query data is
   * an input; the `Sample` class of sample.py never has it (see `RefreshWithoutData`).
   */
  datatype TrainingSample = TrainingSample(
    normalizedQueryData: Option<seq<real>>,
    classificationResult: int,
    regressionResult: Option<real>,
    weight: real)

  datatype Entrant = Entrant(runner: Runner, sample: TrainingSample)

  /** A similar race from the store. */
  datatype SimilarRace = SimilarRace(startTime: int, entrants: seq<Entrant>)

  /** An active runner with a result contributes a training row. */
  predicate Trains(entrant: Entrant) {
    !entrant.runner.isScratched && entrant.runner.result.Some?
  }

  /** The entrants that contribute training rows, race by race and in race order. */
  function TrainingEntrants(races: seq<SimilarRace>): seq<Entrant> {
    if races == [] then [] else TrainingEntrants(Init(races)) + Filter(Last(races).entrants, Trains)
  }

  lemma {:induction false} TrainingEntrantsMembership(races: seq<SimilarRace>, e: Entrant)
    ensures e in TrainingEntrants(races) <==> Trains(e) && exists k :: 0 <= k < |races| && e in races[k].entrants
  {
    if races != [] {
      TrainingEntrantsMembership(Init(races), e);
      FilterMembership(Last(races).entrants, Trains);
      if exists k :: 0 <= k < |races| && e in races[k].entrants {
        var k :| 0 <= k < |races| && e in races[k].entrants;
        if k < |races| - 1 {
          assert races[k] == Init(races)[k];
        }
      }
      if exists k :: 0 <= k < |Init(races)| && e in Init(races)[k].entrants {
        var k :| 0 <= k < |Init(races)| && e in Init(races)[k].entrants;
        assert races[k] == Init(races)[k];
      }
    }
  }

  /** One row of the four training lists. */
  datatype Row = Row(x: seq<real>, classification: int, regression: Option<real>, weight: real)

  /**
   * The training rows of the entrants in order. Reading the normalised query data of a sample
   * that has none raises AttributeError, which ends the refresh; with the `Sample` class of
   * sample.py that is every sample.
   */
  function Rows(entrants: seq<Entrant>): Result<seq<Row>> {
    if entrants == [] then Success([])
    else
      match Rows(Init(entrants))
      case Failure(e) => Failure(e)
      case Success(rows) =>
        var sample := Last(entrants).sample;
        if sample.normalizedQueryData.None? then Failure(AttributeError("normalized_query_data"))
        else Success(rows + [Row(sample.normalizedQueryData.value, sample.classificationResult, sample.regressionResult, sample.weight)])
  }

  /** Collection fails exactly when some entrant has no data; otherwise row i is entrant i's sample. */
  lemma {:induction false} RowsCases(entrants: seq<Entrant>)
    ensures Rows(entrants).Success? <==> forall i :: 0 <= i < |entrants| ==> entrants[i].sample.normalizedQueryData.Some?
    ensures Rows(entrants).Success? ==> (
      && |Rows(entrants).value| == |entrants|
      && forall i :: 0 <= i < |entrants| ==>
        var s := entrants[i].sample;
        Rows(entrants).value[i] == Row(s.normalizedQueryData.value, s.classificationResult, s.regressionResult, s.weight))
  {
    if entrants != [] {
      RowsCases(Init(entrants));
      assert forall i :: 0 <= i < |entrants| - 1 ==> entrants[i] == Init(entrants)[i];
    }
  }

  lemma {:induction false} RowsFailureStays(a: seq<Entrant>, b: seq<Entrant>)
    requires Rows(a).Failure?
    ensures Rows(a + b) == Rows(a)
    decreases |b|
  {
    if b == [] {
      assert a + b == a;
    } else {
      assert Init(a + b) == a + Init(b);
      RowsFailureStays(a, Init(b));
    }
  }

  /** The four training lists of lines 56-59. */
  datatype TrainingData = TrainingData(x: seq<seq<real>>, classification: seq<int>, regression: seq<Option<real>>, weights: seq<real>)

  /** The four lists hold the rows column by column, so they always have the same length. */
  predicate HoldsRows(data: TrainingData, rows: seq<Row>) {
    && |data.x| == |rows| && |data.classification| == |rows| && |data.regression| == |rows| && |data.weights| == |rows|
    && forall i :: 0 <= i < |rows| ==>
         && data.x[i] == rows[i].x && data.classification[i] == rows[i].classification
         && data.regression[i] == rows[i].regression && data.weights[i] == rows[i].weight
  }

  /** Lines 64-70. */
  method CollectTrainingData(races: seq<SimilarRace>) returns (r: Result<TrainingData>)
    ensures r.Failure? <==> Rows(TrainingEntrants(races)).Failure?
    ensures r.Failure? ==> r.error == Rows(TrainingEntrants(races)).error
    ensures r.Success? ==> HoldsRows(r.value, Rows(TrainingEntrants(races)).value)
  {
    var data := TrainingData([], [], [], []);
    ghost var done: seq<Entrant> := [];
    for k := 0 to |races|
      invariant done == TrainingEntrants(races[..k])
      invariant Rows(done).Success? && HoldsRows(data, Rows(done).value)
    {
      assert Init(races[..k + 1]) == races[..k] && Last(races[..k + 1]) == races[k];
      var collected := CollectRace(data, done, races[k].entrants);
      if collected.Failure? {
        LaterRacesKeepFailure(races, k);
        return collected;
      }
      data := collected.value;
      done := done + Filter(races[k].entrants, Trains);
    }
    assert races[..|races|] == races;
    return Success(data);
  }

  /**
   * Lines 65-70 for one similar race: the rows of its training entrants follow the rows already
   * collected, and an entrant without data ends the collection.
   */
  method CollectRace(data: TrainingData, ghost done: seq<Entrant>, entrants: seq<Entrant>) returns (r: Result<TrainingData>)
    requires Rows(done).Success? && HoldsRows(data, Rows(done).value)
    ensures r.Failure? <==> Rows(done + Filter(entrants, Trains)).Failure?
    ensures r.Failure? ==> r.error == Rows(done + Filter(entrants, Trains)).error
    ensures r.Success? ==> HoldsRows(r.value, Rows(done + Filter(entrants, Trains)).value)
  {
    var next := data;
    ghost var collected := done;
    for j := 0 to |entrants|
      invariant collected == done + Filter(entrants[..j], Trains)
      invariant Rows(collected).Success? && HoldsRows(next, Rows(collected).value)
    {
      var entrant := entrants[j];
      FilterStep(entrants, j, Trains);
      if !entrant.runner.isScratched && entrant.runner.result.Some? {
        if entrant.sample.normalizedQueryData.None? {
          MissingDataEndsRace(done, entrants, j);
          return Failure(AttributeError("normalized_query_data"));
        }
        next := AppendRow(next, collected, entrant);
        collected := collected + [entrant];
      }
    }
    assert entrants[..|entrants|] == entrants;
    return Success(next);
  }

  lemma FilterStep<T>(s: seq<T>, j: nat, p: T -> bool)
    requires j < |s|
    ensures Filter(s[..j + 1], p) == Filter(s[..j], p) + (if p(s[j]) then [s[j]] else [])
  {
    assert s[..j + 1] == s[..j] + [s[j]];
    FilterSnoc(s[..j], s[j], p);
  }

  /** Lines 67-70: the sample of an entrant with data adds one row to each of the four lists. */
  method AppendRow(data: TrainingData, ghost done: seq<Entrant>, entrant: Entrant) returns (next: TrainingData)
    requires Rows(done).Success? && HoldsRows(data, Rows(done).value)
    requires entrant.sample.normalizedQueryData.Some?
    ensures Rows(done + [entrant]).Success? && HoldsRows(next, Rows(done + [entrant]).value)
  {
    assert Init(done + [entrant]) == done && Last(done + [entrant]) == entrant;
    next := TrainingData(
      data.x + [entrant.sample.normalizedQueryData.value],
      data.classification + [entrant.sample.classificationResult],
      data.regression + [entrant.sample.regressionResult],
      data.weights + [entrant.sample.weight]);
  }

  /** A training entrant without data ends the collection of its race with AttributeError. */
  lemma MissingDataEndsRace(done: seq<Entrant>, entrants: seq<Entrant>, j: nat)
    requires j < |entrants| && Trains(entrants[j]) && entrants[j].sample.normalizedQueryData.None?
    requires Rows(done + Filter(entrants[..j], Trains)).Success?
    ensures Rows(done + Filter(entrants, Trains)) == Failure(AttributeError("normalized_query_data"))
  {
    var collected := done + Filter(entrants[..j], Trains);
    FilterAround(entrants, j, Trains);
    assert done + Filter(entrants, Trains) == collected + [entrants[j]] + Filter(entrants[j + 1..], Trains);
    RowsMissingData(collected, entrants[j], Filter(entrants[j + 1..], Trains));
  }

  /** An entrant without data ends the collection with AttributeError, whatever follows it. */
  lemma RowsMissingData(done: seq<Entrant>, entrant: Entrant, rest: seq<Entrant>)
    requires Rows(done).Success? && entrant.sample.normalizedQueryData.None?
    ensures Rows(done + [entrant] + rest) == Failure(AttributeError("normalized_query_data"))
  {
    assert Init(done + [entrant]) == done && Last(done + [entrant]) == entrant;
    RowsFailureStays(done + [entrant], rest);
  }

  /** Once the races up to `k` fail, the later races change nothing. */
  lemma LaterRacesKeepFailure(races: seq<SimilarRace>, k: nat)
    requires k < |races| && Rows(TrainingEntrants(races[..k + 1])).Failure?
    ensures Rows(TrainingEntrants(races)) == Rows(TrainingEntrants(races[..k + 1]))
  {
    var done, rest := races[..k + 1], races[k + 1..];
    assert races == done + rest;
    TrainingEntrantsConcat(done, rest);
    var before, after := TrainingEntrants(done), TrainingEntrants(rest);
    assert TrainingEntrants(races) == before + after;
    RowsFailureStays(before, after);
  }

  lemma FilterAround<T>(s: seq<T>, j: nat, p: T -> bool)
    requires j < |s| && p(s[j])
    ensures Filter(s, p) == Filter(s[..j], p) + [s[j]] + Filter(s[j + 1..], p)
  {
    assert s == s[..j + 1] + s[j + 1..];
    FilterConcat(s[..j + 1], s[j + 1..], p);
    assert Init(s[..j + 1]) == s[..j] && Last(s[..j + 1]) == s[j];
  }

  lemma {:induction false} TrainingEntrantsConcat(a: seq<SimilarRace>, b: seq<SimilarRace>)
    ensures TrainingEntrants(a + b) == TrainingEntrants(a) + TrainingEntrants(b)
    decreases |b|
  {
    if b == [] {
      assert a + b == a;
    } else {
      var ab := a + b;
      assert Init(ab) == a + Init(b) && Last(ab) == Last(b);
      TrainingEntrantsConcat(a, Init(b));
      calc {
        TrainingEntrants(ab);
        TrainingEntrants(a + Init(b)) + Filter(Last(b).entrants, Trains);
        TrainingEntrants(a) + TrainingEntrants(Init(b)) + Filter(Last(b).entrants, Trains);
        TrainingEntrants(a) + TrainingEntrants(b);
      }
    }
  }

  // ---------------------------------------------------------------------------
  // The fit pass

  /**
   * One predictor after `partial_fit`: trained up to the meet date when the fit succeeds, deleted
   * from the store (no id) when it raises. `fits` stands for the estimator.
   */
  function Fitted(predictor: Predictor, fits: Predictor -> bool, meetDate: int): Predictor {
    if fits(predictor) then predictor.(lastTrainingDate := Some(meetDate)) else predictor.(id := None)
  }

  predicate IsStored(predictor: Predictor) {
    predictor.id.Some?
  }

  /** Lines 80-89: fit every predictor, then keep those still stored. */
  function Refit(predictors: seq<Predictor>, fits: Predictor -> bool, meetDate: int): (r: seq<Predictor>)
    ensures |r| <= |predictors|
    ensures forall i :: 0 <= i < |r| ==> r[i].id.Some? && r[i].lastTrainingDate == Some(meetDate)
  {
    var fitted := seq(|predictors|, i requires 0 <= i < |predictors| => Fitted(predictors[i], fits, meetDate));
    FilterMembership(fitted, IsStored);
    Filter(fitted, IsStored)
  }

  /**
   * A predictor survives the fit pass exactly when it was stored and its fit succeeded, and every
   * survivor is trained up to the meet date.
   */
  lemma RefitMembership(predictors: seq<Predictor>, fits: Predictor -> bool, meetDate: int, q: Predictor)
    ensures q in Refit(predictors, fits, meetDate)
        <==> exists i :: 0 <= i < |predictors| && predictors[i].id.Some? && fits(predictors[i])
               && q == predictors[i].(lastTrainingDate := Some(meetDate))
    ensures q in Refit(predictors, fits, meetDate) ==> q.lastTrainingDate == Some(meetDate) && q.id.Some?
  {
    var fitted := seq(|predictors|, i requires 0 <= i < |predictors| => Fitted(predictors[i], fits, meetDate));
    FilterMembership(fitted, IsStored);
    if q in Refit(predictors, fits, meetDate) {
      var k :| 0 <= k < |fitted| && fitted[k] == q;
      assert predictors[k].id.Some? && fits(predictors[k]);
    }
    if exists i :: 0 <= i < |predictors| && predictors[i].id.Some? && fits(predictors[i])
               && q == predictors[i].(lastTrainingDate := Some(meetDate)) {
      var i :| 0 <= i < |predictors| && predictors[i].id.Some? && fits(predictors[i])
               && q == predictors[i].(lastTrainingDate := Some(meetDate));
      assert fitted[i] == q;
    }
  }

  /** Lines 80-89. */
  method FitAll(predictors: seq<Predictor>, fits: Predictor -> bool, meetDate: int) returns (r: seq<Predictor>)
    ensures r == Refit(predictors, fits, meetDate)
  {
    var fitted: seq<Predictor> := [];
    for i := 0 to |predictors|
      invariant |fitted| == i && forall j :: 0 <= j < i ==> fitted[j] == Fitted(predictors[j], fits, meetDate)
    {
      var predictor := predictors[i];
      if fits(predictor) {
        predictor := predictor.(lastTrainingDate := Some(meetDate));
      } else {
        predictor := predictor.(id := None);
      }
      fitted := fitted + [predictor];
    }
    assert fitted == seq(|predictors|, i requires 0 <= i < |predictors| => Fitted(predictors[i], fits, meetDate));
    r := [];
    for i := 0 to |fitted|
      invariant r == Filter(fitted[..i], IsStored)
    {
      assert Init(fitted[..i + 1]) == fitted[..i] && Last(fitted[..i + 1]) == fitted[i];
      if fitted[i].id.Some? {
        r := r + [fitted[i]];
      }
    }
    assert fitted[..|fitted|] == fitted;
  }

  // ---------------------------------------------------------------------------
  // The refresh on a cache miss

  /** What a miss starts from: the stored predictors, or a generated grid when the store has none. */
  function Initial(loaded: seq<Predictor>, save: Attempt -> Option<int>): (r: seq<Predictor>)
    ensures |loaded| >= 1 ==> r == loaded
    ensures |loaded| < 1 ==> forall p :: p in r ==> p.id.Some? && p.lastTrainingDate.None?
  {
    if |loaded| < 1 then
      var generated := Generate(Attempts(), save);
      assert forall p :: p in generated ==> p.id.Some? && p.lastTrainingDate.None? by {
        forall p | p in generated ensures p.id.Some? && p.lastTrainingDate.None? {
          GeneratedPredictors(Attempts(), save, p);
        }
      }
      generated
    else loaded
  }

  /**
   * Lines 49-89 on the predictors `initial`: when the oldest training date is stale, train on the
   * races in the window; with no training rows nothing changes.
   */
  function Refresh(initial: seq<Predictor>, races: seq<SimilarRace>, fits: Predictor -> bool, meetDate: int)
    : (r: Result<seq<Predictor>>)
    ensures r.Success? ==> r.value == initial || r.value == Refit(initial, fits, meetDate)
    ensures !NeedsTraining(OldestTrainingDate(initial), meetDate) ==> r == Success(initial)
  {
    var last := OldestTrainingDate(initial);
    if !NeedsTraining(last, meetDate) then Success(initial)
    else
      var window := Filter(races, (race: SimilarRace) => InWindow(race.startTime, last, meetDate));
      match Rows(TrainingEntrants(window))
      case Failure(e) => Failure(e)
      case Success(rows) => if |rows| == 0 then Success(initial) else Success(Refit(initial, fits, meetDate))
  }

  /**
   * A refresh leaves the predictors as they are, or keeps exactly the stored predictors whose fit
   * succeeded, all trained up to the meet date; it trains only when the oldest date is stale.
   */
  lemma RefreshOutcome(initial: seq<Predictor>, races: seq<SimilarRace>, fits: Predictor -> bool, meetDate: int)
    requires Refresh(initial, races, fits, meetDate).Success?
    ensures var r := Refresh(initial, races, fits, meetDate).value;
      r == initial || (NeedsTraining(OldestTrainingDate(initial), meetDate) && r == Refit(initial, fits, meetDate))
    ensures !NeedsTraining(OldestTrainingDate(initial), meetDate) ==> Refresh(initial, races, fits, meetDate) == Success(initial)
  {
  }

  /** A due refresh that collects training rows runs the fit pass: the refit list replaces the loaded one. */
  lemma RefreshTrains(initial: seq<Predictor>, races: seq<SimilarRace>, fits: Predictor -> bool, meetDate: int)
    requires NeedsTraining(OldestTrainingDate(initial), meetDate)
    requires var window := Filter(races, (race: SimilarRace) => InWindow(race.startTime, OldestTrainingDate(initial), meetDate));
      Rows(TrainingEntrants(window)).Success? && TrainingEntrants(window) != []
    ensures Refresh(initial, races, fits, meetDate) == Success(Refit(initial, fits, meetDate))
  {
    var window := Filter(races, (race: SimilarRace) => InWindow(race.startTime, OldestTrainingDate(initial), meetDate));
    RowsCases(TrainingEntrants(window));
  }

  /** Up-to-date predictors are returned without reading any race. */
  lemma RefreshWhenTrained(initial: seq<Predictor>, races: seq<SimilarRace>, fits: Predictor -> bool, meetDate: int)
    requires forall i :: 0 <= i < |initial| ==> initial[i].lastTrainingDate.Some? && initial[i].lastTrainingDate.value >= meetDate
    requires initial != []
    ensures Refresh(initial, races, fits, meetDate) == Success(initial)
  {
    assert initial[0].lastTrainingDate.Some?;
  }

  /** With no finisher in any similar race, the predictors are unchanged. */
  lemma RefreshWithoutRows(initial: seq<Predictor>, races: seq<SimilarRace>, fits: Predictor -> bool, meetDate: int)
    requires forall k :: 0 <= k < |races| ==> forall j :: 0 <= j < |races[k].entrants| ==> !Trains(races[k].entrants[j])
    ensures Refresh(initial, races, fits, meetDate) == Success(initial)
  {
    var last := OldestTrainingDate(initial);
    var window := Filter(races, (race: SimilarRace) => InWindow(race.startTime, last, meetDate));
    FilterMembership(races, (race: SimilarRace) => InWindow(race.startTime, last, meetDate));
    forall k | 0 <= k < |window|
      ensures forall j :: 0 <= j < |window[k].entrants| ==> !Trains(window[k].entrants[j])
    {
      var m :| 0 <= m < |races| && races[m] == window[k];
    }
    NoTrainingEntrants(window);
  }

  /**
   * As written, no sample has normalised query data: the `Sample` class of sample.py defines
   * `fixed_query_data` only. Then, when training is due and some active finisher ran in a race of
   * the window, the refresh raises AttributeError and the refit never runs.
   */
  lemma RefreshWithoutData(initial: seq<Predictor>, races: seq<SimilarRace>, fits: Predictor -> bool, meetDate: int,
                           k: nat, j: nat)
    requires forall m :: 0 <= m < |races| ==> forall e :: e in races[m].entrants ==> e.sample.normalizedQueryData.None?
    requires NeedsTraining(OldestTrainingDate(initial), meetDate)
    requires k < |races| && InWindow(races[k].startTime, OldestTrainingDate(initial), meetDate)
    requires j < |races[k].entrants| && Trains(races[k].entrants[j])
    ensures Refresh(initial, races, fits, meetDate) == Failure(AttributeError("normalized_query_data"))
  {
    var last := OldestTrainingDate(initial);
    var window := Filter(races, (race: SimilarRace) => InWindow(race.startTime, last, meetDate));
    FilterMembership(races, (race: SimilarRace) => InWindow(race.startTime, last, meetDate));
    var e := races[k].entrants[j];
    var m :| 0 <= m < |window| && window[m] == races[k];
    TrainingEntrantsMembership(window, e);
    var entrants := TrainingEntrants(window);
    var i :| 0 <= i < |entrants| && entrants[i] == e;
    RowsCases(entrants);
    RowsFailureCause(entrants);
  }

  /** The only failure of the collection is the missing attribute. */
  lemma {:induction false} RowsFailureCause(entrants: seq<Entrant>)
    ensures Rows(entrants).Failure? ==> Rows(entrants) == Failure(AttributeError("normalized_query_data"))
  {
    if entrants != [] {
      RowsFailureCause(Init(entrants));
    }
  }

  lemma {:induction false} NoTrainingEntrants(races: seq<SimilarRace>)
    requires forall k :: 0 <= k < |races| ==> forall j :: 0 <= j < |races[k].entrants| ==> !Trains(races[k].entrants[j])
    ensures TrainingEntrants(races) == []
  {
    if races != [] {
      NoTrainingEntrants(Init(races));
      FilterDropsAll(Last(races).entrants, Trains);
    }
  }

  // ---------------------------------------------------------------------------
  // The class-level cache

  /** `predictor_cache` and `predictor_locks`; a lock is named by the number of locks made before it. */
  class PredictorCache {
    var cache: map<int, seq<Predictor>>
    var locks: map<int, nat>
    var nextLock: nat

    /** Each hash has its own lock, and every lock was made by this cache. */
    ghost predicate Valid()
      reads this
    {
      && (forall h :: h in locks ==> locks[h] < nextLock)
      && (forall h1, h2 :: h1 in locks && h2 in locks && h1 != h2 ==> locks[h1] != locks[h2])
    }

    constructor()
      ensures cache == map[] && locks == map[] && Valid()
    {
      cache := map[];
      locks := map[];
      nextLock := 0;
    }

    /** `get_predictor_lock` (lines 30-35): the hash's lock, made on first use. */
    method GetPredictorLock(hash: int) returns (lock: nat)
      requires Valid()
      modifies this
      ensures Valid() && cache == old(cache)
      ensures hash in old(locks) ==> lock == old(locks)[hash] && locks == old(locks)
      ensures hash !in old(locks) ==> locks == old(locks)[hash := lock]
      ensures hash !in old(locks) ==> forall h :: h in old(locks) ==> old(locks)[h] != lock
    {
      if hash !in locks {
        locks := locks[hash := nextLock];
        nextLock := nextLock + 1;
      }
      lock := locks[hash];
    }

    /**
     * `get_predictors` (lines 38-91). `loaded` is what the store holds for the race's entry
     * conditions, group and track condition, `races` its similar races, `save` and `fits` the
     * outcomes of saving a new predictor and of fitting one. On a hit nothing is loaded,
     * generated or trained.
     */
    method GetPredictors(hash: int, loaded: seq<Predictor>, save: Attempt -> Option<int>, races: seq<SimilarRace>,
                         fits: Predictor -> bool, meetDate: int)
      returns (r: Result<seq<Predictor>>)
      requires Valid()
      modifies this
      ensures Valid() && hash in locks
      ensures hash in old(locks) ==> locks == old(locks)
      ensures hash !in old(locks) ==> locks == old(locks)[hash := locks[hash]]
      ensures hash !in old(locks) ==> forall h :: h in old(locks) ==> old(locks)[h] != locks[hash]
      ensures hash in old(cache) ==> r == Success(old(cache)[hash]) && cache == old(cache)
      ensures hash !in old(cache) ==> r == Refresh(Initial(loaded, save), races, fits, meetDate)
      ensures hash !in old(cache) && r.Success? ==> cache == old(cache)[hash := r.value]
      ensures hash !in old(cache) && r.Failure? ==> cache == old(cache)[hash := Initial(loaded, save)]
    {
      var lock := GetPredictorLock(hash);
      if hash !in cache {
        r := Load(hash, loaded, save, races, fits, meetDate);
      } else {
        r := Success(cache[hash]);
      }
    }

    /** The miss branch of `get_predictors` (lines 45-89). */
    method Load(hash: int, loaded: seq<Predictor>, save: Attempt -> Option<int>, races: seq<SimilarRace>,
                fits: Predictor -> bool, meetDate: int)
      returns (r: Result<seq<Predictor>>)
      requires hash !in cache
      modifies this
      ensures locks == old(locks) && nextLock == old(nextLock)
      ensures r == Refresh(Initial(loaded, save), races, fits, meetDate)
      ensures r.Success? ==> cache == old(cache)[hash := r.value]
      ensures r.Failure? ==> cache == old(cache)[hash := Initial(loaded, save)]
    {
      var initial := InitialPredictors(loaded, save);
      cache := cache[hash := initial];
      r := RefreshPredictors(initial, races, fits, meetDate);
      if r.Success? {
        cache := cache[hash := r.value];
      }
    }
  }

  /** Lines 45-47: the stored predictors, or a generated grid when the store has none. */
  method InitialPredictors(loaded: seq<Predictor>, save: Attempt -> Option<int>) returns (initial: seq<Predictor>)
    ensures initial == Initial(loaded, save)
    ensures |loaded| >= 1 ==> initial == loaded
    ensures |loaded| < 1 ==> initial == Generate(Attempts(), save)
  {
    initial := loaded;
    if |loaded| < 1 {
      initial := GeneratePredictors(save);
    }
  }

  /** Lines 49-89 on the list the cache holds. */
  method RefreshPredictors(predictors: seq<Predictor>, races: seq<SimilarRace>, fits: Predictor -> bool, meetDate: int)
    returns (r: Result<seq<Predictor>>)
    ensures r == Refresh(predictors, races, fits, meetDate)
  {
    var lastTrainingDate := FindOldestTrainingDate(predictors);
    if lastTrainingDate.None? || lastTrainingDate.value < meetDate {
      var similarRaces := Filter(races, (race: SimilarRace) => InWindow(race.startTime, lastTrainingDate, meetDate));
      var data := CollectTrainingData(similarRaces);
      if data.Failure? {
        return Failure(data.error);
      }
      RowsCases(TrainingEntrants(similarRaces));
      if |data.value.x| > 0 {
        var refitted := FitAll(predictors, fits, meetDate);
        return Success(refitted);
      }
    }
    return Success(predictors);
  }
}

=== FILE: race.dfy ===
/**
 * The race helpers: the active (non-scratched) runners, and the winning combinations for a
 * number of places, built by bucketing the active runners by finishing place and taking one
 * runner per place.
 */
module Races {
  import opened Wrappers
  import opened Seqs
  import opened RacingData
  import CU = CombinationUtils

  predicate IsActive(runner: Runner) {
    !runner.isScratched
  }

  /** `active_runners`: the runners that are not scratched, in race order. */
  function ActiveRunners(runners: seq<Runner>): (r: seq<Runner>)
    ensures forall i :: 0 <= i < |r| ==> r[i] in runners && !r[i].isScratched
    ensures forall i :: 0 <= i < |runners| && !runners[i].isScratched ==> runners[i] in r
    ensures SubseqOf(r, runners)
    ensures forall x :: multiset(r)[x] == if !x.isScratched then multiset(runners)[x] else 0
  {
    FilterMultiset(runners, IsActive);
    FilterMembership(runners, IsActive);
    FilterIsSubseq(runners, IsActive);
    Filter(runners, IsActive)
  }

  /** Every known result is a place counted from 1 (a result below 1 would index the buckets from the end). */
  predicate ResultsArePlaces(active: seq<Runner>) {
    forall i :: 0 <= i < |active| && active[i].result.Some? ==> active[i].result.value >= 1
  }

  function FinishedAt(place: int): Runner -> bool {
    (runner: Runner) => runner.result == Some(place)
  }

  /** The active runners whose result is `place`, in race order. */
  function Finishers(active: seq<Runner>, place: int): seq<Runner> {
    Filter(active, FinishedAt(place))
  }

  /** The buckets of lines 35-41: bucket `i` holds the finishers in place `i + 1`. */
  function Buckets(active: seq<Runner>, places: nat): seq<seq<Runner>> {
    seq(places, i requires 0 <= i < places => Finishers(active, i + 1))
  }

  /** The inner `get_combinations` as written: None for no buckets, otherwise the product, without any deduplication. */
  function ResultCombinations(results: seq<seq<Runner>>): (r: Option<seq<seq<Runner>>>)
    ensures r.None? <==> results == []
  {
    if results == [] then None
    else
      var next := ResultCombinations(results[1..]);
      Some(if next.None? then CU.Singletons(results[0]) else CU.ProductFrom(results[0], next.value))
  }

  /**
   * `get_winning_combinations` as written. With no places the inner recursion returns None and
   * `len(None)` raises; any combination repeating a runner would reach `list.removeAt`, which
   * does not exist.
   */
  function WinningCombinations(runners: seq<Runner>, places: nat): (r: Result<seq<seq<Runner>>>)
    requires ResultsArePlaces(ActiveRunners(runners))
    ensures places == 0 ==> r.Failure?
  {
    var combinations := ResultCombinations(Buckets(ActiveRunners(runners), places));
    if combinations.None? then Failure(TypeError("object of type 'NoneType' has no len()"))
    else if CU.RepeatIndices(combinations.value) != [] then Failure(AttributeError("removeAt"))
    else Success(combinations.value)
  }

  // ---------------------------------------------------------------------------
  // The imperative version

  /** The bucket loops of lines 35-41. */
  method BucketResults(active: seq<Runner>, places: nat) returns (results: seq<seq<Runner>>)
    requires ResultsArePlaces(active)
    ensures results == Buckets(active, places)
  {
    results := [];
    for count := 0 to places
      invariant |results| == count && forall i :: 0 <= i < count ==> results[i] == []
    {
      results := results + [[]];
    }
    for k := 0 to |active|
      invariant |results| == places
      invariant forall i :: 0 <= i < places ==> results[i] == Finishers(active[..k], i + 1)
    {
      var runner := active[k];
      assert Init(active[..k + 1]) == active[..k] && Last(active[..k + 1]) == runner;
      if runner.result.Some? && runner.result.value <= |results| {
        var index := runner.result.value - 1;
        results := results[index := results[index] + [runner]];
      }
    }
    assert active[..|active|] == active;
  }

  /** The inner `get_combinations` of lines 19-33. */
  method GetResultCombinations(results: seq<seq<Runner>>) returns (r: Option<seq<seq<Runner>>>)
    ensures r == ResultCombinations(results)
    decreases |results|
  {
    if |results| > 0 {
      var next := GetResultCombinations(results[1..]);
      var combinations := CU.AppendProducts(results[0], next);
      return Some(combinations);
    }
    return None;
  }

  /** `get_winning_combinations`. */
  method GetWinningCombinations(runners: seq<Runner>, places: nat) returns (r: Result<seq<seq<Runner>>>)
    requires ResultsArePlaces(ActiveRunners(runners))
    ensures r == WinningCombinations(runners, places)
  {
    var results := BucketResults(ActiveRunners(runners), places);
    var combinations := GetResultCombinations(results);
    if combinations.None? {
      return Failure(TypeError("object of type 'NoneType' has no len()"));
    }
    var dupes := CU.FindRepeats(combinations.value);
    if |dupes| > 0 {
      return Failure(AttributeError("removeAt"));
    }
    return Success(combinations.value);
  }

  // ---------------------------------------------------------------------------
  // What get_winning_combinations returns

  lemma {:induction false} ResultCombinationsIsProduct(results: seq<seq<Runner>>)
    requires results != []
    ensures ResultCombinations(results) == Some(CU.Product(results))
  {
    if |results| == 1 {
      CU.SingletonsAsProduct(results[0]);
      assert results[1..] == [];
    } else {
      ResultCombinationsIsProduct(results[1..]);
    }
  }

  /** A runner is in the bucket for `place` exactly when it is active and finished there. */
  lemma FinishersMembership(active: seq<Runner>, place: int, x: Runner)
    ensures x in Finishers(active, place) <==> x in active && x.result == Some(place)
  {
    FilterMembership(active, FinishedAt(place));
  }

  /** A tuple is in the product of the buckets exactly when its i-th runner is active and finished in place i + 1. */
  lemma BucketProductMembership(active: seq<Runner>, places: nat, c: seq<Runner>)
    ensures c in CU.Product(Buckets(active, places))
        <==> |c| == places && forall i :: 0 <= i < places ==> c[i] in active && c[i].result == Some(i + 1)
  {
    var buckets := Buckets(active, places);
    CU.ProductMembership(buckets, c);
    if |c| == places {
      forall i | 0 <= i < places ensures c[i] in buckets[i] <==> c[i] in active && c[i].result == Some(i + 1) {
        FinishersMembership(active, i + 1, c[i]);
      }
    }
  }

  /**
   * A runner has one result, so it sits in one bucket and no combination of one runner per
   * bucket can repeat it: for any positive number of places the `removeAt` branch is never
   * reached and the winning combinations are exactly the product of the buckets.
   */
  lemma RemoveAtUnreachable(runners: seq<Runner>, places: nat)
    requires ResultsArePlaces(ActiveRunners(runners)) && places > 0
    ensures WinningCombinations(runners, places) == Success(CU.Product(Buckets(ActiveRunners(runners), places)))
  {
    var active := ActiveRunners(runners);
    var cs := CU.Product(Buckets(active, places));
    ResultCombinationsIsProduct(Buckets(active, places));
    forall k | 0 <= k < |cs| ensures CU.NoRepeats(cs[k]) {
      BucketProductMembership(active, places, cs[k]);
    }
    if CU.RepeatIndices(cs) != [] {
      CU.LastRepeat(cs);
    }
  }

  /** With no places the code raises rather than returning an empty list. */
  lemma NoPlacesRaises(runners: seq<Runner>)
    requires ResultsArePlaces(ActiveRunners(runners))
    ensures WinningCombinations(runners, 0).Failure?
  {
  }

  /**
   * Soundness and completeness: a tuple is a winning combination exactly when it has one
   * runner per place and its i-th runner is an active runner that finished in place i + 1.
   */
  lemma WinningCombinationsMembership(runners: seq<Runner>, places: nat, c: seq<Runner>)
    requires ResultsArePlaces(ActiveRunners(runners)) && places > 0
    ensures WinningCombinations(runners, places).Success?
    ensures c in WinningCombinations(runners, places).value
        <==> |c| == places && forall i :: 0 <= i < places ==> c[i] in ActiveRunners(runners) && c[i].result == Some(i + 1)
  {
    RemoveAtUnreachable(runners, places);
    BucketProductMembership(ActiveRunners(runners), places, c);
  }

  /** There are as many winning combinations as the product of the number of finishers in each place. */
  lemma WinningCombinationsCount(runners: seq<Runner>, places: nat)
    requires ResultsArePlaces(ActiveRunners(runners)) && places > 0
    ensures WinningCombinations(runners, places).Success?
    ensures |WinningCombinations(runners, places).value| == CU.SizesProduct(Buckets(ActiveRunners(runners), places))
  {
    RemoveAtUnreachable(runners, places);
    CU.ProductSize(Buckets(ActiveRunners(runners), places));
  }

  /** A place that nobody filled leaves no winning combination. */
  lemma WinningCombinationsMissingPlace(runners: seq<Runner>, places: nat, place: nat)
    requires ResultsArePlaces(ActiveRunners(runners))
    requires 1 <= place <= places && Finishers(ActiveRunners(runners), place) == []
    ensures WinningCombinations(runners, places) == Success([])
  {
    var active := ActiveRunners(runners);
    var buckets := Buckets(active, places);
    assert buckets[place - 1] == Finishers(active, place) == [];
    ProductWithEmptyPick(buckets, place - 1);
    RemoveAtUnreachable(runners, places);
  }

  /** The runner in each place, when every place from 1 to `places` has exactly one finisher. */
  function PlaceGetters(active: seq<Runner>, places: nat): (r: seq<Runner>)
    requires forall p :: 1 <= p <= places ==> |Finishers(active, p)| == 1
    ensures |r| == places
  {
    seq(places, i requires 0 <= i < places => Finishers(active, i + 1)[0])
  }

  /** Without dead heats there is one winning combination: the place getters in place order. */
  lemma WinningCombinationsWithoutDeadHeat(runners: seq<Runner>, places: nat)
    requires ResultsArePlaces(ActiveRunners(runners)) && places > 0
    requires forall p :: 1 <= p <= places ==> |Finishers(ActiveRunners(runners), p)| == 1
    ensures WinningCombinations(runners, places) == Success([PlaceGetters(ActiveRunners(runners), places)])
  {
    RemoveAtUnreachable(runners, places);
    BucketsWithoutDeadHeat(ActiveRunners(runners), places);
  }

  lemma BucketsWithoutDeadHeat(active: seq<Runner>, places: nat)
    requires forall p :: 1 <= p <= places ==> |Finishers(active, p)| == 1
    ensures CU.Product(Buckets(active, places)) == [PlaceGetters(active, places)]
  {
    var buckets := Buckets(active, places);
    forall i | 0 <= i < places ensures |buckets[i]| == 1 {
      assert buckets[i] == Finishers(active, i + 1);
    }
    ProductOfSingletons(buckets);
    assert Heads(buckets) == PlaceGetters(active, places);
  }

  /** The first element of each list. */
  function Heads(picks: seq<seq<Runner>>): (r: seq<Runner>)
    requires forall i :: 0 <= i < |picks| ==> |picks[i]| > 0
    ensures |r| == |picks| && forall i :: 0 <= i < |picks| ==> r[i] == picks[i][0]
  {
    if picks == [] then [] else [picks[0][0]] + Heads(picks[1..])
  }

  lemma {:induction false} ProductOfSingletons(picks: seq<seq<Runner>>)
    requires forall i :: 0 <= i < |picks| ==> |picks[i]| == 1
    ensures CU.Product(picks) == [Heads(picks)]
  {
    if picks != [] {
      var rest := picks[1..];
      ProductOfSingletons(rest);
      var x := picks[0][0];
      assert picks[0] == [x];
      assert Init(picks[0]) == [] && Last(picks[0]) == x;
      assert CU.ProductFrom(picks[0], [Heads(rest)]) == CU.ProductFrom([], [Heads(rest)]) + CU.Prepend(x, [Heads(rest)]);
    }
  }

  /** A place with no finisher leaves an empty product. */
  lemma {:induction false} ProductWithEmptyPick(picks: seq<seq<Runner>>, k: nat)
    requires k < |picks| && picks[k] == []
    ensures CU.Product(picks) == []
  {
    if k == 0 {
    } else {
      ProductWithEmptyPick(picks[1..], k - 1);
      CU.ProductFromSize(picks[0], CU.Product(picks[1..]));
    }
  }
}

=== FILE: racing_data.dfy ===
/** The records the racing data layer supplies, reduced to the fields the modelled code reads. */
module RacingData {
  import opened Wrappers

  /** A runner in a race: `result` is its finishing place once known. */
  datatype Runner = Runner(
    id: int,
    number: int,
    isScratched: bool,
    result: Option<int>,
    startingPrice: Option<real>)

  /** A past performance of a jockey; dates are day numbers. */
  datatype Performance = Performance(
    date: int,
    distance: Option<int>,
    track: string,
    trackCondition: Option<string>)
}

=== FILE: runner.dfy ===
/**
 * The statistics added to a runner: expected times from the momentums of a performance list,
 * races per year, and the jockey's performance history filtered by date, distance, track and
 * track condition. Each filter keeps the order of the performances it is given.
 */
module Runners {
  import opened Wrappers
  import opened Seqs
  import opened RacingData

  // ---------------------------------------------------------------------------
  // Arithmetic

  /**
   * `calculate_expected_times`: for each momentum, the time to cover the distance at that
   * momentum for the runner's weight, `distance / (momentum / weight)`; three Nones when the
   * distance is unknown. A zero momentum or weight would raise, so the source needs them
   * non-zero whenever it divides, which is only for a momentum that is not None.
   */
  function ExpectedTimes(distance: Option<real>, weight: real, momentums: seq<Option<real>>): (r: seq<Option<real>>)
    requires distance.Some? ==> forall i :: 0 <= i < |momentums| && momentums[i].Some? ==>
      weight != 0.0 && momentums[i].value != 0.0
    ensures distance.None? ==> r == [None, None, None]
    ensures distance.Some? ==> |r| == |momentums|
    ensures distance.Some? ==> forall i :: 0 <= i < |momentums| ==>
      && (r[i].Some? <==> momentums[i].Some?)
      && (r[i].Some? ==> r[i].value * momentums[i].value == distance.value * weight)
  {
    if distance.None? then
      [None, None, None]
    else
      seq(|momentums|, i requires 0 <= i < |momentums| && (momentums[i].Some? ==> weight != 0.0 && momentums[i].value != 0.0) =>
        ExpectedTime(distance.value, weight, momentums[i]))
  }

  function ExpectedTime(distance: real, weight: real, momentum: Option<real>): (r: Option<real>)
    requires momentum.Some? ==> weight != 0.0 && momentum.value != 0.0
    ensures r.Some? <==> momentum.Some?
    ensures r.Some? ==> r.value * momentum.value == distance * weight
  {
    if momentum.None? then None
    else
      var speed := momentum.value / weight;
      assert speed * weight == momentum.value;
      Some(distance / speed)
  }

  /** `races_per_year`: career starts per year of age, when the age is known and positive. */
  function RacesPerYear(age: Option<int>, starts: int): (r: Option<real>)
    ensures r.Some? <==> age.Some? && age.value > 0
    ensures r.Some? ==> r.value * age.value as real == starts as real
  {
    if age.Some? && age.value > 0 then Some(starts as real / age.value as real) else None
  }

  // ---------------------------------------------------------------------------
  // Performance filters

  function BeforeDate(date: int): Performance -> bool {
    (p: Performance) => p.date < date
  }

  /** `jockey_career`: the jockey's performances dated strictly before the meet; none without a jockey. */
  function JockeyCareer(jockey: Option<seq<Performance>>, meetDate: int): (r: seq<Performance>)
    ensures jockey.None? ==> r == []
    ensures jockey.Some? ==> forall i :: 0 <= i < |r| ==> r[i] in jockey.value && r[i].date < meetDate
    ensures jockey.Some? ==> forall i :: 0 <= i < |jockey.value| && jockey.value[i].date < meetDate ==> jockey.value[i] in r
    ensures jockey.Some? ==> SubseqOf(r, jockey.value)
    ensures jockey.Some? ==> forall p :: multiset(r)[p] == if p.date < meetDate then multiset(jockey.value)[p] else 0
  {
    if jockey.None? then []
    else
      FilterMultiset(jockey.value, BeforeDate(meetDate));
      FilterMembership(jockey.value, BeforeDate(meetDate));
      FilterIsSubseq(jockey.value, BeforeDate(meetDate));
      Filter(jockey.value, BeforeDate(meetDate))
  }

  function SinceDate(date: int): Performance -> bool {
    (p: Performance) => p.date >= date
  }

  /** `jockey_last_12_months`: the career performances no more than 365 days before the meet. */
  function JockeyLast12Months(career: seq<Performance>, meetDate: int): (r: seq<Performance>)
    ensures forall i :: 0 <= i < |r| ==> r[i] in career && r[i].date >= meetDate - 365
    ensures forall i :: 0 <= i < |career| && career[i].date >= meetDate - 365 ==> career[i] in r
    ensures SubseqOf(r, career)
    ensures forall p :: multiset(r)[p] == if p.date >= meetDate - 365 then multiset(career)[p] else 0
  {
    FilterMultiset(career, SinceDate(meetDate - 365));
    FilterMembership(career, SinceDate(meetDate - 365));
    FilterIsSubseq(career, SinceDate(meetDate - 365));
    Filter(career, SinceDate(meetDate - 365))
  }

  predicate Within100(raceDistance: Option<int>, p: Performance) {
    raceDistance.Some? && p.distance.Some? && raceDistance.value - 100 < p.distance.value < raceDistance.value + 100
  }

  function WithinDistance(raceDistance: Option<int>): Performance -> bool {
    (p: Performance) => Within100(raceDistance, p)
  }

  /**
   * `jockey_at_distance`: the career performances run over a known distance strictly less than
   * 100 metres from the race distance; none when the race distance is unknown.
   */
  function JockeyAtDistance(career: seq<Performance>, raceDistance: Option<int>): (r: seq<Performance>)
    ensures raceDistance.None? ==> r == []
    ensures forall i :: 0 <= i < |r| ==>
      (&& r[i] in career && r[i].distance.Some? && raceDistance.Some?
       && raceDistance.value - 100 < r[i].distance.value < raceDistance.value + 100)
    ensures forall i :: 0 <= i < |career| && Within100(raceDistance, career[i]) ==> career[i] in r
    ensures SubseqOf(r, career)
    ensures forall p :: multiset(r)[p] == if Within100(raceDistance, p) then multiset(career)[p] else 0
  {
    FilterMultiset(career, WithinDistance(raceDistance));
    FilterMembership(career, WithinDistance(raceDistance));
    FilterIsSubseq(career, WithinDistance(raceDistance));
    var r := Filter(career, WithinDistance(raceDistance));
    assert raceDistance.None? ==> r == [] by {
      if raceDistance.None? {
        FilterDropsAll(career, WithinDistance(raceDistance));
      }
    }
    r
  }

  /**
   * `get_track_names`: the first group of alternative names that holds the meet's track, or
   * the track alone when no group holds it.
   */
  function TrackNames(alternatives: seq<seq<string>>, track: string): (r: seq<string>)
    ensures track in r
    ensures (exists k :: 0 <= k < |alternatives| && r == alternatives[k] && forall j :: 0 <= j < k ==> track !in alternatives[j])
         || (r == [track] && forall j :: 0 <= j < |alternatives| ==> track !in alternatives[j])
    decreases |alternatives|
  {
    if alternatives == [] then [track]
    else if track in alternatives[0] then alternatives[0]
    else
      var r := TrackNames(alternatives[1..], track);
      assert forall j :: 1 <= j < |alternatives| ==> alternatives[j] == alternatives[1..][j - 1];
      r
  }

  function OnTrackNamed(names: seq<string>): Performance -> bool {
    (p: Performance) => p.track in names
  }

  /** `jockey_on_track`: the career performances at the meet's track under any of its names. */
  function JockeyOnTrack(career: seq<Performance>, alternatives: seq<seq<string>>, track: string): (r: seq<Performance>)
    ensures forall i :: 0 <= i < |r| ==> r[i] in career && r[i].track in TrackNames(alternatives, track)
    ensures forall i :: 0 <= i < |career| && career[i].track in TrackNames(alternatives, track) ==> career[i] in r
    ensures SubseqOf(r, career)
    ensures forall p :: multiset(r)[p] == if p.track in TrackNames(alternatives, track) then multiset(career)[p] else 0
  {
    var names := TrackNames(alternatives, track);
    FilterMultiset(career, OnTrackNamed(names));
    FilterMembership(career, OnTrackNamed(names));
    FilterIsSubseq(career, OnTrackNamed(names));
    Filter(career, OnTrackNamed(names))
  }

  function InList(ps: seq<Performance>): Performance -> bool {
    (p: Performance) => p in ps
  }

  /** `jockey_at_distance_on_track`: the at-distance performances that are also on-track, in at-distance order. */
  function JockeyAtDistanceOnTrack(atDistance: seq<Performance>, onTrack: seq<Performance>): (r: seq<Performance>)
    ensures forall i :: 0 <= i < |r| ==> r[i] in atDistance && r[i] in onTrack
    ensures forall i :: 0 <= i < |atDistance| && atDistance[i] in onTrack ==> atDistance[i] in r
    ensures SubseqOf(r, atDistance)
    ensures forall p :: multiset(r)[p] == if p in onTrack then multiset(atDistance)[p] else 0
  {
    FilterMultiset(atDistance, InList(onTrack));
    FilterMembership(atDistance, InList(onTrack));
    FilterIsSubseq(atDistance, InList(onTrack));
    Filter(atDistance, InList(onTrack))
  }

  /**
   * Built from the same career, the at-distance-on-track list is the career filtered once by
   * both conditions: intersecting the two lists loses and reorders nothing.
   */
  lemma AtDistanceOnTrackIsOneFilter(career: seq<Performance>, raceDistance: Option<int>, alternatives: seq<seq<string>>, track: string)
    ensures JockeyAtDistanceOnTrack(JockeyAtDistance(career, raceDistance), JockeyOnTrack(career, alternatives, track))
         == Filter(career, Both(WithinDistance(raceDistance), OnTrackNamed(TrackNames(alternatives, track))))
  {
    var names := TrackNames(alternatives, track);
    var atDistance := JockeyAtDistance(career, raceDistance);
    var onTrack := JockeyOnTrack(career, alternatives, track);
    forall i | 0 <= i < |atDistance| ensures InList(onTrack)(atDistance[i]) == OnTrackNamed(names)(atDistance[i]) {
      var p := atDistance[i];
      var k :| 0 <= k < |career| && career[k] == p;
    }
    FilterCongruent(atDistance, InList(onTrack), OnTrackNamed(names));
    FilterFilter(career, WithinDistance(raceDistance), OnTrackNamed(names));
  }

  // ---------------------------------------------------------------------------
  // Track conditions

  /** Python's `str.upper` on the ASCII letters. */
  function UpperChar(c: char): char {
    if 'a' <= c <= 'z' then (c as int - 'a' as int + 'A' as int) as char else c
  }

  function Upper(s: string): (r: string)
    ensures |r| == |s|
  {
    seq(|s|, i requires 0 <= i < |s| => UpperChar(s[i]))
  }

  /** Python's `sub in s` on strings: `sub` occurs in `s` at some position. */
  predicate Contains(s: string, sub: string) {
    exists k :: 0 <= k <= |s| && OccursAt(s, k, sub)
  }

  predicate OccursAt(s: string, k: nat, sub: string) {
    k + |sub| <= |s| && s[k..k + |sub|] == sub
  }

  predicate ConditionMatches(condition: string, p: Performance) {
    p.trackCondition.Some? && Contains(Upper(p.trackCondition.value), Upper(condition))
  }

  function OnCondition(condition: string): Performance -> bool {
    (p: Performance) => ConditionMatches(condition, p)
  }

  /**
   * `get_performance_list_jockey_on_track_condition`: the career performances whose known
   * track condition contains the given condition, ignoring case.
   */
  function JockeyOnTrackCondition(career: seq<Performance>, condition: string): (r: seq<Performance>)
    ensures forall i :: 0 <= i < |r| ==>
      (r[i] in career && r[i].trackCondition.Some? && Contains(Upper(r[i].trackCondition.value), Upper(condition)))
    ensures forall i :: 0 <= i < |career| ==>
      (career[i].trackCondition.Some? && Contains(Upper(career[i].trackCondition.value), Upper(condition)) ==> career[i] in r)
    ensures SubseqOf(r, career)
    ensures forall p :: multiset(r)[p] == if ConditionMatches(condition, p) then multiset(career)[p] else 0
  {
    FilterMultiset(career, OnCondition(condition));
    FilterMembership(career, OnCondition(condition));
    FilterIsSubseq(career, OnCondition(condition));
    Filter(career, OnCondition(condition))
  }

  /** `jockey_on_firm`: the career performances whose condition mentions FIRM, each as often as in the career. */
  function JockeyOnFirm(career: seq<Performance>): (r: seq<Performance>)
    ensures SubseqOf(r, career)
    ensures forall p :: multiset(r)[p] == if ConditionMatches("FIRM", p) then multiset(career)[p] else 0
  {
    JockeyOnTrackCondition(career, "FIRM")
  }

  /** `jockey_on_good`: the career performances whose condition mentions GOOD, each as often as in the career. */
  function JockeyOnGood(career: seq<Performance>): (r: seq<Performance>)
    ensures SubseqOf(r, career)
    ensures forall p :: multiset(r)[p] == if ConditionMatches("GOOD", p) then multiset(career)[p] else 0
  {
    JockeyOnTrackCondition(career, "GOOD")
  }

  /** `jockey_on_heavy`: the career performances whose condition mentions HEAVY, each as often as in the career. */
  function JockeyOnHeavy(career: seq<Performance>): (r: seq<Performance>)
    ensures SubseqOf(r, career)
    ensures forall p :: multiset(r)[p] == if ConditionMatches("HEAVY", p) then multiset(career)[p] else 0
  {
    JockeyOnTrackCondition(career, "HEAVY")
  }

  /** `jockey_on_soft`: the career performances whose condition mentions SOFT, each as often as in the career. */
  function JockeyOnSoft(career: seq<Performance>): (r: seq<Performance>)
    ensures SubseqOf(r, career)
    ensures forall p :: multiset(r)[p] == if ConditionMatches("SOFT", p) then multiset(career)[p] else 0
  {
    JockeyOnTrackCondition(career, "SOFT")
  }

  /** `jockey_on_synthetic`: the career performances whose condition mentions SYNTHETIC, each as often as in the career. */
  function JockeyOnSynthetic(career: seq<Performance>): (r: seq<Performance>)
    ensures SubseqOf(r, career)
    ensures forall p :: multiset(r)[p] == if ConditionMatches("SYNTHETIC", p) then multiset(career)[p] else 0
  {
    JockeyOnTrackCondition(career, "SYNTHETIC")
  }

  predicate IsTurf(p: Performance) {
    p.trackCondition.Some? && !Contains(Upper(p.trackCondition.value), "SYNTHETIC")
  }

  /** `jockey_on_turf`: the career performances whose known track condition does not mention SYNTHETIC. */
  function JockeyOnTurf(career: seq<Performance>): (r: seq<Performance>)
    ensures forall i :: 0 <= i < |r| ==>
      (r[i] in career && r[i].trackCondition.Some? && !Contains(Upper(r[i].trackCondition.value), "SYNTHETIC"))
    ensures forall i :: 0 <= i < |career| && IsTurf(career[i]) ==> career[i] in r
    ensures SubseqOf(r, career)
    ensures forall p :: multiset(r)[p] == if IsTurf(p) then multiset(career)[p] else 0
  {
    FilterMultiset(career, IsTurf);
    FilterMembership(career, IsTurf);
    FilterIsSubseq(career, IsTurf);
    Filter(career, IsTurf)
  }

  lemma UpperOfUpperCase(s: string)
    requires forall i :: 0 <= i < |s| ==> 'A' <= s[i] <= 'Z'
    ensures Upper(s) == s
  {
  }

  /**
   * Turf and synthetic split the performances with a known track condition: each such
   * performance is in exactly one of the two lists, and a performance without a condition is
   * in neither.
   */
  lemma TurfAndSyntheticPartition(career: seq<Performance>, i: nat)
    requires i < |career|
    ensures career[i].trackCondition.Some? ==> (career[i] in JockeyOnTurf(career) <==> career[i] !in JockeyOnSynthetic(career))
    ensures career[i].trackCondition.None? ==> career[i] !in JockeyOnTurf(career) && career[i] !in JockeyOnSynthetic(career)
  {
    UpperOfUpperCase("SYNTHETIC");
    var turf := JockeyOnTurf(career);
    var synthetic := JockeyOnSynthetic(career);
    if career[i] in turf {
      var k :| 0 <= k < |turf| && turf[k] == career[i];
    }
    if career[i] in synthetic {
      var k :| 0 <= k < |synthetic| && synthetic[k] == career[i];
    }
  }

  /** Matching ignores case: a condition reported in lower case is found by the upper-case name. */
  lemma ConditionIgnoresCase()
    ensures ConditionMatches("GOOD", Performance(0, None, "", Some("good 3")))
  {
    assert Upper("good 3") == "GOOD 3";
    assert Upper("GOOD") == "GOOD";
    assert OccursAt(Upper("good 3"), 0, "GOOD");
  }
}

=== FILE: sample.dfy ===
/**
 * A sample: one row of query data for a predictor. It holds the runner's raw features in a
 * fixed column order, the regression and classification labels, the race's total value as the
 * sample weight, and the version that produced it. The imputed and normalised row is computed
 * once and then kept.
 */
module Samples {
  import opened Wrappers
  import opened Seqs
  import opened RacingData
  import Runners
  import Versions

  /** A raw feature: a number, or None where the racing data has no value. */
  type Feature = Option<real>

  /** The runner's own features: three read from its record, five computed properties. */
  datatype FieldKey = Barrier | Number | Weight | Age | Carrying | RacesPerYear | Spell | Up

  const RECORD_KEYS: seq<FieldKey> := [Barrier, Number, Weight]
  const ATTRIBUTE_KEYS: seq<FieldKey> := [Age, Carrying, RacesPerYear, Spell, Up]

  /** The fifteen performance lists of a runner, in the order their columns appear. */
  datatype ListKey =
    | AtDistance | AtDistanceOnTrack | AtUp | Career | Last10 | Last12Months | OnFirm | OnGood
    | OnHeavy | OnSoft | OnSynthetic | OnTrack | OnTurf | SinceRest | WithJockey

  const LIST_KEYS: seq<ListKey> :=
    [AtDistance, AtDistanceOnTrack, AtUp, Career, Last10, Last12Months, OnFirm, OnGood,
     OnHeavy, OnSoft, OnSynthetic, OnTrack, OnTurf, SinceRest, WithJockey]

  /** The nine statistics of a performance list, in the order their columns appear. */
  datatype StatKey =
    | Earnings | EarningsPotential | FourthPct | ResultPotential | Roi | SecondPct | Starts | ThirdPct | WinPct

  const STAT_KEYS: seq<StatKey> :=
    [Earnings, EarningsPotential, FourthPct, ResultPotential, Roi, SecondPct, Starts, ThirdPct, WinPct]

  /** What a performance list supplies: momentums, the nine statistics and the starting prices. */
  datatype PerformanceStats = PerformanceStats(
    momentums: seq<Option<real>>,
    stat: StatKey -> Feature,
    startingPrices: seq<Feature>)

  /**
   * What a runner supplies to its sample. `field` is an input: the three record fields and the
   * five computed properties (age, carrying, races per year, spell, up) as the runner reports
   * them; races per year is `Runners.RacesPerYear` in the runner, but that link is not checked here.
   */
  datatype RunnerView = RunnerView(
    field: FieldKey -> Feature,
    actualDistance: Option<real>,
    actualWeight: real,
    list: ListKey -> PerformanceStats)

  /** The expected times of every list can be computed without dividing by zero. */
  predicate CanDivide(view: RunnerView) {
    view.actualDistance.Some? ==>
      forall key: ListKey, i :: 0 <= i < |view.list(key).momentums| && view.list(key).momentums[i].Some? ==>
        view.actualWeight != 0.0 && view.list(key).momentums[i].value != 0.0
  }

  // ---------------------------------------------------------------------------
  // The raw query data

  function FieldsRow(view: RunnerView, keys: seq<FieldKey>): (r: seq<Feature>)
    ensures |r| == |keys|
  {
    seq(|keys|, i requires 0 <= i < |keys| => view.field(keys[i]))
  }

  function ExpectedTimesOf(view: RunnerView, key: ListKey): seq<Feature>
    requires CanDivide(view)
  {
    Runners.ExpectedTimes(view.actualDistance, view.actualWeight, view.list(key).momentums)
  }

  function StatsRow(stats: PerformanceStats): (r: seq<Feature>)
    ensures |r| == |STAT_KEYS|
  {
    seq(|STAT_KEYS|, j requires 0 <= j < |STAT_KEYS| => stats.stat(STAT_KEYS[j]))
  }

  /** The columns of one performance list: its expected times, its statistics, its starting prices. */
  function Block(view: RunnerView, key: ListKey): seq<Feature>
    requires CanDivide(view)
  {
    ExpectedTimesOf(view, key) + StatsRow(view.list(key)) + view.list(key).startingPrices
  }

  function Blocks(view: RunnerView, keys: seq<ListKey>): seq<Feature>
    requires CanDivide(view)
  {
    if keys == [] then [] else Blocks(view, Init(keys)) + Block(view, Last(keys))
  }

  /** The raw query data: the eight runner features, then one block per performance list. */
  function RawQueryData(view: RunnerView): seq<Feature>
    requires CanDivide(view)
  {
    FieldsRow(view, RECORD_KEYS + ATTRIBUTE_KEYS) + Blocks(view, LIST_KEYS)
  }

  /** Where the block of the k-th performance list starts. */
  function BlockStart(view: RunnerView, k: nat): nat
    requires CanDivide(view) && k <= |LIST_KEYS|
  {
    |RECORD_KEYS + ATTRIBUTE_KEYS| + |Blocks(view, LIST_KEYS[..k])|
  }

  // ---------------------------------------------------------------------------
  // Labels

  /** `classification_result`: the place when it is 1 to 4, otherwise 5 (unplaced or unknown). */
  function ClassificationLabel(result: Option<int>): (r: int)
    ensures 1 <= r <= 5
    ensures r < 5 <==> result.Some? && 1 <= result.value <= 4
    ensures r < 5 ==> r == result.value
  {
    if result.Some? && 1 <= result.value <= 4 then result.value else 5
  }

  /** The known results of the other active runners, told apart by id, in race order. */
  function OtherResults(runner: Runner, active: seq<Runner>): seq<int> {
    if active == [] then []
    else
      var other := Last(active);
      OtherResults(runner, Init(active)) + (if other.id != runner.id && other.result.Some? then [other.result.value] else [])
  }

  /** `all_results`: the runner's own result first, then the other active runners' results. */
  function AllResults(runner: Runner, active: seq<Runner>): (r: seq<int>)
    requires runner.result.Some?
    ensures |r| > 0 && r[0] == runner.result.value
  {
    [runner.result.value] + OtherResults(runner, active)
  }

  function SumOfSquares(xs: seq<int>): (r: real)
    ensures r >= 0.0
  {
    if xs == [] then 0.0 else SumOfSquares(Init(xs)) + (Last(xs) as real) * (Last(xs) as real)
  }

  /** `norm` is the L2 norm of the results: non-negative, and its square is their sum of squares. */
  predicate IsNormOf(norm: real, runner: Runner, active: seq<Runner>) {
    runner.result.Some? ==> norm >= 0.0 && norm * norm == SumOfSquares(AllResults(runner, active))
  }

  /**
   * `regression_result`: the runner's result divided by the L2 norm of all the results (a
   * zero norm is taken as 1, as the normaliser does); None when the runner has no result.
   */
  function RegressionLabel(runner: Runner, active: seq<Runner>, norm: real): (r: Option<real>)
    requires IsNormOf(norm, runner, active)
    ensures r.Some? <==> runner.result.Some?
  {
    if runner.result.None? then None
    else Some(runner.result.value as real / (if norm == 0.0 then 1.0 else norm))
  }

  /** The squared label times the sum of squared results is the squared own result. */
  lemma RegressionLabelSquared(runner: Runner, active: seq<Runner>, norm: real)
    requires runner.result.Some? && IsNormOf(norm, runner, active)
    ensures var y := RegressionLabel(runner, active, norm).value;
      y * y * SumOfSquares(AllResults(runner, active)) == (runner.result.value as real) * (runner.result.value as real)
  {
    var own := runner.result.value as real;
    var all := AllResults(runner, active);
    OwnSquareBound(runner, active);
    if norm == 0.0 {
      SquareNonNegative(own);
      assert own * own == 0.0;
    } else {
      var y := own / norm;
      assert y * norm == own;
      calc {
        y * y * SumOfSquares(all);
      ==
        y * y * (norm * norm);
      ==
        (y * norm) * (y * norm);
      ==
        own * own;
      }
    }
  }

  /** With every result positive, the label lies in (0, 1]. */
  lemma RegressionLabelBounds(runner: Runner, active: seq<Runner>, norm: real)
    requires runner.result.Some? && runner.result.value >= 1 && IsNormOf(norm, runner, active)
    ensures 0.0 < RegressionLabel(runner, active, norm).value <= 1.0
  {
    var own := runner.result.value as real;
    OwnSquareBound(runner, active);
    assert own * own >= 1.0;
    NormAtLeast(own, norm);
    assert norm > 0.0;
    DivisionAtMostOne(own, norm);
  }

  /** A runner that is the only one with a result gets the label 1. */
  lemma RegressionLabelAlone(runner: Runner, active: seq<Runner>, norm: real)
    requires runner.result.Some? && runner.result.value >= 1 && IsNormOf(norm, runner, active)
    requires OtherResults(runner, active) == []
    ensures RegressionLabel(runner, active, norm) == Some(1.0)
  {
    var own := runner.result.value as real;
    var all := AllResults(runner, active);
    assert all == [runner.result.value];
    assert Init(all) == [] && Last(all) == runner.result.value;
    assert SumOfSquares(all) == SumOfSquares([]) + own * own;
    SquareRootUnique(norm, own);
    assert norm != 0.0;
    assert own / norm == 1.0;
  }

  lemma {:induction false} SumOfSquaresPrepend(x: int, xs: seq<int>)
    ensures SumOfSquares([x] + xs) == (x as real) * (x as real) + SumOfSquares(xs)
    decreases |xs|
  {
    if xs != [] {
      assert Init([x] + xs) == [x] + Init(xs);
      assert Last([x] + xs) == Last(xs);
      SumOfSquaresPrepend(x, Init(xs));
    } else {
      assert Init([x]) == [];
    }
  }

  lemma OwnSquareBound(runner: Runner, active: seq<Runner>)
    requires runner.result.Some?
    ensures (runner.result.value as real) * (runner.result.value as real) <= SumOfSquares(AllResults(runner, active))
  {
    SumOfSquaresPrepend(runner.result.value, OtherResults(runner, active));
  }

  lemma SquareNonNegative(x: real)
    ensures x * x >= 0.0
  {
  }

  lemma NonNegativeFactor(a: real, b: real)
    requires b > 0.0 && a * b >= 0.0
    ensures a >= 0.0
  {
  }

  lemma NormAtLeast(own: real, norm: real)
    requires own >= 1.0 && norm >= 0.0 && own * own <= norm * norm
    ensures norm >= own
  {
    assert (norm - own) * (norm + own) == norm * norm - own * own;
    NonNegativeFactor(norm - own, norm + own);
  }

  lemma DivisionAtMostOne(own: real, norm: real)
    requires 0.0 < own <= norm
    ensures 0.0 < own / norm <= 1.0
  {
    assert (own / norm) * norm == own;
  }

  lemma SquareRootUnique(norm: real, own: real)
    requires norm >= 0.0 && own >= 1.0 && norm * norm == own * own
    ensures norm == own
  {
    NormAtLeast(own, norm);
    NormAtLeast(norm, own);
  }

  // ---------------------------------------------------------------------------
  // generate_sample

  /** The dictionary `generate_sample` returns. */
  datatype SampleRecord = SampleRecord(
    rawQueryData: seq<Feature>,
    fixedQueryData: Option<seq<real>>,
    regressionResult: Option<real>,
    classificationResult: int,
    weight: real,
    predictorVersion: string)

  /**
   * `generate_sample`: the raw features built column by column, both labels, the race's total
   * value as the weight, and the current version. The L2 norm of the results is supplied by the
   * caller.
   */
  method GenerateSample(view: RunnerView, runner: Runner, active: seq<Runner>, totalValue: real, norm: real)
    returns (sample: SampleRecord)
    requires CanDivide(view) && IsNormOf(norm, runner, active)
    ensures sample.rawQueryData == RawQueryData(view)
    ensures sample.fixedQueryData == None
    ensures sample.regressionResult == RegressionLabel(runner, active, norm)
    ensures sample.classificationResult == ClassificationLabel(runner.result)
    ensures sample.weight == totalValue && sample.predictorVersion == Versions.VERSION
  {
    var fields := FieldColumns(view);
    var raw := ListColumns(view, fields);
    sample := SampleRecord(raw, None, RegressionLabel(runner, active, norm), ClassificationLabel(runner.result),
                           totalValue, Versions.VERSION);
  }

  /** Lines 20-22 of `generate_sample`: the record fields, then the attribute fields, in key order. */
  method FieldColumns(view: RunnerView) returns (raw: seq<Feature>)
    ensures raw == FieldsRow(view, RECORD_KEYS + ATTRIBUTE_KEYS)
  {
    raw := [];
    for i := 0 to |RECORD_KEYS|
      invariant raw == FieldsRow(view, RECORD_KEYS[..i])
    {
      raw := raw + [view.field(RECORD_KEYS[i])];
    }
    assert RECORD_KEYS[..|RECORD_KEYS|] == RECORD_KEYS;
    for i := 0 to |ATTRIBUTE_KEYS|
      invariant raw == FieldsRow(view, RECORD_KEYS + ATTRIBUTE_KEYS[..i])
    {
      assert RECORD_KEYS + ATTRIBUTE_KEYS[..i + 1] == (RECORD_KEYS + ATTRIBUTE_KEYS[..i]) + [ATTRIBUTE_KEYS[i]];
      raw := raw + [view.field(ATTRIBUTE_KEYS[i])];
    }
    assert ATTRIBUTE_KEYS[..|ATTRIBUTE_KEYS|] == ATTRIBUTE_KEYS;
  }

  /** Lines 23-25 of `generate_sample`: one block per performance list follows the fields. */
  method ListColumns(view: RunnerView, fields: seq<Feature>) returns (raw: seq<Feature>)
    requires CanDivide(view)
    ensures raw == fields + Blocks(view, LIST_KEYS)
  {
    raw := fields;
    for i := 0 to |LIST_KEYS|
      invariant raw == fields + Blocks(view, LIST_KEYS[..i])
    {
      var block := BlockColumns(view, LIST_KEYS[i]);
      BlocksSnoc(view, LIST_KEYS, i);
      raw := raw + block;
    }
    assert LIST_KEYS[..|LIST_KEYS|] == LIST_KEYS;
  }

  lemma BlocksSnoc(view: RunnerView, keys: seq<ListKey>, i: nat)
    requires CanDivide(view) && i < |keys|
    ensures Blocks(view, keys[..i + 1]) == Blocks(view, keys[..i]) + Block(view, keys[i])
  {
    assert Init(keys[..i + 1]) == keys[..i] && Last(keys[..i + 1]) == keys[i];
  }

  /** The columns one performance list contributes, in the order the inner loops of `generate_sample` extend them. */
  method BlockColumns(view: RunnerView, key: ListKey) returns (block: seq<Feature>)
    requires CanDivide(view)
    ensures block == Block(view, key)
  {
    var stats := view.list(key);
    block := Runners.ExpectedTimes(view.actualDistance, view.actualWeight, stats.momentums);
    for j := 0 to |STAT_KEYS|
      invariant block == ExpectedTimesOf(view, key) + StatsRow(stats)[..j]
    {
      block := block + [stats.stat(STAT_KEYS[j])];
    }
    assert StatsRow(stats)[..|STAT_KEYS|] == StatsRow(stats);
    block := block + stats.startingPrices;
  }

  // ---------------------------------------------------------------------------
  // The column layout

  /** The first eight columns are barrier, number, weight, age, carrying, races per year, spell and up. */
  lemma RawQueryDataHead(view: RunnerView)
    requires CanDivide(view)
    ensures |RawQueryData(view)| >= 8
    ensures RawQueryData(view)[..8]
         == [view.field(Barrier), view.field(Number), view.field(Weight), view.field(Age),
             view.field(Carrying), view.field(RacesPerYear), view.field(Spell), view.field(Up)]
  {
  }

  /** A block holds the list's expected times (three, or one per momentum), nine statistics and its starting prices. */
  lemma BlockSize(view: RunnerView, key: ListKey)
    requires CanDivide(view)
    ensures |Block(view, key)|
         == (if view.actualDistance.None? then 3 else |view.list(key).momentums|) + 9 + |view.list(key).startingPrices|
  {
  }

  lemma {:induction false} BlocksPrefix(view: RunnerView, keys: seq<ListKey>, k: nat)
    requires CanDivide(view) && k < |keys|
    ensures |Blocks(view, keys[..k])| + |Block(view, keys[k])| <= |Blocks(view, keys)|
    ensures Blocks(view, keys)[|Blocks(view, keys[..k])|..|Blocks(view, keys[..k])| + |Block(view, keys[k])|] == Block(view, keys[k])
    decreases |keys|
  {
    if k == |keys| - 1 {
      assert keys[..k] == Init(keys);
    } else {
      assert Init(keys)[..k] == keys[..k];
      BlocksPrefix(view, Init(keys), k);
    }
  }

  /**
   * The k-th performance list's block sits at `BlockStart(view, k)`: its statistics follow its
   * expected times in the order earnings, earnings potential, fourth %, result potential, ROI,
   * second %, starts, third %, win %.
   */
  lemma RawQueryDataBlock(view: RunnerView, k: nat, j: nat)
    requires CanDivide(view) && k < |LIST_KEYS| && j < |STAT_KEYS|
    ensures BlockStart(view, k) + |Block(view, LIST_KEYS[k])| <= |RawQueryData(view)|
    ensures RawQueryData(view)[BlockStart(view, k)..BlockStart(view, k) + |Block(view, LIST_KEYS[k])|] == Block(view, LIST_KEYS[k])
    ensures RawQueryData(view)[BlockStart(view, k) + |ExpectedTimesOf(view, LIST_KEYS[k])| + j]
         == view.list(LIST_KEYS[k]).stat(STAT_KEYS[j])
  {
    var block := Block(view, LIST_KEYS[k]);
    var e := ExpectedTimesOf(view, LIST_KEYS[k]);
    BlockInRow(view, k);
    StatInBlock(view, LIST_KEYS[k], j);
    var start := BlockStart(view, k);
    assert RawQueryData(view)[start + |e| + j] == RawQueryData(view)[start..start + |block|][|e| + j];
  }

  /** The k-th block sits in the raw row right after the eight runner features and the blocks before it. */
  lemma BlockInRow(view: RunnerView, k: nat)
    requires CanDivide(view) && k < |LIST_KEYS|
    ensures BlockStart(view, k) + |Block(view, LIST_KEYS[k])| <= |RawQueryData(view)|
    ensures RawQueryData(view)[BlockStart(view, k)..BlockStart(view, k) + |Block(view, LIST_KEYS[k])|] == Block(view, LIST_KEYS[k])
  {
    var head := FieldsRow(view, RECORD_KEYS + ATTRIBUTE_KEYS);
    var blocks := Blocks(view, LIST_KEYS);
    var start := |Blocks(view, LIST_KEYS[..k])|;
    var block := Block(view, LIST_KEYS[k]);
    BlocksPrefix(view, LIST_KEYS, k);
    SliceAfter(head, blocks, start, |block|);
    assert RawQueryData(view) == head + blocks;
    assert BlockStart(view, k) == |head| + start;
  }

  lemma SliceAfter<T>(head: seq<T>, tail: seq<T>, start: nat, len: nat)
    requires start + len <= |tail|
    ensures (head + tail)[|head| + start..|head| + start + len] == tail[start..start + len]
  {
  }

  /** Statistic `j` of a list follows its expected times in its block. */
  lemma StatInBlock(view: RunnerView, key: ListKey, j: nat)
    requires CanDivide(view) && j < |STAT_KEYS|
    ensures |ExpectedTimesOf(view, key)| + j < |Block(view, key)|
    ensures Block(view, key)[|ExpectedTimesOf(view, key)| + j] == view.list(key).stat(STAT_KEYS[j])
  {
    var e := ExpectedTimesOf(view, key);
    assert Block(view, key)[|e| + j] == StatsRow(view.list(key))[j];
  }

  // ---------------------------------------------------------------------------
  // A stored sample

  /**
   * A sample as the provider keeps it. Its fixed query data starts out as None; the first read
   * computes it from this runner's raw row and the other active runners' raw rows, stores it and
   * saves the sample; `saves` counts those saves. The imputer and normaliser are the `fix`
   * parameter: it maps the rows, this runner's first, to this runner's fixed row.
   */
  class Sample {
    var rawQueryData: seq<Feature>
    var fixedQueryData: Option<seq<real>>
    var predictorVersion: string
    var saves: nat

    /** A sample is saved once, when its fixed row is first stored, and never before. */
    ghost predicate Valid()
      reads this
    {
      saves <= 1 && (fixedQueryData.None? ==> saves == 0)
    }

    /** A sample loaded from the store, with its fixed row if an earlier read saved one. */
    constructor (record: SampleRecord)
      ensures Valid()
      ensures rawQueryData == record.rawQueryData && fixedQueryData == record.fixedQueryData
      ensures predictorVersion == record.predictorVersion && saves == 0
    {
      rawQueryData := record.rawQueryData;
      fixedQueryData := record.fixedQueryData;
      predictorVersion := record.predictorVersion;
      saves := 0;
    }

    /** `has_expired`: the sample was generated by another major version. */
    predicate HasExpired()
      reads this
      ensures HasExpired() <==> Versions.Major(predictorVersion) != "1"
    {
      Versions.MajorOfVersion();
      Versions.Incompatible(predictorVersion)
    }

    /**
     * `fixed_query_data`: on the first read, fix this row together with the other active
     * runners' rows, store the result and save once; afterwards return the stored row without
     * computing or saving anything.
     */
    method FixedQueryData(others: seq<seq<Feature>>, fix: seq<seq<Feature>> -> seq<real>)
      returns (data: seq<real>)
      requires Valid()
      modifies this
      ensures Valid()
      ensures rawQueryData == old(rawQueryData) && predictorVersion == old(predictorVersion)
      ensures fixedQueryData == Some(data)
      ensures old(fixedQueryData).Some? ==> data == old(fixedQueryData).value && saves == old(saves)
      ensures old(fixedQueryData).None? ==> data == fix([old(rawQueryData)] + others) && saves == old(saves) + 1
    {
      if fixedQueryData.None? {
        fixedQueryData := Some(fix([rawQueryData] + others));
        saves := saves + 1;
      }
      data := fixedQueryData.value;
    }
  }

  /**
   * Reading the fixed row twice gives the same row, even when the second read sees other rows
   * or another imputer, and saves the sample at most once.
   */
  method ReadFixedQueryDataTwice(sample: Sample, others1: seq<seq<Feature>>, others2: seq<seq<Feature>>,
                                 fix1: seq<seq<Feature>> -> seq<real>, fix2: seq<seq<Feature>> -> seq<real>)
    returns (first: seq<real>, second: seq<real>)
    requires sample.Valid()
    modifies sample
    ensures sample.Valid()
    ensures first == second && sample.fixedQueryData == Some(first)
    ensures old(sample.fixedQueryData).Some? ==> first == old(sample.fixedQueryData).value
    ensures old(sample.fixedQueryData).None? ==> first == fix1([old(sample.rawQueryData)] + others1)
    ensures sample.saves <= 1 && sample.saves <= old(sample.saves) + 1
    ensures sample.rawQueryData == old(sample.rawQueryData)
  {
    first := sample.FixedQueryData(others1, fix1);
    second := sample.FixedQueryData(others2, fix2);
  }
}

=== FILE: seqs.dfy ===
/** Sequence helpers shared by the modules: list comprehensions with an `if`, and subsequences. */
module Seqs {

  function Last<T>(s: seq<T>): T
    requires |s| > 0
  {
    s[|s| - 1]
  }

  function Init<T>(s: seq<T>): seq<T>
    requires |s| > 0
  {
    s[..|s| - 1]
  }

  /** `[x for x in s if p(x)]`: the elements of `s` that satisfy `p`, in their original order. */
  function Filter<T>(s: seq<T>, p: T -> bool): (r: seq<T>)
    ensures |r| <= |s|
  {
    if s == [] then [] else Filter(Init(s), p) + (if p(Last(s)) then [Last(s)] else [])
  }

  /** Appending one element extends the filtered sequence by that element when it passes. */
  lemma FilterSnoc<T>(s: seq<T>, x: T, p: T -> bool)
    ensures Filter(s + [x], p) == Filter(s, p) + (if p(x) then [x] else [])
  {
    assert Init(s + [x]) == s && Last(s + [x]) == x;
  }

  /** An element is kept exactly when it is in `s` and passes `p`. */
  lemma {:induction false} FilterMembership<T>(s: seq<T>, p: T -> bool)
    ensures forall i :: 0 <= i < |Filter(s, p)| ==> Filter(s, p)[i] in s && p(Filter(s, p)[i])
    ensures forall i :: 0 <= i < |s| && p(s[i]) ==> s[i] in Filter(s, p)
  {
    if s != [] {
      FilterMembership(Init(s), p);
      var r := Filter(s, p);
      forall i | 0 <= i < |s| && p(s[i]) ensures s[i] in r {
        if i < |s| - 1 {
          assert s[i] == Init(s)[i];
        }
      }
    }
  }

  /** Each element passing `p` is kept as many times as it occurs in `s`; the others are dropped. */
  lemma {:induction false} FilterMultiset<T>(s: seq<T>, p: T -> bool)
    ensures forall x :: multiset(Filter(s, p))[x] == if p(x) then multiset(s)[x] else 0
  {
    if s != [] {
      FilterMultiset(Init(s), p);
      assert s == Init(s) + [Last(s)];
    }
  }

  /** `r` is `s` with some elements deleted: the survivors keep their relative order. */
  predicate SubseqOf<T(==)>(r: seq<T>, s: seq<T>)
    decreases |s|
  {
    || r == []
    || (&& |s| > 0
        && (|| SubseqOf(r, Init(s))
            || (|r| > 0 && Last(r) == Last(s) && SubseqOf(Init(r), Init(s)))))
  }

  lemma {:induction false} FilterIsSubseq<T>(s: seq<T>, p: T -> bool)
    ensures SubseqOf(Filter(s, p), s)
  {
    if s != [] {
      FilterIsSubseq(Init(s), p);
      var r := Filter(s, p);
      if p(Last(s)) {
        assert Last(r) == Last(s) && Init(r) == Filter(Init(s), p);
      } else {
        assert r == Filter(Init(s), p);
      }
    }
  }

  lemma {:induction false} FilterConcat<T>(a: seq<T>, b: seq<T>, p: T -> bool)
    ensures Filter(a + b, p) == Filter(a, p) + Filter(b, p)
    decreases |b|
  {
    if b == [] {
      assert a + b == a;
    } else {
      assert Init(a + b) == a + Init(b);
      assert Last(a + b) == Last(b);
      FilterConcat(a, Init(b), p);
    }
  }

  /** A filter that every element passes changes nothing. */
  lemma {:induction false} FilterKeepsAll<T>(s: seq<T>, p: T -> bool)
    requires forall i :: 0 <= i < |s| ==> p(s[i])
    ensures Filter(s, p) == s
  {
    if s != [] {
      FilterKeepsAll(Init(s), p);
    }
  }

  /** A filter that no element passes leaves nothing. */
  lemma {:induction false} FilterDropsAll<T>(s: seq<T>, p: T -> bool)
    requires forall i :: 0 <= i < |s| ==> !p(s[i])
    ensures Filter(s, p) == []
  {
    if s != [] {
      FilterDropsAll(Init(s), p);
    }
  }

  /** Filters that agree on every element of `s` keep the same elements. */
  lemma {:induction false} FilterCongruent<T>(s: seq<T>, p: T -> bool, q: T -> bool)
    requires forall i :: 0 <= i < |s| ==> p(s[i]) == q(s[i])
    ensures Filter(s, p) == Filter(s, q)
  {
    if s != [] {
      FilterCongruent(Init(s), p, q);
    }
  }

  function Both<T>(p: T -> bool, q: T -> bool): T -> bool {
    x => p(x) && q(x)
  }

  /** Filtering twice is filtering once by both conditions. */
  lemma {:induction false} FilterFilter<T>(s: seq<T>, p: T -> bool, q: T -> bool)
    ensures Filter(Filter(s, p), q) == Filter(s, Both(p, q))
  {
    if s != [] {
      FilterFilter(Init(s), p, q);
      var x := Last(s);
      FilterConcat(Filter(Init(s), p), if p(x) then [x] else [], q);
      if p(x) {
        assert Filter([x], q) == Filter([], q) + (if q(x) then [x] else []);
      }
    }
  }
}

=== FILE: versions.dfy ===
/** The package version and the compatibility rule built on it: versions agree when their major parts agree. */
module Versions {

  /** `__version__` of the package. */
  const VERSION: string := "1.0.0a1"

  /** `version.split('.')[0]`: the text before the first '.', or the whole text when it has none. */
  function Major(version: string): (r: string)
    ensures '.' !in r
    ensures r == version || (|r| < |version| && version[..|r|] == r && version[|r|] == '.')
  {
    if version == [] || version[0] == '.' then []
    else [version[0]] + Major(version[1..])
  }

  /** The major part is recovered from a version written `major.rest`. */
  lemma {:induction false} MajorOfDotted(major: string, rest: string)
    requires '.' !in major
    ensures Major(major + "." + rest) == major
  {
    if major != [] {
      assert (major + "." + rest)[1..] == major[1..] + "." + rest;
      MajorOfDotted(major[1..], rest);
    }
  }

  lemma MajorOfVersion()
    ensures Major(VERSION) == "1"
  {
    MajorOfDotted("1", "0.0a1");
    assert "1" + "." + "0.0a1" == VERSION;
  }

  /** Versions that differ only after the first '.' share their major part. */
  lemma SameMajor(major: string, rest1: string, rest2: string)
    requires '.' !in major
    ensures Major(major + "." + rest1) == Major(major + "." + rest2)
  {
    MajorOfDotted(major, rest1);
    MajorOfDotted(major, rest2);
  }

  /**
   * Data from `version` is stale when its major part differs from the package's. The package
   * is at major version 1, so exactly the versions "1" and "1.<anything>" stay compatible.
   */
  predicate Incompatible(version: string)
    ensures Incompatible(version) <==> !(version == "1" || (|version| >= 2 && version[..2] == "1."))
  {
    MajorOfVersion();
    Major(version) != Major(VERSION)
  }
}

=== FILE: wrappers.dfy ===
/** Values for the places where the Python code returns None or raises an exception. */
module Wrappers {

  datatype Option<+T> = None | Some(value: T)

  /** The outcome of an operation that may raise. */
  datatype Result<+T> = Success(value: T) | Failure(error: Error)

  /** The Python exceptions the modelled code can raise. */
  datatype Error =
    | AttributeError(attribute: string)  // an attribute or method the object does not have
    | TypeError(message: string)
    | ValueError(message: string)
}
